=== FILE: README.md ===
# NutriCoach-AI photo-to-nutrition core, in Dafny

This project models the part of NutriCoach-AI that turns a food photo into food candidates with
portions and nutrition estimates, together with the services around it: target and summary
arithmetic, analytics charts, the reminder scheduler's bookkeeping and the onboarding wizard.
One Dafny module stands for each source file of that core:

- `PhotoAnalysis` (`api/routes.py`): `_allowed_file`, and `_analyze_food_photo`. The analysis
  covers the vision reply and its JSON-or-text choice, the `meta` record, the fallback to the
  mock classifier, candidate parsing, the per-candidate enrichment loop and the catch-all.
  The text parser it calls is a parameter: `ParseAsWritten` gives the module as it stands
  (first finding below), `ParseSpec` the parser with `re` available.
- `VisionTextParser` and `FallbackPatterns` (`api/routes.py`): `_parse_vision_text_response`.
  The line scanner runs over mutable item dictionaries (a class `ItemDict`) and is proved equal
  to a functional specification. The three keyword patterns are modelled as string scanners.
- `FoodParser`: `_parse_portion`, `estimate_portions_from_description`,
  `merge_nutrition_sources`, `validate_nutrition_data` and `parse_vision_results`.
- `NutritionSearch`: `search_food`, `_normalize_openfoodfacts_product`,
  `get_nutrition_estimate` and `_get_basic_estimate`. The two remote searches are a
  `SearchOracle`, a pair of functions from query to results.
- `OllamaClient`: the URL join of `_make_request`, the system message of `chat`,
  `vision_classify` and `_parse_vision_text`.
- `VisionClassifier`: the `VisionClassifier` class, with the random portion choice as a
  nondeterministic choice from its fixed list.
- `Analytics`: the computations behind streaks, weight trends, macro shares and the
  nutrition and water charts. Query results are input sequences and dates are day numbers.
- `Recommendations`: daily targets, daily and weekly summaries, food suggestions and
  progress insights.
- `ReminderScheduler`: the `ReminderScheduler` class and the global instance.
  The APScheduler handle is a set of job ids, and sent notifications are a list of reminders.
- `Onboarding`: the wizard over the session dictionary, as a class `Wizard`.
- Shared modules: `Common` (Option, Outcome for "returns or raises", `Take`, `MapAll`),
  `Strings` (Python string operations on `seq<char>`, restricted to ASCII characters), `Numbers` (round-half-even on exact
  reals, decimal digit strings, `float(str)` on plain decimals) and `Records` (the dictionaries
  that travel along the photo path).

JSON decoding is a function parameter `decode` returning `Decoded(elements)` or
`DecodeError(message)`. The vision model's reply, the clock's hour, today's day number and
weekday, the active users and the logs are parameters.

Some consequences of the code as it stands, which the model keeps:

- A marker line such as "1. Chicken, 150g" keeps portion "100g", because a marker line is never
  inspected for a portion (`api/routes.py:853-884`).
- Nutrition values on the photo path are never clamped: `validate_nutrition_data` is not
  called there.
- A portion of 0 g is possible, for example from "0g".
- A single JSON object is not wrapped into a list: only a bracketed span is decoded.

## Model

| member | source | states |
|---|---|---|
| PhotoAnalysis.AllowedFileIff | api/routes.py:688-691 | a file name is accepted exactly when it has a '.' whose following text has no further '.' and lower-cases to png, jpg, jpeg, gif or webp (both directions) |
| PhotoAnalysis.LazyBracketSpan | api/routes.py:750 | no span exactly when no ']' follows the first '['; otherwise the span runs in the reply from the first '[' to the first ']' after it |
| PhotoAnalysis.LazySpanOf | api/routes.py:750 | given the first '[' and the first ']' after it, the span is exactly the text between them, both included |
| PhotoAnalysis.LazyPrefixOfGreedy | api/routes.py:750 | whenever the non-greedy span exists, the greedy span of `vision_classify` exists too and starts with it |
| PhotoAnalysis.TextFallback | api/routes.py:759-767 | the items are the given text parser's; source is 'vision' exactly when it found items; warning is unset and the errors are kept |
| PhotoAnalysis.VisionStage | api/routes.py:723-777 | for any text parser: no vision model gives no items and the "No vision model configured" warning; an empty or missing reply gives no items and the "returned no result" warning; at most one error is recorded |
| PhotoAnalysis.DecodeErrorRecorded | api/routes.py:756-762 | a decode error of the span appends "Vision JSON parse error: " plus the message, and the items are the given text parser's |
| PhotoAnalysis.DecodedUsed | api/routes.py:751-755 | for any text parser, a decoded span becomes the vision items, with source 'vision', no warning and no errors |
| PhotoAnalysis.ElemCandidate | api/routes.py:788 | an object element becomes the candidate `parse_vision_results` builds; any other JSON value raises "'<type>' object has no attribute 'get'" |
| PhotoAnalysis.Enriched | api/routes.py:791-823 | enrichment keeps name, grams and confidence, and leaves a candidate without a name or without search hits unchanged |
| PhotoAnalysis.Enrich | api/routes.py:791-823 | the enrichment loop returns one enriched candidate per candidate, as `EnrichAll` defines |
| PhotoAnalysis.EnrichSameSearch | api/routes.py:794-823 | when the second search answers as the first, enrichment changes nothing: the same top 3 hits and the same estimate |
| PhotoAnalysis.Detected | api/routes.py:779-784 | without vision items, the items are exactly the classifier's, in order; otherwise the vision items |
| PhotoAnalysis.ElemCandidatesPerItem | api/routes.py:788 | candidate parsing succeeds exactly when every element succeeds |
| PhotoAnalysis.AnalyzeFoodPhoto | api/routes.py:712-836 | for the given text parser, the returned candidates and meta are the specified analysis for some result the mock classifier may return |
| PhotoAnalysis.AnalyzeDetected | api/routes.py:779-832 | after the vision stage: fallback when nothing was detected, candidates, enrichment, or the generic failure when a candidate raises |
| PhotoAnalysis.FallbackSource | api/routes.py:779-784 | for any text parser, unless the catch-all fired, source is 'fallback' exactly when the vision stage produced no items |
| PhotoAnalysis.MockItemParses | services/vision_classifier.py:105-109 | every mock item has a name and a text portion, so parsing it cannot raise |
| PhotoAnalysis.NoModelFallback | api/routes.py:775-784 | for any text parser, with no vision model, meta is source 'fallback' with the no-model warning and no errors, and there are three candidates |
| PhotoAnalysis.AsWrittenTextReply | api/routes.py:759-767 | with the text parser as written, a non-empty reply without a span, or whose span does not decode, gives the one "Mixed Food" item with source 'vision' |
| PhotoAnalysis.AsWrittenNoFallback | api/routes.py:759-788 | so, as written, such a reply never reaches the fallback classifier: one candidate "Mixed Food", 100 g, confidence 0.5, source 'vision' |
| VisionTextParser.StripListPrefix | api/routes.py:860 | the result is a suffix of the line that does not start with a digit, '.', '-', '•' or whitespace |
| VisionTextParser.RemoveItemWords | api/routes.py:861 | deleting 'food'/'dish'/'item' and the spaces and colons after them never lengthens the text |
| VisionTextParser.NameOf | api/routes.py:865 | the name has no ',' or '(' and no surrounding whitespace |
| VisionTextParser.GramDigitsFrom | api/routes.py:873-875 | a found portion is a non-empty run of digits |
| VisionTextParser.NormalizeConfidence | api/routes.py:881-884 | the confidence lies in [0, 1]; values up to 1 are kept; larger ones are divided by 100 and capped at 1 |
| VisionTextParser.Update | api/routes.py:875 | changing the current item changes every appended copy that is the same dictionary, and nothing before them |
| VisionTextParser.AcceptedItems | api/routes.py:901-908 | every kept match has a 4-49 character name, portion "100g" and confidence 0.6, and there are no more items than matches |
| VisionTextParser.AcceptedItemsAppend | api/routes.py:899-908 | the items kept from two lists of matches are the items kept from each, concatenated |
| VisionTextParser.FallbackSpec | api/routes.py:890-912 | the keyword fallback yields at most 3 items, each with a 4-49 character name, "100g" and 0.6 |
| VisionTextParser.ParseSpec | api/routes.py:919 | the parser returns at most 5 items |
| VisionTextParser.ItemDict.constructor | api/routes.py:864-868 | a new item dictionary holds the given name, portion and confidence |
| VisionTextParser.ScanLine | api/routes.py:847-884 | one iteration on the dictionaries mirrors one step of the line specification; it appends at most the current dictionary |
| VisionTextParser.MarkerLine | api/routes.py:853-868 | a marker line saves the current item and starts a new one, mirroring the specification |
| VisionTextParser.SaveCurrent | api/routes.py:855-856 | the current dictionary is appended exactly when it has a non-empty name |
| VisionTextParser.SetPortion | api/routes.py:873-875 | writing the portion into the shared dictionary is the specification's update of the current item and all its copies |
| VisionTextParser.SetConfidence | api/routes.py:879-884 | writing the confidence into the shared dictionary is the specification's update |
| VisionTextParser.UpdateMirrored | api/routes.py:875 | after the current dictionary is mutated, the list of dictionaries still mirrors the updated state |
| VisionTextParser.ScanLines | api/routes.py:844-888 | the scanning loop returns exactly the items of the line specification |
| VisionTextParser.Fallback | api/routes.py:890-912 | the pattern loops with their breaks return exactly the fallback specification |
| VisionTextParser.AcceptMatches | api/routes.py:900-912 | one pattern's inner loop either finishes with fewer than 3 items or stops with the final fallback result |
| VisionTextParser.AcceptStep | api/routes.py:901-908 | one match adds its item exactly when its cleaned text is 4-49 characters long |
| VisionTextParser.FallbackSettles | api/routes.py:909-912 | once 3 items are kept, later matches cannot change the result |
| VisionTextParser.SeenPrefix | api/routes.py:899-901 | the matches seen so far are a prefix of all the matches of the three patterns |
| VisionTextParser.ParseVisionTextResponse | api/routes.py:839-919 | the parser returns exactly the intended result: scanned items, else fallback items, at most 5 |
| VisionTextParser.GramsTextOf | api/routes.py:875 | a run of digits followed by "g" is a grams portion |
| VisionTextParser.StepWellFormed | api/routes.py:847-884 | one line keeps every saved item named, with confidence in [0, 1] and a grams portion |
| VisionTextParser.MarkerWellFormed | api/routes.py:853-868 | a marker line keeps the items well formed |
| VisionTextParser.UpdateWellFormed | api/routes.py:871-884 | a portion or confidence update keeps the items well formed |
| VisionTextParser.ScanWellFormed | api/routes.py:847-888 | the whole scan keeps the items well formed |
| VisionTextParser.ParsedItemsWellFormed | api/routes.py:839-919 | every returned item has a non-empty name, a confidence in [0, 1] and a "<digits>g" portion; fallback items have 4-49 character names and confidence 0.6 |
| VisionTextParser.ScannedEmittable | api/routes.py:847-888 | every scanned item can be emitted |
| VisionTextParser.FallbackEmittable | api/routes.py:890-912 | every fallback item can be emitted |
| VisionTextParser.OnlyMarkersChangeNames | api/routes.py:871-884 | a non-marker line changes no name and neither creates nor drops the current item |
| VisionTextParser.OneMarkerLine | api/routes.py:853-868 | a reply of one marker line that names something yields exactly one item: the cleaned name, portion "100g" and confidence 0.7 |
| VisionTextParser.MarkerClassified | api/routes.py:853-861 | a line with a marker word is classified as a marker, with its prefix and item words removed |
| VisionTextParser.ParseAsWritten | api/routes.py:839-919 | the parser as written returns at most 5 items |
| VisionTextParser.ScanAsWrittenNeverStarts | api/routes.py:860 | without `re` imported, the scan never builds an item: it either finds no marker line or raises |
| VisionTextParser.AsWrittenAlwaysMixedFood | api/routes.py:914-917 | as written, every reply yields exactly the one generic item "Mixed Food", "100g", 0.5 |
| FallbackPatterns.NonDotRunEnd | api/routes.py:894 | the phrase after a lead word runs to the next '.' or the end of the text |
| FallbackPatterns.LeadThenPhrase | api/routes.py:894-895 | a sentence match ends after its start and inside the text |
| FallbackPatterns.MatchAt | api/routes.py:893-896 | any pattern match at a position ends after it and inside the text |
| FallbackPatterns.MatchesOfPrefix | api/routes.py:899-900 | the matches of the first patterns are a prefix of the matches of more patterns |
| FoodParser.UnitFactor | services/food_parser.py:120-140 | the unit multiplier is at least 1 |
| FoodParser.ParsePortion | services/food_parser.py:105-140 | grams are never negative; empty text or text without a number gives 100 |
| FoodParser.PortionOfRun | services/food_parser.py:105-140 | for every text with a number: the value of the first `\d+\.?\d*` match of the lower-cased, stripped text times the first unit's multiplier |
| FoodParser.PortionWithoutDigits | services/food_parser.py:112-115 | a text without digits is 100 g |
| Numbers.FirstNumber | services/food_parser.py:113-117 | no number exactly when the text has no digit; a number found is never negative |
| Numbers.FirstNumberRun | services/food_parser.py:113-117 | the number is the value of the leftmost `\d+\.?\d*` match: the first digit run, then, when a '.' follows it, the '.' and the (possibly empty) digit run after it |
| Numbers.NumberRunExists | services/food_parser.py:113 | every text with a digit has such a leftmost match |
| FoodParser.LeadingPortion | services/food_parser.py:113-140 | a text starting with a digit run is that number times its unit factor |
| FoodParser.OneCup | services/food_parser.py:126-127 | "1 cup" is 240 g |
| FoodParser.HundredFiftyGrams | services/food_parser.py:136-137 | "150g" is 150 g |
| FoodParser.GramsPortion | services/food_parser.py:113-137 | any "<digits>g" text is the value of its digits |
| FoodParser.GramsOnly | services/food_parser.py:120-140 | a text of digits and 'g' only has unit factor 1 |
| FoodParser.PortionGrams | services/food_parser.py:18 | a missing portion is '100g'; `None` or another falsy value gives 100; a truthy non-string raises "'<type>' object has no attribute 'lower'"; a string is parsed |
| FoodParser.MissingPortion | services/food_parser.py:18 | an item without a portion gets 100 g |
| FoodParser.HundredGrams | services/food_parser.py:18 | the default "100g" parses to 100 g |
| FoodParser.FirstCount | services/food_parser.py:76-85 | a found count pattern sits at a digit run followed by the unit |
| FoodParser.FirstCountLeftmost | services/food_parser.py:95 | the search finds the leftmost occurrence: nothing matches before it |
| FoodParser.RuleGrams | services/food_parser.py:76-89 | a table entry with non-negative factors yields non-negative grams |
| FoodParser.SourcesNotDefault | services/food_parser.py:75-103 | no table entry is named 'default' |
| FoodParser.RulesNonNegative | services/food_parser.py:76-89 | every factor and constant of the table is non-negative |
| FoodParser.FirstRule | services/food_parser.py:94-100 | the chosen entry matches the description |
| FoodParser.FirstRuleFirst | services/food_parser.py:94-100 | no earlier entry matches |
| FoodParser.EstimatePortions | services/food_parser.py:72-103 | grams are never negative; 100 g 'default' exactly when no entry matches; otherwise the grams and pattern of the first entry that matches |
| FoodParser.NoDigitNoCount | services/food_parser.py:76-85 | without a digit, no counted pattern matches |
| FoodParser.SmallPortion | services/food_parser.py:86 | a description without digits that mentions "small" is 50 g 'small' |
| FoodParser.MediumPortion | services/food_parser.py:87 | without digits and "small", a description that mentions "medium" is 100 g 'medium' |
| FoodParser.LargePortion | services/food_parser.py:88 | without digits, "small" and "medium", "large" is 200 g 'large' |
| FoodParser.HandfulPortion | services/food_parser.py:89 | without digits and the other size words, "handful" is 30 g 'handful' |
| FoodParser.DefaultPortion | services/food_parser.py:94-103 | without digits and any size word, the default 100 g applies |
| FoodParser.AsFloat | services/food_parser.py:176-179 | numbers coerce to themselves and `None` does not coerce |
| FoodParser.MergeSources | services/food_parser.py:159-180 | 'vision', 'search' and 'user' are listed exactly for the non-empty inputs |
| FoodParser.FirstUnordered | services/food_parser.py:168 | the first key whose search value cannot be compared with 0; all earlier keys can |
| FoodParser.MergeVision | services/food_parser.py:158-163 | every key holds its vision value if present, else 0 |
| FoodParser.VisionStage | services/food_parser.py:158-163 | defines a key's value after the vision stage: the vision value, else 0 (no contract of its own; MergePriority states the order of the stages) |
| FoodParser.MergeSearch | services/food_parser.py:165-170 | a non-numeric search value raises the comparison error; otherwise positive search values override |
| FoodParser.SearchStage | services/food_parser.py:165-170 | defines a key's value after the search stage: a positive search number, else the vision stage's value (no contract of its own; MergePriority) |
| FoodParser.MergeUser | services/food_parser.py:172-180 | user values that coerce to a number override everything |
| FoodParser.UserOverrides | services/food_parser.py:172-179 | defines when the user's value wins: the key is present and converts with `float` (no contract of its own; MergePriority) |
| FoodParser.MergeNutritionSources | services/food_parser.py:142-182 | the merge raises only on a non-numeric search value; otherwise each of the seven keys holds the merged value and the sources list |
| FoodParser.MergeNothing | services/food_parser.py:147-156 | with no inputs, every value is 0 and the sources are empty |
| FoodParser.MergePriority | services/food_parser.py:146-180 | priority is user, then positive search, then vision; a non-positive search value is ignored |
| FoodParser.RangesProper | services/food_parser.py:189-197 | every range has low ≤ high, and the seven keys are distinct |
| FoodParser.ValidateNutritionData | services/food_parser.py:184-208 | the output has exactly the seven range keys, each the clamped and rounded value |
| FoodParser.ValidatedValue | services/food_parser.py:199-207 | defines one key's validated value: `float` of the value clamped and rounded to 2 decimals, 0 when it does not convert (no contract of its own; ValidatedInRange bounds it) |
| FoodParser.ValidatedInRange | services/food_parser.py:199-207 | every validated value lies in its range |
| FoodParser.CandidateOf | services/food_parser.py:16-32 | a candidate is built exactly when the item has a name and no truthy non-string portion; a missing name raises the `KeyError` whose text is "'name'" |
| FoodParser.Candidates | services/food_parser.py:12-36 | a successful parse has one candidate per item |
| FoodParser.CandidatesPerItem | services/food_parser.py:16-34 | the parse succeeds exactly when every item does, and candidate k is item k's |
| FoodParser.ParseVisionResults | services/food_parser.py:12-36 | the loop returns the specified candidates, or raises as the first bad item does |
| FoodParser.CandidateFields | services/food_parser.py:16-32 | the candidate keeps the name, parses the portion, defaults confidence to 0.7, keeps the top 3 hits and the estimate for its grams |
| NutritionSearch.SearchFood | services/nutrition_search.py:12-24 | Open Food Facts results come before Wikipedia results, cut at 10 |
| NutritionSearch.ProductName | services/nutrition_search.py:115-119 | no name exactly when both names are missing or empty; otherwise `product_name` wins |
| NutritionSearch.CleanValue | services/nutrition_search.py:134-142 | numbers pass through; `None` and missing keys become 0; strings become their float value, or 0 when they do not parse |
| NutritionSearch.NormalizedProduct | services/nutrition_search.py:144-152 | the result has source "openfoodfacts" and carries the cleaned per-100 g nutrition it is given |
| NutritionSearch.NormalizeProduct | services/nutrition_search.py:111-152 | no result exactly when there is no name; otherwise source, stripped "name brand" title, brand snippet and the eight cleaned nutrients |
| NutritionSearch.FirstProduct | services/nutrition_search.py:163-164 | the first result from Open Food Facts with nutrition; none earlier qualifies |
| NutritionSearch.ScaleFactor | services/nutrition_search.py:168 | defines grams / 100 (no contract of its own; ProductLinear, RowLinear and EstimateZero state what the scaling does) |
| NutritionSearch.ScaledProduct | services/nutrition_search.py:168-179 | the scaled estimate is labelled with the product's title |
| NutritionSearch.MatchFrom | services/nutrition_search.py:202-203 | the first table key contained in the lower-cased name; no earlier key is |
| NutritionSearch.BasicRowOf | services/nutrition_search.py:198-216 | the row of the first matching key, or the generic row |
| NutritionSearch.ScaledRow | services/nutrition_search.py:204-213 | fiber, sugar and sodium are 0, with the given label |
| NutritionSearch.BasicEstimate | services/nutrition_search.py:184-225 | fiber, sugar and sodium are 0; the label is 'Basic estimate' when a key matches, else 'Generic estimate' |
| NutritionSearch.NutritionEstimate | services/nutrition_search.py:158-182 | defines the estimate: the first product hit scaled, otherwise the basic estimate (its ensures only spells out this dispatch; EstimateLinear, EstimateZero, BasicRow and GenericRow state its properties) |
| NutritionSearch.BasicRow | services/nutrition_search.py:202-213 | at 100 g the estimate is the table row itself |
| NutritionSearch.GenericRow | services/nutrition_search.py:215-225 | an unmatched name gets 100/5/15/3 per 100 g, scaled, and 'Generic estimate' |
| NutritionSearch.ProductLinear | services/nutrition_search.py:168-177 | every scaled product amount is its 100 g amount times grams/100 |
| NutritionSearch.RowLinear | services/nutrition_search.py:200-213 | every scaled table amount is its 100 g amount times grams/100 |
| NutritionSearch.EstimateLinear | services/nutrition_search.py:158-225 | every estimate is linear in grams, with the same label as at 100 g |
| NutritionSearch.EstimateZero | services/nutrition_search.py:158-225 | 0 g gives all zero amounts |
| OllamaClient.RequestUrlJoin | services/ollama_client.py:65 | the URL is the base without trailing '/', one '/', and the endpoint without leading '/' |
| OllamaClient.RequestUrlSlashes | services/ollama_client.py:65 | an extra trailing slash on the base or leading slash on the endpoint changes nothing |
| OllamaClient.ChatMessages | services/ollama_client.py:107-116 | with a non-empty system prompt the system message comes first, followed by the caller's messages unchanged; otherwise just the caller's messages |
| OllamaClient.KindOf | services/ollama_client.py:208-214 | name/food lines start items; then portion/size lines; then confidence lines (each exactly characterised) |
| OllamaClient.LineConfidence | services/ollama_client.py:214-221 | no number gives 0.7; numbers up to 1 are kept; larger ones are divided by 100, with no clamping |
| OllamaClient.ParseVisionTextSpec | services/ollama_client.py:226 | at most 5 items |
| OllamaClient.TextLine | services/ollama_client.py:207-221 | one loop iteration is one step of the specification |
| OllamaClient.ParseVisionText | services/ollama_client.py:200-226 | the loop returns exactly the specified items |
| OllamaClient.TextScanNoEmpty | services/ollama_client.py:208-210 | only non-empty items are appended |
| OllamaClient.ParsedNonEmpty | services/ollama_client.py:200-226 | no returned item is the empty dictionary |
| OllamaClient.PortionWithoutName | services/ollama_client.py:212-213 | a portion line before any item creates a nameless item holding the whole line |
| OllamaClient.ConfidenceNotClamped | services/ollama_client.py:214-219 | a confidence above 100 stays above 1 |
| OllamaClient.GreedyBracketSpan | services/ollama_client.py:185 | no span exactly when no ']' follows the first '['; otherwise the span runs from the first '[' to the last ']' of the reply |
| OllamaClient.GreedySpanOf | services/ollama_client.py:185 | given the first '[' and the last ']' after it, the span is exactly the text between them, both included |
| OllamaClient.VisionClassify | services/ollama_client.py:170-194 | an empty reply gives no items; a decoded greedy span gives its elements; no span, or a span that does not decode, gives the text parse |
| VisionClassifier.Readable | services/vision_classifier.py:89 | the label keeps its length and loses every '_' |
| VisionClassifier.Classifier.constructor | services/vision_classifier.py:11-13 | a new classifier holds the 101 labels and is initialised |
| VisionClassifier.Classifier.InitializeModel | services/vision_classifier.py:42-45 | initialising succeeds and marks the classifier initialised |
| VisionClassifier.Classifier.MapImagenetToFood | services/vision_classifier.py:60-91 | table indices give their food; other indices below the label count give the readable label; larger ones give nothing |
| VisionClassifier.AvailableAfterConstruction | services/vision_classifier.py:113-114 | a new classifier is available |
| VisionClassifier.LabelCount | services/vision_classifier.py:15-40 | there are 101 labels |
| VisionClassifier.TableIndices | services/vision_classifier.py:63-82 | indices 924-930 and 950-954 give their fixed names |
| VisionClassifier.LabelIndices | services/vision_classifier.py:84-91 | indices 0-100 give their label; negative ones down to -101 wrap around; larger unmapped ones give nothing |
| VisionClassifier.EstimatePortionFromImage | services/vision_classifier.py:93-97 | the portion is one of the seven listed texts |
| VisionClassifier.MockClassification | services/vision_classifier.py:99-111 | exactly Grilled Chicken 0.75, Mixed Vegetables 0.65 and Rice 0.60, each with a listed portion |
| VisionClassifier.ClassifyImage | services/vision_classifier.py:47-58 | a mock result whether or not the image opens |
| Analytics.CountFrom | services/analytics.py:265-272 | the counted dates continue the run `want`, `want - 1`, ... without a gap, and the count stays within the dates |
| Analytics.CurrentStreak | services/analytics.py:260-272 | the current streak is at most the number of days |
| Analytics.RunAt | services/analytics.py:274-281 | the run of one-day steps ending at a position has length at least 1 and at most the position plus one |
| Analytics.LongestUpTo | services/analytics.py:274-285 | the longest run so far is at least 1 and bounds every run ending before it |
| Analytics.LongestStreak | services/analytics.py:274-285 | the longest streak is at most the number of days |
| Analytics.CountCurrent | services/analytics.py:261-272 | the counting loop returns the current streak |
| Analytics.CountLongest | services/analytics.py:275-285 | the loop returns the longest streak |
| Analytics.LoggingStreaks | services/analytics.py:234-291 | current and longest streak and the number of days |
| Analytics.CountedRun | services/analytics.py:265-272 | each counted day is one before the previous, ending a run of its own length |
| Analytics.StreakOrder | services/analytics.py:260-290 | current ≤ longest ≤ total, and longest ≥ 1 when any day is logged |
| Analytics.Window | services/analytics.py:103-108 | the averaging window holds the last at most w weights up to i |
| Analytics.WeightTrends | services/analytics.py:97-112 | one date, weight and trend value per weigh-in; trend k is the rounded window mean |
| Analytics.MeanWithin | services/analytics.py:109 | a mean lies between the bounds of its values |
| Analytics.TrendWithin | services/analytics.py:103-110 | each trend value lies between integer bounds of all weights |
| Analytics.MacroDistribution | services/analytics.py:201-231 | all-zero or missing totals, or zero calories, give the zero chart; three shares and three calorie values otherwise |
| Analytics.UnroundedShares | services/analytics.py:209-225 | defines each macro's share of the calories before rounding (no contract of its own; SharesAddUp states that they add up to 100 and that the chart rounds them) |
| Analytics.SharesAddUp | services/analytics.py:209-225 | the chart shows each macro's unrounded share rounded to one decimal, and the unrounded shares add up to 100 |
| Analytics.SharesWithin | services/analytics.py:209-231 | every share lies in [0, 100] |
| Analytics.ShareWithin | services/analytics.py:223-225 | a rounded share of a part lies in [0, 100] |
| Analytics.ByDate | services/analytics.py:50-55 | the day index holds exactly the dates of the rows |
| Analytics.IndexRows | services/analytics.py:48-55 | the indexing loop builds that day index |
| Analytics.AppendDay | services/analytics.py:57-73 | one day appends its date and one value to every series |
| Analytics.Series | services/analytics.py:57-70 | defines the chart's series for each column (no contract of its own; AppendDay and NutritionTrends are stated column by column through it) |
| Analytics.ValueOn | services/analytics.py:49-66 | defines a column's value on a day from the query rows, through the day index (no contract of its own; NutritionTrends states that every chart entry is it) |
| Analytics.NutritionTrends | services/analytics.py:12-75 | one entry per day from start to end; each series has the length of the dates and the day's value, or 0 |
| Analytics.WaterIntakeTrends | services/analytics.py:294-337 | one entry per day from start to end, the day's total or 0 |
| Analytics.WaterRowShown | services/analytics.py:319-331 | a row whose date no later row repeats is the value shown for its day |
| Recommendations.Multiplier | services/recommendations.py:31-40 | the activity multiplier lies in [1.2, 1.9] |
| Recommendations.Bmr | services/recommendations.py:25-28 | defines the Mifflin-St Jeor rate, +5 for men and -161 otherwise (no contract of its own; SexDifference states the 166 gap) |
| Recommendations.CalorieFloor | services/recommendations.py:52 | the floor is 1200 exactly for women (any case of "female") and 1500 for everyone else |
| Recommendations.GoalCalories | services/recommendations.py:43-49 | the goal moves the TDEE by at most 500; a goal other than 'lose' or 'gain' keeps it |
| Recommendations.EnergyOf | services/recommendations.py:24-57 | calories are never below the floor for the profile's sex |
| Recommendations.DailyTargets | services/recommendations.py:11-66 | no profile gives the fixed targets with an error; otherwise at least 1200 calories, with BMR and TDEE |
| Recommendations.EnergyBalance | services/recommendations.py:54-57 | before rounding 4p + 9f + 4c equals the calories, and fat is a quarter of them |
| Recommendations.GoalAdjustment | services/recommendations.py:39-52 | TDEE is BMR times the multiplier; lose subtracts 500, gain adds 500, anything else keeps TDEE, when above the floor |
| Recommendations.SexDifference | services/recommendations.py:25-28 | male BMR is 166 above female BMR for the same body |
| Recommendations.OfMeal | services/recommendations.py:94 | the meal's logs, all of that meal |
| Recommendations.MealBreakdown | services/recommendations.py:92-98 | exactly breakfast, lunch, dinner and snack, each with its calorie sum and count |
| Recommendations.MealCounts | services/recommendations.py:93-98 | the four meal counts add up to at most the number of logs |
| Recommendations.TotalsOf | services/recommendations.py:80-88 | defines each nutrient's sum over the logs (no contract of its own; MealBreakdown and DailySummaryOf are stated through it) |
| Recommendations.Left | services/recommendations.py:115-118 | remaining is max(0, target - total) |
| Recommendations.RemainingOf | services/recommendations.py:113-118 | each remaining value is non-negative and, added to its total, reaches at least its target |
| Recommendations.DailySummaryAsWritten | services/recommendations.py:69-120 | the summary raises exactly when calories are positive and a macro target is 0 |
| Recommendations.PercentOf | services/recommendations.py:104-108 | a percentage exists exactly when its target is non-zero |
| Recommendations.DailySummaryOf | services/recommendations.py:69-120 | the intended summary: targets, totals, percentages whenever they are defined, and non-negative remaining values |
| Recommendations.GuardAgrees | services/recommendations.py:104-108 | whenever the code as written succeeds, it agrees with the intended summary |
| Recommendations.ZeroCarbsTarget | services/recommendations.py:104-108 | a concrete profile has carbs target 0, and the summary as written raises |
| Recommendations.WeekBounds | services/recommendations.py:126-128 | the week ends 6 days after it starts and contains today for the current week |
| Recommendations.DaysOf | services/recommendations.py:138-145 | the distinct days of the logs, with no day repeated |
| Recommendations.SumDaysUpdate | services/recommendations.py:147-150 | adding a log to its day adds it to the total over days |
| Recommendations.DayMacros | services/recommendations.py:139-150 | the macros of the logs dated one day, summed; a day without logs has none |
| Recommendations.AddToDay | services/recommendations.py:139-150 | one log creates its day at zero if new and adds itself to that day only; every other day is unchanged, and the sum over the days grows by the log |
| Recommendations.DailyMacros | services/recommendations.py:138-150 | the keys are the distinct days in first-seen order, each day holds the macros of exactly the logs dated that day (`DayMacros`), and the days sum to the totals of all logs |
| Recommendations.SumOverDays | services/recommendations.py:155-158 | the loop sums the daily totals |
| Recommendations.WeeklySummaryOf | services/recommendations.py:123-173 | the week runs from start to start + 6; the days logged are the distinct days; `daily_data` holds each day's `DayMacros`; the averages are the rounded means, or 0 with no days |
| Recommendations.Kept | services/recommendations.py:249-268 | kept exactly the suggestions with no allergy in their name and within 1.2 × remaining when remaining is given |
| Recommendations.IsExcluded | services/recommendations.py:252-258 | excluded exactly when some allergy occurs in the lower-cased name |
| Recommendations.Selected | services/recommendations.py:238-247 | the selection always starts with the meal's defaults, and every selected suggestion is a default or on the list of a preference the meal has |
| Recommendations.SelectSuggestions | services/recommendations.py:238-247 | the loop returns `Selected`: the defaults extended by each preference's list, where "default" extends the aliased selection by itself |
| Recommendations.SelectedWithoutDefault | services/recommendations.py:238-247 | without a "default" preference: the defaults followed by the lists of the preferences the meal has, in order |
| Recommendations.DefaultDoubles | services/recommendations.py:242-247 | a "default" preference doubles everything selected so far |
| Recommendations.VegetarianThenDefault | services/recommendations.py:190-247 | at breakfast, "vegetarian" then "default" gives the defaults and the vegetarian dishes twice over |
| Recommendations.FilterAllergies | services/recommendations.py:249-261 | the allergy filter keeps exactly the safe suggestions, in order |
| Recommendations.FilterBudget | services/recommendations.py:263-268 | the calorie filter keeps exactly those within budget, in order |
| Recommendations.FoodSuggestions | services/recommendations.py:176-270 | no profile gives nothing; otherwise the first 5 kept suggestions of `Selected`, aliasing included |
| Recommendations.KeptInTwoPasses | services/recommendations.py:249-268 | filtering allergies then budget equals the one-pass specification |
| Recommendations.KeptWithoutBudget | services/recommendations.py:263-268 | a remaining value of 0 or none applies no calorie filter |
| Recommendations.UnknownMeal | services/recommendations.py:239-242 | an unknown meal gives no suggestions |
| Recommendations.EmptyTable | services/recommendations.py:239-247 | an empty table gives no suggestions |
| Recommendations.TrendOf | services/recommendations.py:287-295 | decreasing or increasing exactly with at least 3 weigh-ins and a change of more than 0.5 kg |
| Recommendations.Consistency | services/recommendations.py:301-302 | the score is in [0, 100], days/7 × 100 for up to 7 days |
| Recommendations.ProgressInsights | services/recommendations.py:273-313 | trend, average and score; each of the three messages is present exactly when its condition holds, no other text appears, none repeats, the log-more message comes first, and there are at most two |
| ReminderScheduler.MealAt | services/reminder_scheduler.py:72-83 | hours [7,9) give breakfast, [12,14) lunch, [18,20) dinner, other hours none |
| ReminderScheduler.CurrentMeal | services/reminder_scheduler.py:78-83 | the loop with break picks that meal |
| ReminderScheduler.MealReminders | services/reminder_scheduler.py:88-106 | reminders go exactly to active users who have not logged the meal today |
| ReminderScheduler.WeighInReminders | services/reminder_scheduler.py:119-124 | one weigh-in reminder per active user, in order |
| ReminderScheduler.ClockText | services/reminder_scheduler.py:212 | the time is five characters with ':' in the middle |
| ReminderScheduler.JobId | services/reminder_scheduler.py:151 | job ids start with "custom_reminder_" |
| ReminderScheduler.EntriesOf | services/reminder_scheduler.py:203-216 | exactly the stored jobs of the user are listed, each with its stored type, active when the scheduler still has it |
| ReminderScheduler.EntriesFollowOrder | services/reminder_scheduler.py:207-214 | the entries follow the dictionary's key order |
| ReminderScheduler.EntriesDistinct | services/reminder_scheduler.py:207-214 | with distinct keys no entry repeats |
| ReminderScheduler.Without | services/reminder_scheduler.py:193-194 | the job order without the removed id |
| ReminderScheduler.WithoutKeepsOrder | services/reminder_scheduler.py:193-194 | removing an id keeps the job order distinct and in step with the stored jobs |
| ReminderScheduler.WithoutAbsent | services/reminder_scheduler.py:193-194 | removing a key that is not stored leaves the key order as it is |
| ReminderScheduler.WithoutTwice | services/reminder_scheduler.py:185-201 | cancelling the same key twice leaves the key order as cancelling once |
| ReminderScheduler.Scheduler.constructor | services/reminder_scheduler.py:23-25 | a new scheduler has no jobs and no reminders |
| ReminderScheduler.Scheduler.Start | services/reminder_scheduler.py:27-59 | with a scheduler the three periodic jobs are added; without one nothing changes |
| ReminderScheduler.Scheduler.CheckMealReminders | services/reminder_scheduler.py:66-114 | outside meal hours nothing is sent; otherwise exactly the meal reminders |
| ReminderScheduler.Scheduler.CheckWeeklyReminders | services/reminder_scheduler.py:116-132 | one weigh-in reminder per active user is sent |
| ReminderScheduler.Scheduler.ScheduleCustomReminder | services/reminder_scheduler.py:148-183 | only 'water' and 'meal' succeed, storing or overwriting their key; a new key goes last in the key order and an overwritten one keeps its place; failure changes nothing |
| ReminderScheduler.Scheduler.CancelCustomReminder | services/reminder_scheduler.py:185-201 | only that key is removed from the jobs, the store and the key order, where the other keys keep their places |
| ReminderScheduler.Scheduler.GetUserReminders | services/reminder_scheduler.py:203-216 | the loop returns exactly the user's entries |
| ReminderScheduler.Scheduler.SendImmediateReminder | services/reminder_scheduler.py:218-237 | water, weigh-in and 'meal_' types send their reminder; anything else fails and sends nothing |
| ReminderScheduler.Registry.constructor | services/reminder_scheduler.py:241 | there is no instance at first |
| ReminderScheduler.Registry.InitReminderScheduler | services/reminder_scheduler.py:244-253 | the first call creates and starts the instance; later calls return the same one |
| ReminderScheduler.MealOfType | services/reminder_scheduler.py:225-226 | "meal_" plus a meal name gives that meal |
| ReminderScheduler.DistinctKinds | services/reminder_scheduler.py:151 | the water and meal jobs of a user have different ids |
| Onboarding.FirstMatching | routes/onboarding.py:174-181 | the first name containing a keyword; no earlier name does |
| Onboarding.PreferredModel | routes/onboarding.py:172-181 | the first matching model, or the current one when none matches |
| Onboarding.DefaultProfile | routes/onboarding.py:211-230 | defines the skip route's minimal profile: the username, age 25, 'other', 170 cm, 70 kg and the fixed choices (no contract of its own; Wizard.Skip stores it) |
| Onboarding.ProfileOf | routes/onboarding.py:149-163 | defines the profile built from the three steps' data (no contract of its own; Wizard.Step4 and HappyPath state that it is the one stored) |
| Onboarding.ConditionList | routes/onboarding.py:162 | a one-element list when conditions are given, else empty |
| Onboarding.AvailableModels | routes/onboarding.py:131-139 | defines which models step 4 sees: the listed ones on a GET or on a POST with a URL, else none (no contract of its own; Wizard.Step4 uses it) |
| Onboarding.SettingsAfter | routes/onboarding.py:168-181 | the URL is stored; with no models the chat and vision models are unchanged |
| Onboarding.Wizard.constructor | routes/onboarding.py:13-16 | a new wizard has an empty session and no profile |
| Onboarding.Wizard.Step1 | routes/onboarding.py:11-40 | a profile redirects to the dashboard; a valid form stores step 1 and advances; otherwise the form is shown |
| Onboarding.Wizard.Step2 | routes/onboarding.py:43-73 | needs step 1 in the session, else goes back to step 1; a valid form stores step 2 and advances |
| Onboarding.Wizard.Step3 | routes/onboarding.py:76-114 | needs step 2, else goes back to step 1; a valid form stores step 3 and advances |
| Onboarding.Wizard.Step4 | routes/onboarding.py:117-200 | needs step 3; a valid submit creates the profile, updates settings and clears the keys, or re-renders when an earlier step's key is missing |
| Onboarding.Wizard.ClearOnboardingKeys | routes/onboarding.py:185-187 | the three onboarding keys are removed and nothing else |
| Onboarding.Wizard.Skip | routes/onboarding.py:203-240 | creates the default profile and clears the keys unless a profile exists |
| Onboarding.HappyPath | routes/onboarding.py:11-190 | submitting the four steps in order yields exactly the profile of the three forms and an empty session |

## Left out

- HTTP calls: Open Food Facts and Wikipedia searches, barcode search, `vision_analyze`,
  `test_connection`, `list_models`, `pull_model` and the streaming and error branches of `chat`.
  Their results are parameters: `SearchOracle`, the reply and the list of model names.
- The "Vision error" branch of `_analyze_food_photo` (`api/routes.py:772-774`):
  `vision_analyze` catches its own exceptions and returns `None`, and decode errors are handled
  inside, so the model has no path into that branch.
- The regular-expression and JSON engines: the specific patterns are string scanners and
  `json.loads` is the `decode` parameter.
- Floating point: quantities are exact reals and Python's `round` is round-half-even on reals.
- Numbers.Round: only its bounds are proved (it keeps values inside integer bounds and leaves
  whole numbers unchanged), not its agreement with IEEE `round`.
- FoodParser.ValidateNutritionData: values are rounded on exact reals, not doubles.
- Analytics.WeightTrends: the rounding to one decimal is on exact reals.
- Clock and calendar: `datetime.utcnow`, `datetime.now` and `weekday` are parameters.
  Dates are day numbers rather than ISO strings.
- Database queries and commits, `Photo.set_analysis`, flash messages and templates.
- Form pre-population beyond which session entry is shown, and `int(meals_per_day)`.
- The database-error branches of step 4 and skip. Step 4's `KeyError` branch is modelled.
- APScheduler job execution and triggers: a job is its id; `_cleanup_old_notifications` is
  not modelled.
- PIL: whether the image opens is a parameter and does not change the result.
- Logging throughout.
- `schedule_user_goal_reminders`, `create_default_notification_templates` and
  `get_reminder_scheduler` (a plain read of the global), which lie outside this core.
- `parse_barcode_to_food`, `parse_text_search`, `get_meal_distribution`, `get_top_foods` and
  `export_data` also lie outside this core.
- The label list of `_load_food_classes` is the constant `FoodClasses`.
- VisionTextParser.OneMarkerLine: stated only for a single line without surrounding
  whitespace. Longer replies are covered by `ParseVisionTextResponse` and
  `ParsedItemsWellFormed`.
- ReminderScheduler.MealReminders: states which reminders are sent, not their order among
  users.
- ReminderScheduler.EntriesOf: the time text of each entry is not stated beyond its `%H:%M`
  shape (`ClockText`).
- NutritionSearch.NormalizeProduct: the `url`, `barcode` and `image_url` fields are not
  modelled. A `brands` that is JSON null is taken as "", where Python's title would read
  "<name> None". A `nutriments` that is null, which makes Python raise inside the `try` and
  return `None`, is not represented.
- Numbers.ParseFloat: `float(str)` is modelled for plain decimal text only (surrounding
  whitespace, a sign, digits with at most one '.'). Exponent forms ("1e3"), "inf", "nan" and
  digit-group underscores ("1_000") are read as not a number, although Python accepts them;
  infinities and NaN have no exact-real value.
- FoodParser.AsFloat: inherits the ParseFloat gap for string values.
- FoodParser.MergeUser: inherits the ParseFloat gap, so such a user string does not override.
- FoodParser.ValidateNutritionData: inherits the ParseFloat gap, so such a string value
  becomes 0 rather than being clamped.
- NutritionSearch.CleanValue: inherits the ParseFloat gap, so such a string becomes 0.
- FoodParser.CandidateFields: a `confidence` key that is present but JSON null is the same as
  a missing one (0.7), where Python keeps `None`. A non-numeric confidence is not represented.
- VisionTextParser.RemoveItemWords: its own contract states only that text does not grow.
  Its effect on names is stated through `MarkerClassified` and `OneMarkerLine`.
- Strings.IsDigit, Strings.IsSpace, Strings.IsWordChar, Strings.LowerChar, Strings.Lower and
  Strings.Strip: ASCII only. Python's `str.lower` and `str.strip` and the `\d`, `\s`, `\w`
  classes and IGNORECASE of `re` also cover the rest of Unicode, for example the Arabic-Indic
  digits and U+00A0. The members below are those whose results this changes.
- Numbers.FirstNumber: only ASCII digits count as `\d`.
- FoodParser.ParsePortion: a text whose only digits are non-ASCII ("١٥٠g") gives 100 g, where
  Python reads 150 g.
- FoodParser.EstimatePortions: non-ASCII digits, and case or spaces outside ASCII, match no
  counted entry.
- VisionTextParser.StripListPrefix: a non-ASCII digit or space does not count as prefix.
- VisionTextParser.NameOf: a name is not stripped of non-ASCII whitespace such as U+00A0.
- FallbackPatterns.MatchAt: `\s`, `\w` and case-insensitive matching are on ASCII only.
- Recommendations.IsExcluded: the name is lower-cased on ASCII only; allergies are compared as stored.
- Onboarding.FirstMatching: model names are lower-cased on ASCII only.

## Findings

| source | as written | input that shows it | evidently intended | confidence | as-written member | corrected member |
|---|---|---|---|---|---|---|
| api/routes.py:860 | `api/routes.py` has no module-level `import re` (lines 1-18). The only `import re` is local to `_analyze_food_photo`, so the first `re.` use in `_parse_vision_text_response` (line 860, or 900 when no line is a marker) raises `NameError`, and the handler at 914-917 returns the generic item | the reply "1. Grilled chicken" | the line scanner and keyword fallback run, giving one item "Grilled chicken" with "100g" and 0.7 | not executed | VisionTextParser.AsWrittenAlwaysMixedFood | VisionTextParser.ParseVisionTextResponse |
| services/recommendations.py:104-108 | the percentages divide by the protein, carbs and fat targets whenever the calorie target is positive; a macro target can round to 0, and then `ZeroDivisionError` escapes `get_daily_summary` | female, 102.3 kg, 150 cm, 80 years, sedentary, goal 'lose': calories floor at 1200, protein is 225.06 g, fat 33.3 g, and carbs -0.06 g rounds to 0 | skip (or guard) a percentage whose target is 0, and still return the summary | not executed | Recommendations.ZeroCarbsTarget | Recommendations.GuardAgrees |

=== FILE: analytics.dfy ===
/** The computations of the analytics service once its queries have run: logging streaks,
    the weight moving average, macro calorie shares, and the day-by-day nutrition and water
    series. Dates are day numbers; "today" and the window end are inputs. */
module Analytics {

  import opened Common
  import opened Numbers

  // ---------------------------------------------------------------------------------------
  // `get_logging_streaks`

  /** How many dates from position `i` on continue the run `want`, `want - 1`, ... */
  function CountFrom(dates: seq<int>, i: nat, want: int): (r: nat)
    requires i <= |dates|
    decreases |dates| - i
    ensures r <= |dates| - i
    ensures forall k :: i <= k < i + r ==> dates[k] == want - (k - i)
  {
    if i < |dates| && dates[i] == want then 1 + CountFrom(dates, i + 1, want - 1) else 0
  }

  /** The current streak: the run of consecutive days that starts at the newest date, when
      that date is today or yesterday. */
  function CurrentStreak(dates: seq<int>, today: int): (r: nat)
    ensures r <= |dates|
  {
    if |dates| > 0 && (dates[0] == today || dates[0] == today - 1) then CountFrom(dates, 0, dates[0]) else 0
  }

  /** The length of the run of one-day steps that ends at position `i`. */
  function RunAt(dates: seq<int>, i: nat): (r: nat)
    requires i < |dates|
    ensures 1 <= r <= i + 1
  {
    if i == 0 then 1 else if dates[i - 1] - dates[i] == 1 then RunAt(dates, i - 1) + 1 else 1
  }

  /** The longest run among the first `n` positions. */
  function LongestUpTo(dates: seq<int>, n: nat): (r: nat)
    requires 1 <= n <= |dates|
    ensures 1 <= r <= n
    ensures forall i :: 0 <= i < n ==> RunAt(dates, i) <= r
  {
    if n == 1 then 1 else Max(LongestUpTo(dates, n - 1), RunAt(dates, n - 1))
  }

  function Max(a: int, b: int): int { if a >= b then a else b }

  /** The longest streak: 0 without dates. */
  function LongestStreak(dates: seq<int>): (r: nat)
    ensures r <= |dates|
  {
    if |dates| == 0 then 0 else LongestUpTo(dates, |dates|)
  }

  /** The counting loop of the current streak. */
  method CountCurrent(dates: seq<int>, today: int) returns (current: nat)
    ensures current == CurrentStreak(dates, today)
  {
    current := 0;
    if |dates| > 0 && (dates[0] == today || dates[0] == today - 1) {
      var currentDate := dates[0];
      var i := 0;
      while i < |dates|
        invariant 0 <= i <= |dates|
        invariant currentDate == dates[0] - i && current == i
        invariant CountFrom(dates, 0, dates[0]) == i + CountFrom(dates, i, currentDate)
      {
        if dates[i] == currentDate {
          current := current + 1;
          currentDate := currentDate - 1;
        } else {
          break;
        }
        i := i + 1;
      }
    }
  }

  /** The loop over neighbouring dates that closes a run at every gap. */
  method CountLongest(dates: seq<int>) returns (longest: nat)
    requires |dates| > 0
    ensures longest == LongestStreak(dates)
  {
    longest := 0;
    var temp := 1;
    for i := 1 to |dates|
      invariant temp == RunAt(dates, i - 1)
      invariant longest <= LongestUpTo(dates, i)
      invariant Max(longest, temp) == LongestUpTo(dates, i)
    {
      if dates[i - 1] - dates[i] == 1 {
        temp := temp + 1;
      } else {
        longest := Max(longest, temp);
        temp := 1;
      }
    }
    longest := Max(longest, temp);
  }

  /** `get_logging_streaks` over the distinct logging dates, newest first. */
  method LoggingStreaks(dates: seq<int>, today: int) returns (current: nat, longest: nat, total: nat)
    ensures current == CurrentStreak(dates, today)
    ensures longest == LongestStreak(dates)
    ensures total == |dates|
  {
    if |dates| == 0 {
      return 0, 0, 0;
    }
    current := CountCurrent(dates, today);
    longest := CountLongest(dates);
    total := |dates|;
  }

  /** Every date the current streak counts continues a run from the newest date. */
  lemma {:induction false} CountedRun(dates: seq<int>, k: nat)
    requires |dates| > 0 && k < CountFrom(dates, 0, dates[0])
    ensures RunAt(dates, k) == k + 1 && dates[k] == dates[0] - k
  {
    if k > 0 {
      CountedRun(dates, k - 1);
      CountedAt(dates, 0, dates[0], k);
    } else {
      CountedAt(dates, 0, dates[0], 0);
    }
  }

  lemma {:induction false} CountedAt(dates: seq<int>, i: nat, want: int, k: nat)
    requires i <= |dates| && k < CountFrom(dates, i, want)
    decreases k
    ensures i + k < |dates| && dates[i + k] == want - k
  {
    if k > 0 {
      CountedAt(dates, i + 1, want - 1, k - 1);
    }
  }

  /** The current streak never exceeds the longest, which never exceeds the days logged. */
  lemma StreakOrder(dates: seq<int>, today: int)
    ensures CurrentStreak(dates, today) <= LongestStreak(dates) <= |dates|
    ensures |dates| > 0 ==> LongestStreak(dates) >= 1
  {
    var c := CurrentStreak(dates, today);
    if c > 0 {
      CountedRun(dates, c - 1);
    }
  }

  // ---------------------------------------------------------------------------------------
  // `get_weight_trends`

  function Sum(s: seq<real>): real
  {
    if |s| == 0 then 0.0 else Sum(s[..|s| - 1]) + s[|s| - 1]
  }

  /** The moving-average window of entry `i`: the last `w` weights up to it. */
  function Window(weights: seq<real>, i: nat, w: nat): (r: seq<real>)
    requires i < |weights| && w >= 1
    ensures 1 <= |r| <= w && r == weights[MaxNat(0, i - w + 1)..i + 1]
  {
    weights[MaxNat(0, i - w + 1)..i + 1]
  }

  function MaxNat(a: int, b: int): nat
    requires a >= 0
  {
    if a >= b then a else b
  }

  /** Entry `i` of the trend: the window mean rounded to one decimal. */
  function TrendAt(weights: seq<real>, i: nat): real
    requires i < |weights|
  {
    var win := Window(weights, i, Min(7, |weights|));
    Round(Sum(win) / (|win| as real), 1)
  }

  /** The weight chart: dates, weights, and their moving average. */
  datatype WeightChart = WeightChart(dates: seq<int>, weights: seq<real>, trend: seq<real>)

  /** `get_weight_trends` over the weigh-ins in time order (day, kilograms). */
  method WeightTrends(weighIns: seq<(int, real)>) returns (chart: WeightChart)
    ensures |chart.dates| == |chart.weights| == |chart.trend| == |weighIns|
    ensures forall k :: 0 <= k < |weighIns| ==>
              chart.dates[k] == weighIns[k].0 && chart.weights[k] == weighIns[k].1 &&
              chart.trend[k] == TrendAt(chart.weights, k)
  {
    chart := WeightChart([], [], []);
    if |weighIns| == 0 {
      return;
    }
    var dates: seq<int> := [];
    var weights: seq<real> := [];
    for k := 0 to |weighIns|
      invariant |dates| == |weights| == k
      invariant forall j :: 0 <= j < k ==> dates[j] == weighIns[j].0 && weights[j] == weighIns[j].1
    {
      dates := dates + [weighIns[k].0];
      weights := weights + [weighIns[k].1];
    }
    var windowSize := Min(7, |weights|);
    var trend: seq<real> := [];
    for i := 0 to |weights|
      invariant |trend| == i
      invariant forall j :: 0 <= j < i ==> trend[j] == TrendAt(weights, j)
    {
      var startIdx := MaxNat(0, i - windowSize + 1);
      var endIdx := i + 1;
      var avg := Sum(weights[startIdx..endIdx]) / ((endIdx - startIdx) as real);
      trend := trend + [Round(avg, 1)];
    }
    chart := WeightChart(dates, weights, trend);
  }

  /** A window mean lies between the smallest and largest weight of the window. */
  lemma {:induction false} SumBounds(s: seq<real>, lo: real, hi: real)
    requires forall k :: 0 <= k < |s| ==> lo <= s[k] <= hi
    ensures lo * (|s| as real) <= Sum(s) <= hi * (|s| as real)
  {
    if |s| > 0 {
      SumBounds(s[..|s| - 1], lo, hi);
    }
  }

  lemma MeanWithin(s: seq<real>, lo: real, hi: real)
    requires |s| > 0 && forall k :: 0 <= k < |s| ==> lo <= s[k] <= hi
    ensures lo <= Sum(s) / (|s| as real) <= hi
  {
    SumBounds(s, lo, hi);
    QuotientWithin(Sum(s), |s| as real, lo, hi);
  }

  lemma QuotientWithin(x: real, n: real, lo: real, hi: real)
    requires n > 0.0 && lo * n <= x <= hi * n
    ensures lo <= x / n <= hi
  {
    var m := x / n;
    assert m * n == x;
    MulCancel(lo, m, n);
    MulCancel(m, hi, n);
  }

  /** With weights between two whole numbers of kilograms, every trend entry lies between
      them too. */
  lemma TrendWithin(weights: seq<real>, i: nat, lo: int, hi: int)
    requires i < |weights| && forall k :: 0 <= k < |weights| ==> lo as real <= weights[k] <= hi as real
    ensures lo as real <= TrendAt(weights, i) <= hi as real
  {
    var win := Window(weights, i, Min(7, |weights|));
    assert forall k :: 0 <= k < |win| ==> lo as real <= win[k] <= hi as real;
    MeanWithin(win, lo as real, hi as real);
    RoundWithin(Sum(win) / (|win| as real), 1, lo, hi);
  }

  // ---------------------------------------------------------------------------------------
  // `get_macro_distribution`

  /** The macro chart: percentages and calories of protein, carbs and fat. */
  datatype MacroChart = MacroChart(values: seq<real>, calories: seq<int>)

  const ZeroMacros := MacroChart([0.0, 0.0, 0.0], [0, 0, 0])

  /** `x or 0` for a summed column. */
  function OrZero(x: Option<real>): real { if x.Some? then x.value else 0.0 }

  /** The calories of protein, carbs and fat (4, 4 and 9 per gram). */
  function MacroCalories(protein: Option<real>, carbs: Option<real>, fat: Option<real>): seq<real>
  {
    [OrZero(protein) * 4.0, OrZero(carbs) * 4.0, OrZero(fat) * 9.0]
  }

  /** The unrounded percentage of the calories each macro gives. */
  function UnroundedShares(cal: seq<real>): seq<real>
    requires |cal| == 3 && cal[0] + cal[1] + cal[2] != 0.0
  {
    var total := cal[0] + cal[1] + cal[2];
    [cal[0] / total * 100.0, cal[1] / total * 100.0, cal[2] / total * 100.0]
  }

  /** `get_macro_distribution` given the summed protein, carbs and fat (`None` when no row
      or no value). */
  function MacroDistribution(protein: Option<real>, carbs: Option<real>, fat: Option<real>): (r: MacroChart)
    ensures OrZero(protein) == 0.0 && OrZero(carbs) == 0.0 && OrZero(fat) == 0.0 ==> r == ZeroMacros
    ensures OrZero(protein) * 4.0 + OrZero(carbs) * 4.0 + OrZero(fat) * 9.0 == 0.0 ==> r == ZeroMacros
    ensures |r.values| == 3 && |r.calories| == 3
  {
    if OrZero(protein) == 0.0 && OrZero(carbs) == 0.0 && OrZero(fat) == 0.0 then ZeroMacros
    else
      var proteinCal := OrZero(protein) * 4.0;
      var carbsCal := OrZero(carbs) * 4.0;
      var fatCal := OrZero(fat) * 9.0;
      var total := proteinCal + carbsCal + fatCal;
      if total == 0.0 then ZeroMacros
      else MacroChart([Round(proteinCal / total * 100.0, 1), Round(carbsCal / total * 100.0, 1),
                       Round(fatCal / total * 100.0, 1)],
                      [RoundHalfEven(proteinCal), RoundHalfEven(carbsCal), RoundHalfEven(fatCal)])
  }

  /** With calories from the macros, the chart shows each macro's share rounded to one
      decimal, and before rounding the three shares add up to exactly 100. */
  lemma SharesAddUp(protein: Option<real>, carbs: Option<real>, fat: Option<real>)
    requires var cal := MacroCalories(protein, carbs, fat); cal[0] + cal[1] + cal[2] != 0.0
    ensures var u := UnroundedShares(MacroCalories(protein, carbs, fat));
      MacroDistribution(protein, carbs, fat).values == [Round(u[0], 1), Round(u[1], 1), Round(u[2], 1)] &&
      u[0] + u[1] + u[2] == 100.0
  {
    var cal := MacroCalories(protein, carbs, fat);
    SharesSum(cal[0], cal[1], cal[2]);
    assert cal == [cal[0], cal[1], cal[2]];
  }

  lemma SharesSum(a: real, b: real, c: real)
    requires a + b + c != 0.0
    ensures var u := UnroundedShares([a, b, c]); u[0] + u[1] + u[2] == 100.0
  {
    var total := a + b + c;
    assert a / total + b / total + c / total == total / total;
  }

  /** With non-negative totals every percentage lies in [0, 100]. */
  lemma SharesWithin(protein: real, carbs: real, fat: real)
    requires protein >= 0.0 && carbs >= 0.0 && fat >= 0.0
    ensures var r := MacroDistribution(Some(protein), Some(carbs), Some(fat));
      forall k :: 0 <= k < 3 ==> 0.0 <= r.values[k] <= 100.0
  {
    var p, c, f := protein * 4.0, carbs * 4.0, fat * 9.0;
    var total := p + c + f;
    var r := MacroDistribution(Some(protein), Some(carbs), Some(fat));
    if total != 0.0 {
      assert r.values == [Round(p / total * 100.0, 1), Round(c / total * 100.0, 1), Round(f / total * 100.0, 1)];
      ShareWithin(p, total);
      ShareWithin(c, total);
      ShareWithin(f, total);
    } else {
      assert r == ZeroMacros;
    }
  }

  lemma ShareWithin(part: real, total: real)
    requires 0.0 <= part <= total && total > 0.0
    ensures 0.0 <= Round(part / total * 100.0, 1) <= 100.0
  {
    var q := part / total;
    assert q * total == part;
    MulCancel(q, 1.0, total);
    MulCancel(0.0, q, total);
    RoundWithin(q * 100.0, 1, 0, 100);
  }

  // ---------------------------------------------------------------------------------------
  // `get_nutrition_trends` and `get_water_intake_trends`

  /** One grouped row of the nutrition query; a sum is `None` when every value was null. */
  datatype DayRow = DayRow(date: int, calories: Option<real>, protein: Option<real>, carbs: Option<real>,
                           fat: Option<real>, fiber: Option<real>, sodium: Option<real>)

  /** The rows keyed by date; a later row for the same date replaces an earlier one. */
  function ByDate<T>(dates: seq<int>, rows: seq<T>): (m: map<int, T>)
    requires |dates| == |rows|
    ensures forall d :: d in m <==> d in dates
  {
    if |rows| == 0 then map[]
    else
      var n := |rows| - 1;
      assert dates == dates[..n] + [dates[n]];
      ByDate(dates[..n], rows[..n])[dates[n] := rows[n]]
  }

  /** The loop that keys the rows by date. */
  method IndexRows<T>(dates: seq<int>, rows: seq<T>) returns (m: map<int, T>)
    requires |dates| == |rows|
    ensures m == ByDate(dates, rows)
  {
    m := map[];
    for k := 0 to |rows|
      invariant m == ByDate(dates[..k], rows[..k])
    {
      assert rows[..k + 1][..k] == rows[..k];
      assert dates[..k + 1][..k] == dates[..k];
      m := m[dates[k] := rows[k]];
    }
    assert rows[..|rows|] == rows && dates[..|dates|] == dates;
  }

  /** The number of days from `start` to `end` inclusive. */
  function DayCount(start: int, end: int): nat
  {
    if end >= start then end - start + 1 else 0
  }

  /** The nutrition chart: a date per day and one value per day in each series. */
  datatype NutritionChart = NutritionChart(dates: seq<int>, calories: seq<real>, protein: seq<real>,
                                           carbs: seq<real>, fat: seq<real>, fiber: seq<real>,
                                           sodium: seq<real>)

  /** The six summed columns of the nutrition query. */
  datatype Column = Calories | Protein | Carbs | Fat | Fiber | Sodium

  function Pick(r: DayRow, column: Column): Option<real>
  {
    match column
    case Calories => r.calories
    case Protein => r.protein
    case Carbs => r.carbs
    case Fat => r.fat
    case Fiber => r.fiber
    case Sodium => r.sodium
  }

  /** The series of the chart for one column. */
  function Series(chart: NutritionChart, column: Column): seq<real>
  {
    match column
    case Calories => chart.calories
    case Protein => chart.protein
    case Carbs => chart.carbs
    case Fat => chart.fat
    case Fiber => chart.fiber
    case Sodium => chart.sodium
  }

  /** The date of every row, in order. */
  function DatesOf<T>(rows: seq<T>, date: T -> int): (r: seq<int>)
    ensures |r| == |rows| && forall k :: 0 <= k < |rows| ==> r[k] == date(rows[k])
  {
    seq(|rows|, k requires 0 <= k < |rows| => date(rows[k]))
  }

  function RowDate(r: DayRow): int { r.date }

  /** One column of a day in the keyed rows: `float(row.column or 0)`, or 0 without a row. */
  function DayValue(m: map<int, DayRow>, day: int, column: Column): real
  {
    if day in m then OrZero(Pick(m[day], column)) else 0.0
  }

  /** One column of a day, from the rows of the query. */
  function ValueOn(rows: seq<DayRow>, day: int, column: Column): real
  {
    DayValue(ByDate(DatesOf(rows, RowDate), rows), day, column)
  }

  /** One pass of the fill loop: the day and its six values. */
  method AppendDay(chart: NutritionChart, m: map<int, DayRow>, day: int) returns (c: NutritionChart)
    ensures c.dates == chart.dates + [day]
    ensures forall column :: Series(c, column) == Series(chart, column) + [DayValue(m, day, column)]
  {
    if day in m {
      var row := m[day];
      c := NutritionChart(chart.dates + [day], chart.calories + [OrZero(row.calories)],
                          chart.protein + [OrZero(row.protein)], chart.carbs + [OrZero(row.carbs)],
                          chart.fat + [OrZero(row.fat)], chart.fiber + [OrZero(row.fiber)],
                          chart.sodium + [OrZero(row.sodium)]);
    } else {
      c := NutritionChart(chart.dates + [day], chart.calories + [0.0], chart.protein + [0.0],
                          chart.carbs + [0.0], chart.fat + [0.0], chart.fiber + [0.0],
                          chart.sodium + [0.0]);
    }
  }

  /** `get_nutrition_trends` for the window that ends at `endDate` and starts `days` before:
      one date per day, and in every series the day's value or 0. */
  method NutritionTrends(rows: seq<DayRow>, endDate: int, days: int) returns (chart: NutritionChart)
    ensures |chart.dates| == DayCount(endDate - days, endDate)
    ensures forall k :: 0 <= k < |chart.dates| ==> chart.dates[k] == endDate - days + k
    ensures forall column :: |Series(chart, column)| == |chart.dates|
    ensures forall column, k :: 0 <= k < |chart.dates| ==> Series(chart, column)[k] == ValueOn(rows, endDate - days + k, column)
  {
    var startDate := endDate - days;
    var dataDict := IndexRows(DatesOf(rows, RowDate), rows);
    chart := NutritionChart([], [], [], [], [], [], []);
    var current := startDate;
    while current <= endDate
      invariant startDate <= current
      invariant startDate <= endDate ==> current <= endDate + 1
      invariant startDate > endDate ==> current == startDate
      invariant |chart.dates| == current - startDate
      invariant forall k :: 0 <= k < |chart.dates| ==> chart.dates[k] == startDate + k
      invariant forall column :: |Series(chart, column)| == |chart.dates|
      invariant forall column, k :: 0 <= k < |chart.dates| ==> Series(chart, column)[k] == DayValue(dataDict, startDate + k, column)
      decreases endDate - current
    {
      var prev := chart;
      chart := AppendDay(chart, dataDict, current);
      forall column, k | 0 <= k < |chart.dates|
        ensures Series(chart, column)[k] == DayValue(dataDict, startDate + k, column)
      {
        if k < |prev.dates| {
          assert Series(chart, column)[k] == Series(prev, column)[k];
        }
      }
      current := current + 1;
    }
    forall column, k | 0 <= k < |chart.dates|
      ensures Series(chart, column)[k] == ValueOn(rows, endDate - days + k, column)
    {
    }
  }

  /** One grouped row of the water query. */
  datatype WaterRow = WaterRow(date: int, totalMl: real)

  /** The water chart: a date per day and the millilitres of that day. */
  datatype WaterChart = WaterChart(dates: seq<int>, intakeMl: seq<real>)

  function WaterDate(r: WaterRow): int { r.date }

  /** The millilitres of a day in the keyed rows, or 0 without a row. */
  function DayWater(m: map<int, WaterRow>, day: int): real
  {
    if day in m then m[day].totalMl else 0.0
  }

  /** The millilitres of a day, from the rows of the query. */
  function WaterOn(rows: seq<WaterRow>, day: int): real
  {
    DayWater(ByDate(DatesOf(rows, WaterDate), rows), day)
  }

  /** `get_water_intake_trends` for the window that ends at `endDate` and starts `days` before. */
  method WaterIntakeTrends(rows: seq<WaterRow>, endDate: int, days: int) returns (chart: WaterChart)
    ensures |chart.dates| == |chart.intakeMl| == DayCount(endDate - days, endDate)
    ensures forall k :: 0 <= k < |chart.dates| ==>
              chart.dates[k] == endDate - days + k && chart.intakeMl[k] == WaterOn(rows, endDate - days + k)
  {
    var startDate := endDate - days;
    var dataDict := IndexRows(DatesOf(rows, WaterDate), rows);
    chart := WaterChart([], []);
    var current := startDate;
    while current <= endDate
      invariant startDate <= current
      invariant startDate <= endDate ==> current <= endDate + 1
      invariant startDate > endDate ==> current == startDate
      invariant |chart.dates| == |chart.intakeMl| == current - startDate
      invariant forall k :: 0 <= k < |chart.dates| ==>
                  chart.dates[k] == startDate + k && chart.intakeMl[k] == DayWater(dataDict, startDate + k)
      decreases endDate - current
    {
      var prev := chart;
      if current in dataDict {
        chart := WaterChart(chart.dates + [current], chart.intakeMl + [dataDict[current].totalMl]);
      } else {
        chart := WaterChart(chart.dates + [current], chart.intakeMl + [0.0]);
      }
      assert chart.intakeMl == prev.intakeMl + [DayWater(dataDict, current)];
      forall k | 0 <= k < |chart.dates|
        ensures chart.dates[k] == startDate + k && chart.intakeMl[k] == DayWater(dataDict, startDate + k)
      {
        if k < |prev.dates| {
          assert chart.intakeMl[k] == prev.intakeMl[k];
        }
      }
      current := current + 1;
    }
    forall k | 0 <= k < |chart.dates|
      ensures chart.intakeMl[k] == WaterOn(rows, endDate - days + k)
    {
    }
  }

  /** A day the query returned a row for shows that row's total, and the last row wins when
      a date repeats. */
  lemma {:induction false} WaterRowShown(rows: seq<WaterRow>, k: nat)
    requires k < |rows| && forall j :: k < j < |rows| ==> rows[j].date != rows[k].date
    ensures WaterOn(rows, rows[k].date) == rows[k].totalMl
  {
    var n := |rows| - 1;
    if k < n {
      assert DatesOf(rows, WaterDate)[..n] == DatesOf(rows[..n], WaterDate);
      WaterRowShown(rows[..n], k);
    } else {
      assert DatesOf(rows, WaterDate)[..n] == DatesOf(rows[..n], WaterDate);
    }
  }
}

=== FILE: common.dfy ===
/** Small shared vocabulary: optional values, Python-style outcomes and list helpers. */
module Common {

  datatype Option<+T> = None | Some(value: T)

  /** The result of a Python call that either returns a value or raises an exception. */
  datatype Outcome<+T> = Ok(value: T) | Raised(error: string)

  function Min(a: int, b: int): int { if a <= b then a else b }

  function MinReal(a: real, b: real): real { if a <= b then a else b }

  function MaxReal(a: real, b: real): real { if a >= b then a else b }

  /** `s[:n]`. */
  function Take<T>(s: seq<T>, n: nat): (r: seq<T>)
    ensures |r| == Min(|s|, n) && r == s[..|r|]
  {
    if |s| <= n then s else s[..n]
  }

  /** A loop that applies `f` to each element in order and stops at the first that raises:
      the outcome of the whole list. */
  function MapAll<A, B>(f: A -> Outcome<B>, xs: seq<A>): (r: Outcome<seq<B>>)
    ensures r.Ok? ==> |r.value| == |xs|
  {
    if |xs| == 0 then Ok([])
    else
      var n := |xs| - 1;
      match MapAll(f, xs[..n])
      case Raised(e) => Raised(e)
      case Ok(done) =>
        match f(xs[n])
        case Raised(e) => Raised(e)
        case Ok(y) => Ok(done + [y])
  }

  /** The whole list succeeds exactly when every element does, and then the k-th result is
      the k-th element's. */
  lemma {:induction false} MapAllPerItem<A, B>(f: A -> Outcome<B>, xs: seq<A>)
    ensures MapAll(f, xs).Ok? <==> forall k :: 0 <= k < |xs| ==> f(xs[k]).Ok?
    ensures MapAll(f, xs).Ok? ==> forall k :: 0 <= k < |xs| ==> MapAll(f, xs).value[k] == f(xs[k]).value
  {
    if |xs| > 0 {
      var n := |xs| - 1;
      MapAllPerItem(f, xs[..n]);
      assert forall k :: 0 <= k < n ==> xs[..n][k] == xs[k];
    }
  }

  /** A one-element list that succeeds gives the one result. */
  lemma MapAllSingle<A, B>(f: A -> Outcome<B>, x: A)
    requires f(x).Ok?
    ensures MapAll(f, [x]) == Ok([f(x).value])
  {
    var xs := [x];
    assert xs[..0] == [];
    assert MapAll(f, xs[..0]) == Ok([]);
    assert [] + [f(x).value] == [f(x).value];
  }

  /** Once a prefix raises, the whole list raises the same error. */
  lemma {:induction false} MapAllRaisedPrefix<A, B>(f: A -> Outcome<B>, xs: seq<A>, i: nat)
    requires i <= |xs| && MapAll(f, xs[..i]).Raised?
    decreases |xs| - i
    ensures MapAll(f, xs) == MapAll(f, xs[..i])
  {
    if i < |xs| {
      assert xs[..i + 1][..i] == xs[..i];
      MapAllRaisedPrefix(f, xs, i + 1);
    } else {
      assert xs[..i] == xs;
    }
  }
}

=== FILE: fallback_patterns.dfy ===
/** The three keyword patterns the vision-text parser falls back on when a reply has no
    structured lines, and `re.findall` over them. Matching is case-insensitive on ASCII.

      Sighting  `(?:I see|I can see|visible|appears to be|looks like)\s+([^.]+)`  (group 1)
      Listing   `(?:contains|includes|has)\s+([^.]+)`                              (group 1)
      FoodWord  `(?:chicken|beef|...|soup)\w*[^.]*`                                (whole match) */
module FallbackPatterns {

  import opened Common
  import opened Strings

  datatype Pattern = Sighting | Listing | FoodWord

  /** The patterns in the order the parser tries them. */
  const Patterns: seq<Pattern> := [Sighting, Listing, FoodWord]

  const SightingLeads: seq<string> := ["i see", "i can see", "visible", "appears to be", "looks like"]

  const ListingLeads: seq<string> := ["contains", "includes", "has"]

  const FoodWords: seq<string> :=
    ["chicken", "beef", "pork", "fish", "rice", "pasta", "bread", "vegetable", "fruit", "salad", "soup"]

  /** `word` (lower case) occurs at `i`, ignoring the case of `s`. */
  predicate WordAt(s: string, i: nat, word: string) {
    i + |word| <= |s| && Lower(s[i..i + |word|]) == word
  }

  /** The length of the first alternative that occurs at `i` (0 when none does). */
  function LeadAt(s: string, i: nat, leads: seq<string>): (n: nat)
    ensures n > 0 ==> i + n <= |s|
  {
    if |leads| == 0 then 0
    else if |leads[0]| > 0 && WordAt(s, i, leads[0]) then |leads[0]|
    else LeadAt(s, i, leads[1..])
  }

  /** The end of the run of characters other than '.' that starts at `i`. */
  function NonDotRunEnd(s: string, i: nat): (j: nat)
    requires i <= |s|
    decreases |s| - i
    ensures i <= j <= |s|
    ensures forall k :: i <= k < j ==> s[k] != '.'
    ensures j == |s| || s[j] == '.'
  {
    if i < |s| && s[i] != '.' then NonDotRunEnd(s, i + 1) else i
  }

  /** A match: where it ends and the text `findall` reports for it. */
  datatype Match = Match(end: nat, text: string)

  /** `lead\s+([^.]+)` at `a`, the end of the lead: the whitespace run is greedy, and gives
      one character back to the group when nothing but a '.' or the end follows it. */
  function LeadThenPhrase(s: string, a: nat): (r: Option<Match>)
    requires a <= |s|
    ensures r.Some? ==> a < r.value.end <= |s|
  {
    var w := SpaceRunEnd(s, a);
    var d := NonDotRunEnd(s, w);
    if w == a then None
    else if d > w then Some(Match(d, s[w..d]))
    else if w - a >= 2 then Some(Match(w, s[w - 1..w]))
    else None
  }

  /** The match of a pattern that starts exactly at `i`, if any. */
  function MatchAt(p: Pattern, s: string, i: nat): (r: Option<Match>)
    requires i <= |s|
    ensures r.Some? ==> i < r.value.end <= |s|
  {
    match p
    case Sighting =>
      var n := LeadAt(s, i, SightingLeads);
      if n == 0 then None else LeadThenPhrase(s, i + n)
    case Listing =>
      var n := LeadAt(s, i, ListingLeads);
      if n == 0 then None else LeadThenPhrase(s, i + n)
    case FoodWord =>
      var n := LeadAt(s, i, FoodWords);
      if n == 0 then None else
      var e := NonDotRunEnd(s, i + n);
      Some(Match(e, s[i..e]))
  }

  /** `re.findall(p, s[from..])`: leftmost matches, each search resuming where the last
      match ended. */
  function FindAll(p: Pattern, s: string, from: nat): (r: seq<string>)
    requires from <= |s|
    decreases |s| - from
  {
    if from == |s| then []
    else match MatchAt(p, s, from)
      case Some(m) => [m.text] + FindAll(p, s, m.end)
      case None => FindAll(p, s, from + 1)
  }

  /** The matches of the first `count` patterns, in pattern order. */
  function MatchesOf(s: string, count: nat): (r: seq<string>)
    requires count <= |Patterns|
  {
    if count == 0 then [] else MatchesOf(s, count - 1) + FindAll(Patterns[count - 1], s, 0)
  }

  /** The matches of fewer patterns are a prefix of the matches of more. */
  lemma {:induction false} MatchesOfPrefix(s: string, count: nat, more: nat)
    requires count <= more <= |Patterns|
    decreases more
    ensures |MatchesOf(s, count)| <= |MatchesOf(s, more)|
    ensures MatchesOf(s, more)[..|MatchesOf(s, count)|] == MatchesOf(s, count)
  {
    if count < more {
      MatchesOfPrefix(s, count, more - 1);
      assert MatchesOf(s, more) == MatchesOf(s, more - 1) + FindAll(Patterns[more - 1], s, 0);
    }
  }

  /** `match.strip().split(',')[0].split(' and')[0].strip()`. */
  function Cleaned(m: string): (r: string)
    ensures |r| <= |m|
  {
    Strip(Before(Before(Strip(m), ","), " and"))
  }

  /** A cleaned match is kept when it is longer than 3 and shorter than 50 characters. */
  predicate Acceptable(c: string) {
    3 < |c| < 50
  }
}

=== FILE: food_parser.dfy ===
/** The food parser: portion text to grams, portion guesses from a free description, the
    merge and validation of nutrient records, and the candidates built from detected items. */
module FoodParser {

  import opened Common
  import opened Strings
  import opened Numbers
  import opened Records
  import opened NutritionSearch

  // ---------------------------------------------------------------------------------------
  // `_parse_portion`

  /** The multiplier of the first unit found in the text, in the order kg, lb/pound, oz,
      cup, tbsp/tablespoon, tsp/teaspoon, slice, piece; a gram unit and no unit both keep
      the amount as it is. */
  function UnitFactor(t: string): (f: real)
    ensures f >= 1.0
  {
    if Contains(t, "kg") then 1000.0
    else if Contains(t, "lb") || Contains(t, "pound") then 453.592
    else if Contains(t, "oz") then 28.35
    else if Contains(t, "cup") then 240.0
    else if Contains(t, "tbsp") || Contains(t, "tablespoon") then 15.0
    else if Contains(t, "tsp") || Contains(t, "teaspoon") then 5.0
    else if Contains(t, "slice") then 30.0
    else if Contains(t, "piece") then 50.0
    else 1.0
  }

  /** `_parse_portion` on a string: 100 g for empty text or text without a number, else the
      first number times the unit multiplier. */
  function ParsePortion(text: string): (r: real)
    ensures r >= 0.0
    ensures text == [] || FirstNumber(Strip(Lower(text))).None? ==> r == 100.0
  {
    if text == [] then 100.0
    else
      var t := Strip(Lower(text));
      match FirstNumber(t)
      case None => 100.0
      case Some(amount) => Times(amount, UnitFactor(t))
  }

  /** A product of two non-negative amounts. */
  function Times(a: real, b: real): (r: real)
    requires a >= 0.0 && b >= 0.0
    ensures r >= 0.0 && r == a * b
  {
    MulNonNegative(a, b);
    a * b
  }

  /** For every text with a number: the value of the first `\d+\.?\d*` match of the
      lower-cased, stripped text, times the multiplier of the first unit named in it. */
  lemma PortionOfRun(text: string, i: nat, j: nat, k: nat)
    requires text != [] && NumberRun(Strip(Lower(text)), i, j, k)
    ensures var t := Strip(Lower(text));
      ParsePortion(text) == Times(NumberValue(t, i, j, k), UnitFactor(t))
  {
    FirstNumberRun(Strip(Lower(text)), i, j, k);
  }

  /** A text with no digit after lower-casing and stripping is 100 g. */
  lemma PortionWithoutDigits(text: string)
    requires forall m :: 0 <= m < |Strip(Lower(text))| ==> !IsDigit(Strip(Lower(text))[m])
    ensures ParsePortion(text) == 100.0
  {
  }

  /** Lower-casing text without capitals, and stripping text without surrounding
      whitespace, change nothing. */
  lemma PlainText(s: string)
    requires |s| > 0 && !IsSpace(s[0]) && !IsSpace(s[|s| - 1])
    requires forall k :: 0 <= k < |s| ==> !IsUpper(s[k])
    ensures Strip(Lower(s)) == s
  {
    assert Lower(s) == s;
  }

  /** A text that starts with a run of digits followed by neither a digit nor '.' has that
      run as its first number. */
  lemma LeadingNumber(s: string, n: nat)
    requires 0 < n < |s| && AllDigits(s[..n]) && !IsDigit(s[n]) && s[n] != '.'
    ensures FirstNumber(s) == Some(DigitsValue(s[..n]) as real)
  {
    assert IsDigit(s[0]) by { assert s[..n][0] == s[0]; }
    assert FirstDigitFrom(s, 0) == Some(0);
    assert forall k :: 0 <= k < n ==> IsDigit(s[k]) by {
      forall k | 0 <= k < n ensures IsDigit(s[k]) { assert s[..n][k] == s[k]; }
    }
    DigitRunFrom(s, 0, n);
    assert s[0..n] == s[..n];
  }

  lemma {:induction false} DigitRunFrom(s: string, i: nat, n: nat)
    requires i <= n < |s| && (forall k :: i <= k < n ==> IsDigit(s[k])) && !IsDigit(s[n])
    decreases n - i
    ensures DigitRunEnd(s, i) == n
  {
    if i < n {
      DigitRunFrom(s, i + 1, n);
    }
  }

  /** A plain text that starts with a run of digits is that number times its unit's
      multiplier. */
  lemma LeadingPortion(t: string, n: nat)
    requires |t| > 0 && !IsSpace(t[0]) && !IsSpace(t[|t| - 1])
    requires forall k :: 0 <= k < |t| ==> !IsUpper(t[k])
    requires 0 < n < |t| && AllDigits(t[..n]) && !IsDigit(t[n]) && t[n] != '.'
    ensures ParsePortion(t) == Times(DigitsValue(t[..n]) as real, UnitFactor(t))
  {
    PlainText(t);
    LeadingNumber(t, n);
  }

  /** "1 cup" is 240 g. */
  lemma OneCup()
    ensures ParsePortion("1 cup") == 240.0
  {
    var t := "1 cup";
    LeadingPortion(t, 1);
    assert DigitsValue(t[..1]) == 1 by { assert t[..1] == "1"; }
    CupFactor(t);
  }

  lemma CupFactor(t: string)
    requires t == "1 cup"
    ensures UnitFactor(t) == 240.0
  {
    FirstCharAbsent(t, "kg");
    FirstCharAbsent(t, "lb");
    FirstCharAbsent(t, "oz");
    assert !Contains(t, "pound") by {
      assert !StartsWith(t, "pound");
      LongerAbsent(t[1..], "pound");
    }
    assert Contains(t, "cup") by {
      assert StartsWith(t[2..], "cup");
      ContainsAt(t, "cup", 2);
    }
  }

  /** "150g" is 150 g. */
  lemma HundredFiftyGrams()
    ensures ParsePortion("150g") == 150.0
  {
    GramsPortion("150g");
    assert "150g"[..3] == "150";
    ThreeDigits("150");
  }

  /** Digits followed by 'g' are that many grams. */
  lemma GramsPortion(t: string)
    requires |t| >= 2 && t[|t| - 1] == 'g' && AllDigits(t[..|t| - 1])
    ensures ParsePortion(t) == DigitsValue(t[..|t| - 1]) as real
  {
    var n := |t| - 1;
    forall k | 0 <= k < |t| ensures IsDigit(t[k]) || t[k] == 'g' {
      if k < n { assert t[k] == t[..n][k]; }
    }
    LeadingPortion(t, n);
    GramsOnly(t);
  }

  /** The value of three digits. */
  lemma ThreeDigits(d: string)
    requires |d| == 3 && AllDigits(d)
    ensures DigitsValue(d) == 100 * DigitValue(d[0]) + 10 * DigitValue(d[1]) + DigitValue(d[2])
  {
    assert d[..2][..1] == d[..1] && d[..2][1] == d[1] && d[..1][0] == d[0];
    assert DigitsValue(d[..1]) == DigitValue(d[0]);
    assert DigitsValue(d[..2]) == 10 * DigitValue(d[0]) + DigitValue(d[1]);
  }

  /** A text whose letters are only 'g' and digits has no other unit. */
  lemma GramsOnly(t: string)
    requires forall k :: 0 <= k < |t| ==> IsDigit(t[k]) || t[k] == 'g'
    ensures UnitFactor(t) == 1.0
  {
    FirstCharAbsent(t, "kg");
    FirstCharAbsent(t, "lb");
    FirstCharAbsent(t, "pound");
    FirstCharAbsent(t, "oz");
    FirstCharAbsent(t, "cup");
    FirstCharAbsent(t, "tbsp");
    FirstCharAbsent(t, "tablespoon");
    FirstCharAbsent(t, "tsp");
    FirstCharAbsent(t, "teaspoon");
    FirstCharAbsent(t, "slice");
    FirstCharAbsent(t, "piece");
  }

  /** The grams of an item's `portion` entry (`item.get('portion', '100g')`): an absent entry
      is "100g", `None` and other falsy values give 100, and any other non-string raises
      because it has no `lower`. */
  function PortionGrams(portion: PortionField): (r: Outcome<real>)
    ensures r.Raised? <==> portion.NonText? && portion.truthy
    ensures r.Ok? ==> r.value >= 0.0
    ensures portion.Text? ==> r == Ok(ParsePortion(portion.text))
    ensures portion == Null || (portion.NonText? && !portion.truthy) ==> r == Ok(100.0)
    ensures r.Raised? ==> r.error == "'" + portion.typeName + "' object has no attribute 'lower'"
  {
    match portion
    case Missing => Ok(ParsePortion("100g"))
    case Null => Ok(100.0)
    case Text(t) => Ok(ParsePortion(t))
    case NonText(typeName, truthy) =>
      if truthy then Raised("'" + typeName + "' object has no attribute 'lower'") else Ok(100.0)
  }

  /** An absent portion is 100 g. */
  lemma MissingPortion()
    ensures PortionGrams(Missing) == Ok(100.0)
  {
    HundredGrams();
  }

  lemma HundredGrams()
    ensures ParsePortion("100g") == 100.0
  {
    GramsPortion("100g");
    assert "100g"[..3] == "100";
    ThreeDigits("100");
  }

  // ---------------------------------------------------------------------------------------
  // `estimate_portions_from_description`

  /** One entry of the portion pattern table: a count followed by a unit (`(\d+)\s*unit`,
      with a word boundary after the unit when `boundary`), or a bare size word. */
  datatype PortionRule =
    | Counted(unit: string, factor: real, boundary: bool, pattern: string)
    | SizeWord(word: string, grams: real)

  /** The table, in the order its patterns are tried. */
  const PortionRules: seq<PortionRule> := [
    Counted("cup", 240.0, false, "(\\d+)\\s*cups?"),
    Counted("tablespoon", 15.0, false, "(\\d+)\\s*tablespoons?"),
    Counted("teaspoon", 5.0, false, "(\\d+)\\s*teaspoons?"),
    Counted("slice", 30.0, false, "(\\d+)\\s*slices?"),
    Counted("piece", 50.0, false, "(\\d+)\\s*pieces?"),
    Counted("gram", 1.0, false, "(\\d+)\\s*grams?"),
    Counted("g", 1.0, true, "(\\d+)\\s*g\\b"),
    Counted("oz", 28.35, false, "(\\d+)\\s*oz"),
    Counted("pound", 453.592, false, "(\\d+)\\s*pounds?"),
    Counted("lb", 453.592, false, "(\\d+)\\s*lbs?"),
    SizeWord("small", 50.0),
    SizeWord("medium", 100.0),
    SizeWord("large", 200.0),
    SizeWord("handful", 30.0)
  ]

  /** A portion guess: grams and the pattern that gave it (or "default"). */
  datatype Estimate = Estimate(grams: real, source: string)

  /** Whether `(\d+)\s*unit` matches at `i`: the digit run starting there, then the
      whitespace run after it, then the unit (and, with `boundary`, no word character after
      it). The greedy runs lose nothing by backtracking, because a unit starts with a letter. */
  predicate CountAt(s: string, i: nat, unit: string, boundary: bool)
    requires i <= |s|
  {
    i < |s| && IsDigit(s[i]) &&
    var k := SpaceRunEnd(s, DigitRunEnd(s, i));
    StartsWith(s[k..], unit) &&
    (boundary ==> k + |unit| == |s| || !IsWordChar(s[k + |unit|]))
  }

  /** `re.search`: the leftmost position at or after `from` where the count pattern matches. */
  function FirstCount(s: string, unit: string, boundary: bool, from: nat): (r: Option<nat>)
    requires from <= |s|
    decreases |s| - from
    ensures r.Some? ==> from <= r.value < |s| && CountAt(s, r.value, unit, boundary)
  {
    if from == |s| then None
    else if CountAt(s, from, unit, boundary) then Some(from)
    else FirstCount(s, unit, boundary, from + 1)
  }

  /** The match found is the leftmost one, and no match means no position matches. */
  lemma {:induction false} FirstCountLeftmost(s: string, unit: string, boundary: bool, from: nat, j: nat)
    requires from <= j <= |s|
    decreases |s| - from
    ensures FirstCount(s, unit, boundary, from).Some? && j < FirstCount(s, unit, boundary, from).value ==>
              !CountAt(s, j, unit, boundary)
    ensures FirstCount(s, unit, boundary, from).None? ==> !CountAt(s, j, unit, boundary)
  {
    if from < j && !CountAt(s, from, unit, boundary) {
      assert FirstCount(s, unit, boundary, from) == FirstCount(s, unit, boundary, from + 1);
      FirstCountLeftmost(s, unit, boundary, from + 1, j);
    }
  }

  /** The grams one table entry gives for the lower-cased description, if it matches: the
      captured count converter for a counted unit, the constant for a size word. */
  function RuleGrams(s: string, rule: PortionRule): (r: Option<real>)
    ensures NonNegativeRule(rule) && r.Some? ==> r.value >= 0.0
  {
    match rule
    case Counted(unit, factor, boundary, _) =>
      (match FirstCount(s, unit, boundary, 0)
       case Some(i) =>
         var count := DigitsValue(s[i..DigitRunEnd(s, i)]) as real;
         MulNonNegative(count, factor);
         Some(count * factor)
       case None => None)
    case SizeWord(word, grams) => if Contains(s, word) then Some(grams) else None
  }

  /** The source text of a table entry. */
  function RuleSource(rule: PortionRule): string
  {
    match rule
    case Counted(_, _, _, pattern) => pattern
    case SizeWord(word, _) => word
  }

  /** Every entry of the table converts to a non-negative weight. */
  predicate NonNegativeRule(rule: PortionRule) {
    (rule.Counted? ==> rule.factor >= 0.0) && (rule.SizeWord? ==> rule.grams >= 0.0)
  }

  /** No table entry is called "default". */
  lemma SourcesNotDefault()
    ensures forall j :: 0 <= j < |PortionRules| ==> RuleSource(PortionRules[j]) != "default"
  {
    forall j | 0 <= j < |PortionRules|
      ensures RuleSource(PortionRules[j]) != "default"
    {
      assert RuleSource(PortionRules[j])[0] != 'd';
    }
  }

  lemma RulesNonNegative()
    ensures forall j :: 0 <= j < |PortionRules| ==> NonNegativeRule(PortionRules[j])
  {
  }

  /** The index of the first table entry, from `i` on, that matches. */
  function FirstRule(s: string, i: nat): (r: Option<nat>)
    requires i <= |PortionRules|
    decreases |PortionRules| - i
    ensures r.Some? ==> i <= r.value < |PortionRules| && RuleGrams(s, PortionRules[r.value]).Some?
  {
    if i == |PortionRules| then None
    else if RuleGrams(s, PortionRules[i]).Some? then Some(i)
    else FirstRule(s, i + 1)
  }

  /** The entry found is the first that matches, and no entry found means none matches. */
  lemma {:induction false} FirstRuleFirst(s: string, i: nat, k: nat)
    requires i <= k < |PortionRules|
    decreases |PortionRules| - i
    ensures FirstRule(s, i).Some? && k < FirstRule(s, i).value ==> RuleGrams(s, PortionRules[k]).None?
    ensures FirstRule(s, i).None? ==> RuleGrams(s, PortionRules[k]).None?
  {
    if i < k && RuleGrams(s, PortionRules[i]).None? {
      assert FirstRule(s, i) == FirstRule(s, i + 1);
      FirstRuleFirst(s, i + 1, k);
    }
  }

  /** `estimate_portions_from_description`: the weight and pattern of the first table entry
      that matches the lower-cased description, or 100 g from "default". */
  function EstimatePortions(description: string): (r: Estimate)
    ensures r.grams >= 0.0
    ensures FirstRule(Lower(description), 0).None? <==> r == Estimate(100.0, "default")
    ensures FirstRule(Lower(description), 0).Some? ==>
              var rule := PortionRules[FirstRule(Lower(description), 0).value];
              Some(r.grams) == RuleGrams(Lower(description), rule) && r.source == RuleSource(rule)
  {
    RulesNonNegative();
    SourcesNotDefault();
    var s := Lower(description);
    match FirstRule(s, 0)
    case Some(j) => Estimate(RuleGrams(s, PortionRules[j]).value, RuleSource(PortionRules[j]))
    case None => Estimate(100.0, "default")
  }

  /** Without a digit no counted unit matches. */
  lemma NoDigitNoCount(s: string, rule: PortionRule)
    requires rule.Counted? && forall k :: 0 <= k < |s| ==> !IsDigit(s[k])
    ensures RuleGrams(s, rule).None?
  {
  }

  /** In a description without digits no counted unit matches, so the first size word
      the description mentions decides. */
  lemma NoCountedRule(description: string)
    requires forall k :: 0 <= k < |description| ==> !IsDigit(description[k])
    ensures forall j :: 0 <= j < 10 ==> RuleGrams(Lower(description), PortionRules[j]).None?
    ensures FirstRule(Lower(description), 0) == FirstRule(Lower(description), 10)
  {
    var s := Lower(description);
    assert forall k :: 0 <= k < |s| ==> !IsDigit(s[k]);
    forall j | 0 <= j < 10
      ensures RuleGrams(s, PortionRules[j]).None?
    {
      NoDigitNoCount(s, PortionRules[j]);
    }
    SkipRules(s, 0, 10);
  }

  /** Entries that do not match are skipped. */
  lemma {:induction false} SkipRules(s: string, i: nat, n: nat)
    requires i <= n <= |PortionRules|
    requires forall j :: i <= j < n ==> RuleGrams(s, PortionRules[j]).None?
    decreases n - i
    ensures FirstRule(s, i) == FirstRule(s, n)
  {
    if i < n {
      SkipRules(s, i + 1, n);
    }
  }

  /** A description without digits that mentions "small" is a small portion of 50 g. */
  lemma SmallPortion(description: string)
    requires forall k :: 0 <= k < |description| ==> !IsDigit(description[k])
    requires Contains(Lower(description), "small")
    ensures EstimatePortions(description) == Estimate(50.0, "small")
  {
    NoCountedRule(description);
  }

  /** Without digits and without "small", "medium" is a portion of 100 g. */
  lemma MediumPortion(description: string)
    requires forall k :: 0 <= k < |description| ==> !IsDigit(description[k])
    requires !Contains(Lower(description), "small") && Contains(Lower(description), "medium")
    ensures EstimatePortions(description) == Estimate(100.0, "medium")
  {
    NoCountedRule(description);
  }

  /** Without digits, "small" or "medium", "large" is a portion of 200 g. */
  lemma LargePortion(description: string)
    requires forall k :: 0 <= k < |description| ==> !IsDigit(description[k])
    requires !Contains(Lower(description), "small") && !Contains(Lower(description), "medium")
    requires Contains(Lower(description), "large")
    ensures EstimatePortions(description) == Estimate(200.0, "large")
  {
    NoCountedRule(description);
  }

  /** Without digits and the other three size words, "handful" is a portion of 30 g. */
  lemma HandfulPortion(description: string)
    requires forall k :: 0 <= k < |description| ==> !IsDigit(description[k])
    requires !Contains(Lower(description), "small") && !Contains(Lower(description), "medium")
    requires !Contains(Lower(description), "large") && Contains(Lower(description), "handful")
    ensures EstimatePortions(description) == Estimate(30.0, "handful")
  {
    NoCountedRule(description);
  }

  /** Without digits and without any of the four size words, the default 100 g applies. */
  lemma DefaultPortion(description: string)
    requires forall k :: 0 <= k < |description| ==> !IsDigit(description[k])
    requires !Contains(Lower(description), "small") && !Contains(Lower(description), "medium")
    requires !Contains(Lower(description), "large") && !Contains(Lower(description), "handful")
    ensures EstimatePortions(description) == Estimate(100.0, "default")
  {
    NoCountedRule(description);
  }

  // ---------------------------------------------------------------------------------------
  // `merge_nutrition_sources`

  /** The seven nutrient keys of a merged record, in insertion order. */
  const MergeKeys: seq<string> := ["calories", "protein_g", "carbs_g", "fat_g", "fiber_g", "sugar_g", "sodium_mg"]

  /** A merged record: the seven nutrient values and the sources that were applied. */
  datatype Merged = Merged(values: map<string, FieldValue>, sources: seq<string>)

  /** `float(v)` for a value that is not `None`: numbers as they are, strings when they parse. */
  function AsFloat(v: FieldValue): (r: Option<real>)
    ensures v.Number? ==> r == Some(v.x)
    ensures v.NullValue? ==> r.None?
  {
    match v
    case Number(x) => Some(x)
    case Str(t) => ParseFloat(t)
    case NullValue => None
  }

  /** The value after the vision stage: the vision value when it has the key, else 0. */
  function VisionStage(vision: map<string, FieldValue>, key: string): FieldValue
  {
    if key in vision then vision[key] else Number(0.0)
  }

  /** Whether the search stage overrides a key: it has the key with a positive number. */
  predicate SearchOverrides(search: map<string, FieldValue>, key: string) {
    key in search && search[key].Number? && search[key].x > 0.0
  }

  function SearchStage(vision: map<string, FieldValue>, search: map<string, FieldValue>, key: string): FieldValue
  {
    if SearchOverrides(search, key) then search[key] else VisionStage(vision, key)
  }

  /** Whether the user stage overrides a key: a value that is not `None` and converts. */
  predicate UserOverrides(user: map<string, FieldValue>, key: string) {
    key in user && AsFloat(user[key]).Some?
  }

  /** The merged value of a key: user before search before vision before 0. */
  function MergedValue(vision: map<string, FieldValue>, search: map<string, FieldValue>,
                       user: map<string, FieldValue>, key: string): FieldValue
  {
    if UserOverrides(user, key) then Number(AsFloat(user[key]).value) else SearchStage(vision, search, key)
  }

  /** The sources applied: each non-empty input, in the order vision, search, user. */
  function MergeSources(vision: map<string, FieldValue>, search: map<string, FieldValue>,
                        user: map<string, FieldValue>): (r: seq<string>)
    ensures |r| <= 3
    ensures ("vision" in r <==> vision != map[]) && ("search" in r <==> search != map[]) &&
            ("user" in r <==> user != map[])
  {
    (if vision != map[] then ["vision"] else []) + (if search != map[] then ["search"] else []) +
    (if user != map[] then ["user"] else [])
  }

  /** The Python error of comparing a non-number with 0. */
  function CompareError(v: FieldValue): string
  {
    if v.Str? then "'>' not supported between instances of 'str' and 'int'"
    else "'>' not supported between instances of 'NoneType' and 'int'"
  }

  /** The first key, from `i` on, whose search value is not a number. */
  function FirstUnordered(search: map<string, FieldValue>, i: nat): (r: Option<nat>)
    requires i <= |MergeKeys|
    decreases |MergeKeys| - i
    ensures r.Some? ==> i <= r.value < |MergeKeys| && MergeKeys[r.value] in search &&
                        !search[MergeKeys[r.value]].Number?
    ensures r.Some? ==> forall k :: i <= k < r.value ==> MergeKeys[k] !in search || search[MergeKeys[k]].Number?
    ensures r.None? ==> forall k :: i <= k < |MergeKeys| ==> MergeKeys[k] !in search || search[MergeKeys[k]].Number?
  {
    if i == |MergeKeys| then None
    else if MergeKeys[i] in search && !search[MergeKeys[i]].Number? then Some(i)
    else FirstUnordered(search, i + 1)
  }

  /** One stage: for every key in order, the new value where the stage overrides it. */
  method MergeVision(merged0: map<string, FieldValue>, vision: map<string, FieldValue>)
    returns (merged: map<string, FieldValue>)
    requires forall key :: key in merged0 <==> key in MergeKeys
    requires forall key :: key in merged0 ==> merged0[key] == Number(0.0)
    ensures forall key :: key in merged <==> key in MergeKeys
    ensures forall key :: key in merged ==> merged[key] == VisionStage(vision, key)
  {
    merged := merged0;
    for i := 0 to |MergeKeys|
      invariant forall key :: key in merged <==> key in MergeKeys
      invariant forall key :: key in merged ==>
                  merged[key] == if key in MergeKeys[..i] then VisionStage(vision, key) else Number(0.0)
    {
      var key := MergeKeys[i];
      assert MergeKeys[..i + 1] == MergeKeys[..i] + [key];
      if key in vision {
        merged := merged[key := vision[key]];
      }
    }
    assert MergeKeys[..|MergeKeys|] == MergeKeys;
  }

  method MergeSearch(merged0: map<string, FieldValue>, vision: map<string, FieldValue>,
                     search: map<string, FieldValue>)
    returns (r: Outcome<map<string, FieldValue>>)
    requires forall key :: key in merged0 <==> key in MergeKeys
    requires forall key :: key in merged0 ==> merged0[key] == VisionStage(vision, key)
    ensures FirstUnordered(search, 0).Some? ==>
              r == Raised(CompareError(search[MergeKeys[FirstUnordered(search, 0).value]]))
    ensures FirstUnordered(search, 0).None? ==>
              (r.Ok? && (forall key :: key in r.value <==> key in MergeKeys) &&
               forall key :: key in r.value ==> r.value[key] == SearchStage(vision, search, key))
  {
    var merged := merged0;
    for i := 0 to |MergeKeys|
      invariant FirstUnordered(search, 0) == FirstUnordered(search, i)
      invariant forall key :: key in merged <==> key in MergeKeys
      invariant forall key :: key in merged ==>
                  merged[key] == if key in MergeKeys[..i] then SearchStage(vision, search, key)
                                 else VisionStage(vision, key)
    {
      var key := MergeKeys[i];
      assert MergeKeys[..i + 1] == MergeKeys[..i] + [key];
      if key in search {
        var v := search[key];
        if !v.Number? {
          return Raised(CompareError(v));
        }
        if v.x > 0.0 {
          merged := merged[key := v];
        }
      }
    }
    assert MergeKeys[..|MergeKeys|] == MergeKeys;
    r := Ok(merged);
  }

  method MergeUser(merged0: map<string, FieldValue>, vision: map<string, FieldValue>,
                   search: map<string, FieldValue>, user: map<string, FieldValue>)
    returns (merged: map<string, FieldValue>)
    requires forall key :: key in merged0 <==> key in MergeKeys
    requires forall key :: key in merged0 ==> merged0[key] == SearchStage(vision, search, key)
    ensures forall key :: key in merged <==> key in MergeKeys
    ensures forall key :: key in merged ==> merged[key] == MergedValue(vision, search, user, key)
  {
    merged := merged0;
    for i := 0 to |MergeKeys|
      invariant forall key :: key in merged <==> key in MergeKeys
      invariant forall key :: key in merged ==>
                  merged[key] == if key in MergeKeys[..i] then MergedValue(vision, search, user, key)
                                 else SearchStage(vision, search, key)
    {
      var key := MergeKeys[i];
      assert MergeKeys[..i + 1] == MergeKeys[..i] + [key];
      if key in user && user[key] != NullValue {
        var f := AsFloat(user[key]);
        if f.Some? {
          merged := merged[key := Number(f.value)];
        }
      }
    }
    assert MergeKeys[..|MergeKeys|] == MergeKeys;
  }

  /** `merge_nutrition_sources`. An empty input counts as not given. A search value that is
      not a number makes the comparison with 0 raise. */
  method MergeNutritionSources(vision: map<string, FieldValue>, search: map<string, FieldValue>,
                               user: map<string, FieldValue>)
    returns (r: Outcome<Merged>)
    ensures search != map[] && FirstUnordered(search, 0).Some? ==>
              r == Raised(CompareError(search[MergeKeys[FirstUnordered(search, 0).value]]))
    ensures !(search != map[] && FirstUnordered(search, 0).Some?) ==>
              (r.Ok? && (forall key :: key in r.value.values <==> key in MergeKeys) &&
               (forall key :: key in r.value.values ==> r.value.values[key] == MergedValue(vision, search, user, key)) &&
               r.value.sources == MergeSources(vision, search, user))
  {
    var merged: map<string, FieldValue> := map key | key in MergeKeys :: Number(0.0);
    var sources: seq<string> := [];
    if vision != map[] {
      merged := MergeVision(merged, vision);
      sources := sources + ["vision"];
    } else {
      assert forall key :: key in merged ==> merged[key] == VisionStage(vision, key);
    }
    ghost var visionSources := if vision != map[] then ["vision"] else [];
    assert sources == visionSources;
    if search != map[] {
      var stage := MergeSearch(merged, vision, search);
      if stage.Raised? {
        return Raised(stage.error);
      }
      merged := stage.value;
      sources := sources + ["search"];
    } else {
      assert forall key :: key in merged ==> merged[key] == SearchStage(vision, search, key);
    }
    ghost var searchSources := visionSources + if search != map[] then ["search"] else [];
    assert sources == searchSources;
    if user != map[] {
      merged := MergeUser(merged, vision, search, user);
      sources := sources + ["user"];
    } else {
      assert forall key :: key in merged ==> merged[key] == MergedValue(vision, search, user, key);
    }
    r := Ok(Merged(merged, sources));
  }

  /** With no inputs every nutrient is 0 and there are no sources. */
  lemma MergeNothing(key: string)
    ensures MergedValue(map[], map[], map[], key) == Number(0.0)
    ensures MergeSources(map[], map[], map[]) == []
  {
  }

  /** Priority: a convertible user value wins; otherwise a positive search number; otherwise
      the vision value; a search value of 0 or less never replaces anything. */
  lemma MergePriority(vision: map<string, FieldValue>, search: map<string, FieldValue>,
                      user: map<string, FieldValue>, key: string)
    ensures key in user && AsFloat(user[key]).Some? ==>
              MergedValue(vision, search, user, key) == Number(AsFloat(user[key]).value)
    ensures !UserOverrides(user, key) && key in search && search[key].Number? && search[key].x > 0.0 ==>
              MergedValue(vision, search, user, key) == search[key]
    ensures !UserOverrides(user, key) && !SearchOverrides(search, key) && key in vision ==>
              MergedValue(vision, search, user, key) == vision[key]
    ensures key in search && search[key].Number? && search[key].x <= 0.0 ==>
              MergedValue(vision, search, user, key) == MergedValue(vision, search - {key}, user, key)
  {
  }

  // ---------------------------------------------------------------------------------------
  // `validate_nutrition_data`

  /** A nutrient key with its allowed range. */
  datatype Range = Range(key: string, lo: int, hi: int)

  const Ranges: seq<Range> := [
    Range("calories", 0, 900), Range("protein_g", 0, 100), Range("carbs_g", 0, 100),
    Range("fat_g", 0, 100), Range("fiber_g", 0, 50), Range("sugar_g", 0, 100),
    Range("sodium_mg", 0, 10000)
  ]

  /** Every range is non-empty. */
  predicate ProperRange(rg: Range) { rg.lo <= rg.hi }

  /** The validated value of one key: `float` of the value (0 when absent), clamped and
      rounded to 2 decimals; 0 when it does not convert. */
  function ValidatedValue(nutrition: map<string, FieldValue>, rg: Range): (r: real)
    requires ProperRange(rg)
  {
    var raw := if rg.key in nutrition then nutrition[rg.key] else Number(0.0);
    match AsFloat(raw)
    case Some(x) => Round(Clamp(x, rg.lo as real, rg.hi as real), 2)
    case None => 0.0
  }

  lemma RangesProper()
    ensures forall j :: 0 <= j < |Ranges| ==> ProperRange(Ranges[j])
    ensures forall a, b :: 0 <= a < b < |Ranges| ==> Ranges[a].key != Ranges[b].key
  {
  }

  /** `validate_nutrition_data`: a fresh record with exactly the seven keys. */
  method ValidateNutritionData(nutrition: map<string, FieldValue>) returns (validated: map<string, real>)
    ensures forall key :: key in validated <==> exists j :: 0 <= j < |Ranges| && Ranges[j].key == key
    ensures forall j :: 0 <= j < |Ranges| ==>
              (RangesProper(); validated[Ranges[j].key] == ValidatedValue(nutrition, Ranges[j]))
  {
    RangesProper();
    validated := map[];
    for i := 0 to |Ranges|
      invariant forall key :: key in validated <==> exists j :: 0 <= j < i && Ranges[j].key == key
      invariant forall j :: 0 <= j < i ==> validated[Ranges[j].key] == ValidatedValue(nutrition, Ranges[j])
    {
      var rg := Ranges[i];
      var raw := if rg.key in nutrition then nutrition[rg.key] else Number(0.0);
      var value := AsFloat(raw);
      if value.Some? {
        var clamped := MaxReal(rg.lo as real, MinReal(rg.hi as real, value.value));
        validated := validated[rg.key := Round(clamped, 2)];
      } else {
        validated := validated[rg.key := 0.0];
      }
    }
  }

  /** Every validated value lies in its key's range (each range of the table contains 0,
      the value given to what does not convert). */
  lemma ValidatedInRange(nutrition: map<string, FieldValue>, rg: Range)
    requires rg.lo <= 0 <= rg.hi
    ensures rg.lo as real <= ValidatedValue(nutrition, rg) <= rg.hi as real
  {
    var raw := if rg.key in nutrition then nutrition[rg.key] else Number(0.0);
    match AsFloat(raw) {
      case Some(x) =>
        RoundWithin(Clamp(x, rg.lo as real, rg.hi as real), 2, rg.lo, rg.hi);
      case None =>
    }
  }

  // ---------------------------------------------------------------------------------------
  // `parse_vision_results`

  /** The candidate of one detected item: the portion is read first (a non-string portion
      raises there), then `item['name']` (a `KeyError` when absent, whose text is the quoted
      key), then the two searches. */
  function CandidateOf(oracle: SearchOracle, item: VisionItem): (r: Outcome<Candidate>)
    ensures r.Ok? <==> !(item.portion.NonText? && item.portion.truthy) && item.name.Some?
    ensures item.name.None? && !(item.portion.NonText? && item.portion.truthy) ==> r == Raised("'name'")
  {
    match PortionGrams(item.portion)
    case Raised(e) => Raised(e)
    case Ok(grams) =>
      match item.name
      case None => Raised("'name'")
      case Some(name) =>
        Ok(Candidate(name, grams, if item.confidence.Some? then item.confidence.value else 0.7,
                     NutritionEstimate(oracle, name, grams), Take(SearchFood(oracle, name), 3)))
  }

  /** The candidates of a list of items, in order; the first item that raises ends the call. */
  function Candidates(oracle: SearchOracle, items: seq<VisionItem>): (r: Outcome<seq<Candidate>>)
    ensures r.Ok? ==> |r.value| == |items|
  {
    MapAll(item => CandidateOf(oracle, item), items)
  }

  /** The call succeeds exactly when every item gives a candidate, and then the k-th
      candidate is the k-th item's. */
  lemma CandidatesPerItem(oracle: SearchOracle, items: seq<VisionItem>)
    ensures Candidates(oracle, items).Ok? <==> forall k :: 0 <= k < |items| ==> CandidateOf(oracle, items[k]).Ok?
    ensures Candidates(oracle, items).Ok? ==>
              forall k :: 0 <= k < |items| ==> Candidates(oracle, items).value[k] == CandidateOf(oracle, items[k]).value
  {
    MapAllPerItem(item => CandidateOf(oracle, item), items);
  }

  /** `parse_vision_results`: one candidate per item, appended in a loop. */
  method ParseVisionResults(oracle: SearchOracle, items: seq<VisionItem>) returns (r: Outcome<seq<Candidate>>)
    ensures r == Candidates(oracle, items)
  {
    var f := item => CandidateOf(oracle, item);
    var candidates: seq<Candidate> := [];
    for i := 0 to |items|
      invariant MapAll(f, items[..i]) == Ok(candidates)
    {
      assert items[..i + 1][..i] == items[..i];
      var c := CandidateOf(oracle, items[i]);
      if c.Raised? {
        MapAllRaisedPrefix(f, items, i + 1);
        return Raised(c.error);
      }
      candidates := candidates + [c.value];
    }
    assert items[..|items|] == items;
    r := Ok(candidates);
  }

  /** A candidate copies the item's name, reads its portion, defaults its confidence to 0.7,
      keeps the first three search results, and estimates the nutrients of its portion. */
  lemma CandidateFields(oracle: SearchOracle, item: VisionItem)
    requires CandidateOf(oracle, item).Ok?
    ensures var c := CandidateOf(oracle, item).value;
      c.name == item.name.value &&
      PortionGrams(item.portion) == Ok(c.portionGrams) && c.portionGrams >= 0.0 &&
      c.confidence == (if item.confidence.Some? then item.confidence.value else 0.7) &&
      |c.searchResults| <= 3 &&
      c.searchResults == Take(SearchFood(oracle, item.name.value), 3) &&
      c.nutrition == NutritionEstimate(oracle, item.name.value, c.portionGrams)
  {
  }
}

=== FILE: numbers.dfy ===
/** Numeric helpers: Python's `round` on exact reals, decimal digit strings, the subset of
    `float(str)` the services rely on, and clamping. */
module Numbers {

  import opened Common
  import opened Strings

  function Pow10(d: nat): (r: nat)
    ensures r >= 1
  {
    if d == 0 then 1 else 10 * Pow10(d - 1)
  }

  /** Round to the nearest integer, ties to the even neighbour (Python 3 `round`). */
  function RoundHalfEven(y: real): (r: int)
    ensures y - 0.5 <= r as real <= y + 0.5
  {
    var f := y.Floor;
    var frac := y - f as real;
    if frac < 0.5 then f
    else if frac > 0.5 then f + 1
    else if f % 2 == 0 then f else f + 1
  }

  /** `x` shifted left by `digits` decimal places. */
  function Shifted(x: real, digits: nat): real
  {
    x * (Pow10(digits) as real)
  }

  /** `round(x, digits)` on an exact real. */
  function Round(x: real, digits: nat): real
  {
    (RoundHalfEven(Shifted(x, digits)) as real) / (Pow10(digits) as real)
  }

  /** Rounding to the nearest integer never leaves an interval with integer ends. */
  lemma RoundHalfEvenWithin(y: real, lo: int, hi: int)
    requires lo as real <= y <= hi as real
    ensures lo <= RoundHalfEven(y) <= hi
  {
    var f := y.Floor;
    assert lo <= f;
    if RoundHalfEven(y) == f + 1 {
      assert y > f as real;
      assert f < hi;
    }
  }

  /** Rounding to any number of decimals never leaves an interval with integer ends. */
  lemma RoundWithin(x: real, digits: nat, lo: int, hi: int)
    requires lo as real <= x <= hi as real
    ensures lo as real <= Round(x, digits) <= hi as real
  {
    var p := Pow10(digits);
    var y := Shifted(x, digits);
    MulBounds(x, lo, hi, p);
    RoundHalfEvenWithin(y, lo * p, hi * p);
    var n := RoundHalfEven(y);
    DivideWithin(n, p, lo, hi);
    assert Round(x, digits) == (n as real) / (p as real);
  }

  lemma MulBounds(x: real, lo: int, hi: int, p: nat)
    requires lo as real <= x <= hi as real
    ensures (lo * p) as real <= x * p as real <= (hi * p) as real
  {
    assert (lo * p) as real == lo as real * p as real;
    assert (hi * p) as real == hi as real * p as real;
    MulMonotone(lo as real, x, p as real);
    MulMonotone(x, hi as real, p as real);
  }

  lemma MulMonotone(a: real, b: real, p: real)
    requires a <= b && p >= 0.0
    ensures a * p <= b * p
  {
  }

  lemma MulNonNegative(a: real, b: real)
    ensures a >= 0.0 && b >= 0.0 ==> a * b >= 0.0
  {
    if a >= 0.0 && b >= 0.0 {
      MulMonotone(0.0, a, b);
    }
  }

  lemma DivideWithin(n: int, p: nat, lo: int, hi: int)
    requires p >= 1 && lo * p <= n <= hi * p
    ensures lo as real <= n as real / p as real <= hi as real
  {
    var pr := p as real;
    var q := n as real / pr;
    assert q * pr == n as real;
    assert (lo * p) as real == lo as real * pr;
    assert (hi * p) as real == hi as real * pr;
    MulCancel(lo as real, q, pr);
    MulCancel(q, hi as real, pr);
  }

  lemma MulCancel(a: real, b: real, p: real)
    requires p > 0.0 && a * p <= b * p
    ensures a <= b
  {
  }

  /** A value that is already a whole number is unchanged by rounding. */
  lemma RoundWhole(n: int, digits: nat)
    ensures Round(n as real, digits) == n as real
  {
    var p := Pow10(digits);
    var y := Shifted(n as real, digits);
    assert y == (n * p) as real;
    assert y.Floor == n * p;
    assert RoundHalfEven(y) == n * p;
    assert RoundHalfEven(y) as real == (n * p) as real;
    assert (n * p) as real / p as real == n as real;
  }

  function DigitValue(c: char): (v: nat)
    requires IsDigit(c)
    ensures v <= 9
  {
    c as int - '0' as int
  }

  predicate AllDigits(s: string) {
    forall k :: 0 <= k < |s| ==> IsDigit(s[k])
  }

  /** The value of a string of decimal digits (empty string: 0). */
  function DigitsValue(s: string): (v: nat)
    requires AllDigits(s)
  {
    if |s| == 0 then 0 else 10 * DigitsValue(s[..|s| - 1]) + DigitValue(s[|s| - 1])
  }

  /** The value of `whole.frac` written in decimal. */
  function DecimalValue(whole: string, frac: string): (v: real)
    requires AllDigits(whole) && AllDigits(frac)
    ensures v >= 0.0
  {
    DigitsValue(whole) as real + DigitsValue(frac) as real / Pow10(|frac|) as real
  }

  /** `float(s)` for plain decimal text: surrounding whitespace, an optional sign, digits with
      at most one '.', and at least one digit. Anything else is `None` (a `ValueError`). */
  function ParseFloat(s: string): (r: Option<real>)
  {
    var t := Strip(s);
    if |t| > 0 && (t[0] == '+' || t[0] == '-') then
      match ParseUnsigned(t[1..])
      case Some(v) => Some(if t[0] == '-' then -v else v)
      case None => None
    else ParseUnsigned(t)
  }

  function ParseUnsigned(t: string): (r: Option<real>)
    ensures r.Some? ==> r.value >= 0.0
  {
    var i := DigitRunEnd(t, 0);
    if i == |t| then
      (if i > 0 then Some(DigitsValue(t) as real) else None)
    else if t[i] != '.' then None
    else
      var j := DigitRunEnd(t, i + 1);
      if j == |t| && (i > 0 || j > i + 1) then Some(DecimalValue(t[..i], t[i + 1..]))
      else None
  }

  /** Reading back a run of digits gives its value. */
  lemma ParseDigits(s: string)
    requires |s| > 0 && AllDigits(s)
    ensures ParseFloat(s) == Some(DigitsValue(s) as real)
  {
    assert !IsSpace(s[0]) && !IsSpace(s[|s| - 1]);
    assert TrimStart(s) == s;
    assert TrimEnd(s) == s;
    assert Strip(s) == s;
    assert s[0] != '+' && s[0] != '-';
    DigitRunCovers(s, 0);
    assert ParseUnsigned(s) == Some(DigitsValue(s) as real);
  }

  lemma {:induction false} DigitRunCovers(s: string, i: nat)
    requires i <= |s| && AllDigits(s)
    decreases |s| - i
    ensures DigitRunEnd(s, i) == |s|
  {
    if i < |s| { DigitRunCovers(s, i + 1); }
  }

  /** The first digit position at or after `i`. */
  function FirstDigitFrom(s: string, i: nat): (r: Option<nat>)
    requires i <= |s|
    decreases |s| - i
    ensures r.Some? ==> i <= r.value < |s| && IsDigit(s[r.value])
    ensures r.Some? ==> forall m :: i <= m < r.value ==> !IsDigit(s[m])
    ensures r.None? ==> forall m :: i <= m < |s| ==> !IsDigit(s[m])
  {
    if i == |s| then None
    else if IsDigit(s[i]) then Some(i)
    else FirstDigitFrom(s, i + 1)
  }

  /** `float(m.group(1))` for the first match `m` of `(\d+\.?\d*)` in `s`: the first run of
      digits, with the '.' and digits that follow it, if any. */
  function FirstNumber(s: string): (r: Option<real>)
    ensures r.Some? ==> r.value >= 0.0
    ensures r.None? <==> forall m :: 0 <= m < |s| ==> !IsDigit(s[m])
  {
    match FirstDigitFrom(s, 0)
    case None => None
    case Some(i) =>
      var j := DigitRunEnd(s, i);
      if j < |s| && s[j] == '.' then
        var k := DigitRunEnd(s, j + 1);
        Some(DecimalValue(s[i..j], s[j + 1..k]))
      else Some(DigitsValue(s[i..j]) as real)
  }

  /** Positions `i`, `j`, `k` delimit the first match of `\d+\.?\d*` in `s`: `i` is the
      first digit, the digit run from `i` ends at `j`, and when a '.' follows it the digit
      run after the '.' ends at `k` (otherwise `k == j`). */
  predicate NumberRun(s: string, i: nat, j: nat, k: nat) {
    i < j <= k <= |s| &&
    (forall m :: 0 <= m < i ==> !IsDigit(s[m])) &&
    (forall m :: i <= m < j ==> IsDigit(s[m])) && (j == |s| || !IsDigit(s[j])) &&
    if j < |s| && s[j] == '.' then
      j < k && (forall m :: j < m < k ==> IsDigit(s[m])) && (k == |s| || !IsDigit(s[k]))
    else k == j
  }

  /** The decimal value written between `i` and `k`. */
  function NumberValue(s: string, i: nat, j: nat, k: nat): (v: real)
    requires NumberRun(s, i, j, k)
    ensures v >= 0.0
  {
    assert AllDigits(s[i..j]);
    if j < |s| && s[j] == '.' then
      assert AllDigits(s[j + 1..k]);
      DecimalValue(s[i..j], s[j + 1..k])
    else DigitsValue(s[i..j]) as real
  }

  /** The first number of a text is the value of its first `\d+\.?\d*` match. */
  lemma FirstNumberRun(s: string, i: nat, j: nat, k: nat)
    requires NumberRun(s, i, j, k)
    ensures FirstNumber(s) == Some(NumberValue(s, i, j, k))
  {
    FirstDigitAt(s, 0, i);
    RunEndUnique(s, i, j);
    if j < |s| && s[j] == '.' {
      RunEndUnique(s, j + 1, k);
    }
  }

  /** A digit run ends at the first non-digit after it. */
  lemma {:induction false} RunEndUnique(s: string, i: nat, j: nat)
    requires i <= j <= |s| && (forall m :: i <= m < j ==> IsDigit(s[m])) && (j == |s| || !IsDigit(s[j]))
    decreases j - i
    ensures DigitRunEnd(s, i) == j
  {
    if i < j {
      RunEndUnique(s, i + 1, j);
    }
  }

  /** The first digit from `from` on is the digit with none before it. */
  lemma {:induction false} FirstDigitAt(s: string, from: nat, i: nat)
    requires from <= i < |s| && IsDigit(s[i]) && forall m :: from <= m < i ==> !IsDigit(s[m])
    decreases i - from
    ensures FirstDigitFrom(s, from) == Some(i)
  {
    if from < i {
      FirstDigitAt(s, from + 1, i);
    }
  }

  /** Every text with a digit has a first number match. */
  lemma NumberRunExists(s: string)
    requires exists m :: 0 <= m < |s| && IsDigit(s[m])
    ensures exists i, j, k :: NumberRun(s, i, j, k)
  {
    var i := FirstDigitFrom(s, 0).value;
    var j := DigitRunEnd(s, i);
    var k := if j < |s| && s[j] == '.' then DigitRunEnd(s, j + 1) else j;
    assert NumberRun(s, i, j, k);
  }

  function Clamp(x: real, lo: real, hi: real): (r: real)
    requires lo <= hi
    ensures lo <= r <= hi
    ensures lo <= x <= hi ==> r == x
    ensures x < lo ==> r == lo
    ensures x > hi ==> r == hi
  {
    MaxReal(lo, MinReal(hi, x))
  }
}

=== FILE: nutrition_search.dfy ===
/** Nutrition search: the combined result list of the two remote searches, the
    normalisation of an Open Food Facts product, and the per-portion estimate taken from the
    first product with nutrients or else from a small built-in table. */
module NutritionSearch {

  import opened Common
  import opened Strings
  import opened Numbers
  import opened Records

  /** `search_food`: the Open Food Facts hits, then the Wikipedia hits, at most ten. */
  function SearchFood(oracle: SearchOracle, query: string): (r: seq<SearchResult>)
    ensures |r| <= 10
    ensures var off := oracle.openFoodFacts(query);
      |r| == Min(|off| + |oracle.wikipedia(query)|, 10) &&
      (forall k :: 0 <= k < |r| && k < |off| ==> r[k] == off[k]) &&
      (forall k :: |off| <= k < |r| ==> r[k] == oracle.wikipedia(query)[k - |off|])
  {
    Take(oracle.openFoodFacts(query) + oracle.wikipedia(query), 10)
  }

  // ---------------------------------------------------------------------------------------
  // `_normalize_openfoodfacts_product`

  /** The product fields the normalisation reads; an absent key, and a name that is JSON
      `null`, is `None` here. */
  datatype Product = Product(productName: Option<string>, productNameEn: Option<string>,
                             brands: Option<string>, code: Option<string>,
                             nutriments: map<string, FieldValue>)

  /** The eight nutrient keys of a product, in the order the normalised record lists them. */
  const NutrientKeys: seq<string> := ["energy-kcal_100g", "proteins_100g", "carbohydrates_100g",
    "fat_100g", "fiber_100g", "sugars_100g", "sodium_100g", "salt_100g"]

  /** `product.get('product_name', '') or product.get('product_name_en', '')`: the first
      non-empty name. */
  function ProductName(p: Product): (r: Option<string>)
    ensures r.Some? ==> r.value != []
    ensures r.None? <==> (p.productName.None? || p.productName.value == []) &&
                         (p.productNameEn.None? || p.productNameEn.value == [])
    ensures r.Some? && p.productName.Some? && p.productName.value != [] ==> r == p.productName
  {
    if p.productName.Some? && p.productName.value != [] then p.productName
    else if p.productNameEn.Some? && p.productNameEn.value != [] then p.productNameEn
    else None
  }

  /** A nutrient after clean-up: strings through `float` (0 when that fails), `None` and an
      absent key 0, numbers unchanged. */
  function CleanValue(v: Option<FieldValue>): (r: real)
    ensures v.Some? && v.value.Number? ==> r == v.value.x
    ensures v.None? || v == Some(NullValue) ==> r == 0.0
    ensures v.Some? && v.value.Str? && ParseFloat(v.value.s).None? ==> r == 0.0
    ensures v.Some? && v.value.Str? && ParseFloat(v.value.s).Some? ==> r == ParseFloat(v.value.s).value
  {
    match v
    case None => 0.0
    case Some(Number(x)) => x
    case Some(Str(s)) => (match ParseFloat(s) case Some(x) => x case None => 0.0)
    case Some(NullValue) => 0.0
  }

  /** The cleaned value of one nutrient key. */
  function CleanNutrient(nutriments: map<string, FieldValue>, key: string): real
  {
    CleanValue(if key in nutriments then Some(nutriments[key]) else None)
  }

  /** The per-100 g record built from the eight cleaned values. */
  function Per100gOf(values: seq<real>): (r: Per100g)
    requires |values| == 8
    ensures r.calories == values[0] && r.protein == values[1] && r.carbs == values[2] &&
            r.fat == values[3] && r.fiber == values[4] && r.sugar == values[5] &&
            r.sodium == values[6] && r.salt == values[7]
  {
    Per100g(values[0], values[1], values[2], values[3], values[4], values[5], values[6], values[7])
  }

  /** The normalised product of an Open Food Facts hit. */
  function NormalizedProduct(baseUrl: string, p: Product, name: string, per100g: Per100g): (r: SearchResult)
    ensures r.source == "openfoodfacts" && r.nutrition == Some(per100g)
  {
    var brand := if p.brands.Some? then p.brands.value else "";
    SearchResult("openfoodfacts", Strip(name + " " + brand),
                 baseUrl + "/product/" + (if p.code.Some? then p.code.value else ""),
                 if brand != [] then "Brand: " + brand else "",
                 Some(per100g))
  }

  /** `_normalize_openfoodfacts_product`: no result without a name, and otherwise every nutrient
      cleaned in a loop over the nutrition record. */
  method NormalizeProduct(baseUrl: string, p: Product) returns (r: Option<SearchResult>)
    ensures ProductName(p).None? <==> r.None?
    ensures r.Some? ==>
      var brand := if p.brands.Some? then p.brands.value else "";
      r.value.source == "openfoodfacts" &&
      r.value.title == Strip(ProductName(p).value + " " + brand) &&
      r.value.snippet == (if brand != [] then "Brand: " + brand else "") &&
      r.value.nutrition.Some? &&
      r.value.nutrition.value == Per100gOf(seq(8, k requires 0 <= k < 8 => CleanNutrient(p.nutriments, NutrientKeys[k])))
  {
    var name := ProductName(p);
    if name.None? {
      return None;
    }
    var values: seq<real> := [];
    for k := 0 to |NutrientKeys|
      invariant |values| == k
      invariant forall j :: 0 <= j < k ==> values[j] == CleanNutrient(p.nutriments, NutrientKeys[j])
    {
      var key := NutrientKeys[k];
      var raw: Option<FieldValue> := if key in p.nutriments then Some(p.nutriments[key]) else None;
      var value := 0.0;
      match raw {
        case Some(Str(s)) =>
          var parsed := ParseFloat(s);
          if parsed.Some? {
            value := parsed.value;
          }
        case Some(Number(x)) =>
          value := x;
        case _ =>
      }
      values := values + [value];
    }
    assert values == seq(8, k requires 0 <= k < 8 => CleanNutrient(p.nutriments, NutrientKeys[k]));
    r := Some(NormalizedProduct(baseUrl, p, name.value, Per100gOf(values)));
  }

  // ---------------------------------------------------------------------------------------
  // Estimates

  /** `grams / 100`. */
  function ScaleFactor(grams: real): real { grams / 100.0 }

  /** The first result that is an Open Food Facts product with nutrients. */
  function FirstProduct(results: seq<SearchResult>): (r: Option<nat>)
    ensures r.Some? ==> r.value < |results| && results[r.value].source == "openfoodfacts" &&
                        results[r.value].nutrition.Some?
    ensures r.Some? ==> forall k :: 0 <= k < r.value ==>
                          !(results[k].source == "openfoodfacts" && results[k].nutrition.Some?)
    ensures r.None? ==> forall k :: 0 <= k < |results| ==>
                          !(results[k].source == "openfoodfacts" && results[k].nutrition.Some?)
  {
    if |results| == 0 then None
    else if results[0].source == "openfoodfacts" && results[0].nutrition.Some? then Some(0)
    else match FirstProduct(results[1..])
      case Some(i) => Some(i + 1)
      case None => None
  }

  /** A product's per-100 g values scaled to `grams`, sodium turned from grams into
      milligrams, named after the product. */
  function ScaledProduct(per100g: Per100g, title: string, grams: real): (r: Nutrition)
    ensures r.source == title
  {
    var f := ScaleFactor(grams);
    Nutrition(per100g.calories * f, per100g.protein * f, per100g.carbs * f, per100g.fat * f,
              per100g.fiber * f, per100g.sugar * f, per100g.sodium * f * 1000.0, title)
  }

  /** A row of the built-in table: key, calories, protein, carbs, fat per 100 g. */
  datatype BasicFood = BasicFood(key: string, calories: real, protein: real, carbs: real, fat: real)

  const BasicFoods: seq<BasicFood> := [
    BasicFood("apple", 52.0, 0.3, 14.0, 0.2),
    BasicFood("banana", 89.0, 1.1, 23.0, 0.3),
    BasicFood("rice", 130.0, 2.7, 28.0, 0.3),
    BasicFood("chicken breast", 165.0, 31.0, 0.0, 3.6),
    BasicFood("egg", 155.0, 13.0, 1.1, 11.0),
    BasicFood("bread", 265.0, 9.0, 49.0, 3.2),
    BasicFood("milk", 42.0, 3.4, 5.0, 1.0)
  ]

  /** The first table row, in table order, whose key occurs in the lower-cased name. */
  function MatchFrom(lower: string, i: nat): (r: Option<nat>)
    requires i <= |BasicFoods|
    decreases |BasicFoods| - i
    ensures r.Some? ==> i <= r.value < |BasicFoods| && Contains(lower, BasicFoods[r.value].key)
    ensures r.Some? ==> forall k :: i <= k < r.value ==> !Contains(lower, BasicFoods[k].key)
    ensures r.None? ==> forall k :: i <= k < |BasicFoods| ==> !Contains(lower, BasicFoods[k].key)
  {
    if i == |BasicFoods| then None
    else if Contains(lower, BasicFoods[i].key) then Some(i)
    else MatchFrom(lower, i + 1)
  }

  /** The per-100 g row used for names that match no table key. */
  const GenericFood := BasicFood("", 100.0, 5.0, 15.0, 3.0)

  /** The row a name gets: its first matching table row, or the generic one. */
  function BasicRowOf(foodName: string): (r: BasicFood)
    ensures MatchFrom(Lower(foodName), 0).Some? ==> r == BasicFoods[MatchFrom(Lower(foodName), 0).value]
    ensures MatchFrom(Lower(foodName), 0).None? ==> r == GenericFood
  {
    match MatchFrom(Lower(foodName), 0)
    case Some(i) => BasicFoods[i]
    case None => GenericFood
  }

  /** A row scaled to `grams`, with no fiber, sugar or sodium. */
  function ScaledRow(row: BasicFood, source: string, grams: real): (r: Nutrition)
    ensures r.fiberG == 0.0 && r.sugarG == 0.0 && r.sodiumMg == 0.0 && r.source == source
  {
    var f := ScaleFactor(grams);
    Nutrition(row.calories * f, row.protein * f, row.carbs * f, row.fat * f, 0.0, 0.0, 0.0, source)
  }

  /** `_get_basic_estimate`. */
  function BasicEstimate(foodName: string, grams: real): (r: Nutrition)
    ensures r.fiberG == 0.0 && r.sugarG == 0.0 && r.sodiumMg == 0.0
    ensures r.source == (if MatchFrom(Lower(foodName), 0).Some? then "Basic estimate" else "Generic estimate")
  {
    ScaledRow(BasicRowOf(foodName),
              if MatchFrom(Lower(foodName), 0).Some? then "Basic estimate" else "Generic estimate",
              grams)
  }

  /** `get_nutrition_estimate`: the first Open Food Facts product with nutrients among the
      search results, scaled; otherwise the built-in estimate. */
  function NutritionEstimate(oracle: SearchOracle, foodName: string, grams: real): (r: Nutrition)
    ensures var results := SearchFood(oracle, foodName);
      match FirstProduct(results)
      case Some(i) => r == ScaledProduct(results[i].nutrition.value, results[i].title, grams)
      case None => r == BasicEstimate(foodName, grams)
  {
    var results := SearchFood(oracle, foodName);
    match FirstProduct(results)
    case Some(i) => ScaledProduct(results[i].nutrition.value, results[i].title, grams)
    case None => BasicEstimate(foodName, grams)
  }

  /** The table row a name matches gives its row for 100 g, with the rows before it not
      occurring in the name. */
  lemma BasicRow(foodName: string, i: nat)
    requires i < |BasicFoods| && Contains(Lower(foodName), BasicFoods[i].key)
    requires forall k :: 0 <= k < i ==> !Contains(Lower(foodName), BasicFoods[k].key)
    ensures var r := BasicEstimate(foodName, 100.0);
      r == Nutrition(BasicFoods[i].calories, BasicFoods[i].protein, BasicFoods[i].carbs,
                     BasicFoods[i].fat, 0.0, 0.0, 0.0, "Basic estimate")
  {
    var m := MatchFrom(Lower(foodName), 0);
    assert m == Some(i);
    assert ScaleFactor(100.0) == 1.0;
  }

  /** A name that matches no table key gets the generic row. */
  lemma GenericRow(foodName: string, grams: real)
    requires forall k :: 0 <= k < |BasicFoods| ==> !Contains(Lower(foodName), BasicFoods[k].key)
    ensures BasicEstimate(foodName, grams) ==
      Nutrition(100.0 * grams / 100.0, 5.0 * grams / 100.0, 15.0 * grams / 100.0, 3.0 * grams / 100.0,
                0.0, 0.0, 0.0, "Generic estimate")
  {
  }

  /** The scaled quantities of an estimate. */
  function Amounts(n: Nutrition): seq<real> {
    [n.calories, n.proteinG, n.carbsG, n.fatG, n.fiberG, n.sugarG, n.sodiumMg]
  }

  /** Every amount of `r` is the amount of `base` times grams/100. */
  predicate ScaledFrom(r: Nutrition, base: Nutrition, grams: real) {
    forall k :: 0 <= k < 7 ==> Amounts(r)[k] == Amounts(base)[k] * grams / 100.0
  }

  lemma ProductLinear(per100g: Per100g, title: string, grams: real)
    ensures ScaledFrom(ScaledProduct(per100g, title, grams), ScaledProduct(per100g, title, 100.0), grams)
  {
    var f := ScaleFactor(grams);
    assert ScaleFactor(100.0) == 1.0;
    assert per100g.sodium * f * 1000.0 == per100g.sodium * 1000.0 * grams / 100.0;
  }

  lemma RowLinear(row: BasicFood, source: string, grams: real)
    ensures ScaledFrom(ScaledRow(row, source, grams), ScaledRow(row, source, 100.0), grams)
  {
    assert ScaleFactor(100.0) == 1.0;
  }

  /** Every estimate is linear in the grams: it is the 100 g estimate times grams/100, so
      0 g gives all zeros. */
  lemma EstimateLinear(oracle: SearchOracle, foodName: string, grams: real)
    ensures var r := NutritionEstimate(oracle, foodName, grams);
      var base := NutritionEstimate(oracle, foodName, 100.0);
      r.source == base.source && ScaledFrom(r, base, grams)
  {
    var results := SearchFood(oracle, foodName);
    match FirstProduct(results) {
      case Some(i) =>
        var hit := results[i];
        assert NutritionEstimate(oracle, foodName, grams) == ScaledProduct(hit.nutrition.value, hit.title, grams);
        assert NutritionEstimate(oracle, foodName, 100.0) == ScaledProduct(hit.nutrition.value, hit.title, 100.0);
        ProductLinear(hit.nutrition.value, hit.title, grams);
      case None =>
        var source := if MatchFrom(Lower(foodName), 0).Some? then "Basic estimate" else "Generic estimate";
        var row := BasicRowOf(foodName);
        assert NutritionEstimate(oracle, foodName, grams) == ScaledRow(row, source, grams);
        assert NutritionEstimate(oracle, foodName, 100.0) == ScaledRow(row, source, 100.0);
        RowLinear(row, source, grams);
    }
  }

  /** No grams, no nutrients. */
  lemma EstimateZero(oracle: SearchOracle, foodName: string)
    ensures forall k :: 0 <= k < 7 ==> Amounts(NutritionEstimate(oracle, foodName, 0.0))[k] == 0.0
  {
    EstimateLinear(oracle, foodName, 0.0);
  }
}

=== FILE: ollama_client.dfy ===
/** The pure parts of the Ollama client: the request URL, the messages a chat sends, and
    the classification of a vision reply, which is either the JSON array in the reply or a
    simple line parse of its text. */
module OllamaClient {

  import opened Common
  import opened Strings
  import opened Numbers
  import opened Records

  /** `f"{base_url.rstrip('/')}/{endpoint.lstrip('/')}"`. */
  function RequestUrl(baseUrl: string, endpoint: string): string
  {
    TrimEndChar(baseUrl, '/') + "/" + TrimStartChar(endpoint, '/')
  }

  /** Exactly one '/' joins the two halves, however many either side brings. */
  lemma RequestUrlJoin(baseUrl: string, endpoint: string)
    ensures var r := RequestUrl(baseUrl, endpoint);
      var b := TrimEndChar(baseUrl, '/');
      var e := TrimStartChar(endpoint, '/');
      r[..|b|] == b && r[|b|] == '/' && r[|b| + 1..] == e &&
      (b == [] || b[|b| - 1] != '/') && (e == [] || e[0] != '/')
  {
    JoinParts(TrimEndChar(baseUrl, '/'), TrimStartChar(endpoint, '/'));
  }

  lemma JoinParts(b: string, e: string)
    ensures var r := b + "/" + e; r[..|b|] == b && r[|b|] == '/' && r[|b| + 1..] == e
  {
    var r := b + "/" + e;
    assert r[..|b|] == b;
    assert r[|b| + 1..] == e;
  }

  /** Extra slashes at the end of the base or the start of the endpoint change nothing. */
  lemma {:induction false} RequestUrlSlashes(baseUrl: string, endpoint: string)
    ensures RequestUrl(baseUrl + "/", endpoint) == RequestUrl(baseUrl, endpoint)
    ensures RequestUrl(baseUrl, "/" + endpoint) == RequestUrl(baseUrl, endpoint)
  {
    var b := baseUrl + "/";
    assert b[..|b| - 1] == baseUrl;
    var e := "/" + endpoint;
    assert e[1..] == endpoint;
  }

  /** A chat message (`{'role': ..., 'content': ...}`). */
  datatype Message = Message(role: string, content: string)

  /** The messages a chat request carries: a non-empty system prompt goes first, as a
      system message, before the caller's messages. */
  function ChatMessages(messages: seq<Message>, systemPrompt: Option<string>): (r: seq<Message>)
    ensures systemPrompt.Some? && systemPrompt.value != [] ==>
      |r| == |messages| + 1 && r[0] == Message("system", systemPrompt.value) && r[1..] == messages
    ensures !(systemPrompt.Some? && systemPrompt.value != []) ==> r == messages
  {
    if systemPrompt.Some? && systemPrompt.value != [] then [Message("system", systemPrompt.value)] + messages
    else messages
  }

  // ---------------------------------------------------------------------------------------
  // `_parse_vision_text`

  /** The empty dictionary `{}`. */
  const EmptyItem: VisionItem := VisionItem(None, Missing, None)

  /** The scan state: the items so far and the current dictionary. */
  datatype TextState = TextState(items: seq<VisionItem>, current: VisionItem)

  /** Which branch a stripped line takes, tested in the source's order on its lower-cased
      text. */
  datatype TextKind = NameLine | PortionLine | ConfidenceLine | OtherLine

  function KindOf(line: string): (k: TextKind)
    ensures var lower := Lower(line);
      (k == NameLine <==> Contains(lower, "name") || Contains(lower, "food")) &&
      (k == PortionLine <==> !Contains(lower, "name") && !Contains(lower, "food") &&
                             (Contains(lower, "portion") || Contains(lower, "size"))) &&
      (k == ConfidenceLine <==> !Contains(lower, "name") && !Contains(lower, "food") &&
                                !Contains(lower, "portion") && !Contains(lower, "size") &&
                                Contains(lower, "confidence"))
  {
    var lower := Lower(line);
    if Contains(lower, "name") || Contains(lower, "food") then NameLine
    else if Contains(lower, "portion") || Contains(lower, "size") then PortionLine
    else if Contains(lower, "confidence") then ConfidenceLine
    else OtherLine
  }

  /** The confidence a confidence line sets: its first number, divided by 100 when above 1
      and never clamped, or 0.7 when it has none. */
  function LineConfidence(line: string): (c: real)
    ensures FirstNumber(line).None? ==> c == 0.7
    ensures FirstNumber(line).Some? && FirstNumber(line).value <= 1.0 ==> c == FirstNumber(line).value
    ensures FirstNumber(line).Some? && FirstNumber(line).value > 1.0 ==> c == FirstNumber(line).value / 100.0
    ensures c >= 0.0
  {
    match FirstNumber(line)
    case Some(n) => if n > 1.0 then n / 100.0 else n
    case None => 0.7
  }

  /** What one line does to the state. */
  function TextStep(st: TextState, raw: string): (r: TextState)
  {
    var line := Strip(raw);
    match KindOf(line)
    case NameLine =>
      TextState(if st.current != EmptyItem then st.items + [st.current] else st.items,
                FullItem(line, "100g", 0.7))
    case PortionLine => TextState(st.items, st.current.(portion := Text(line)))
    case ConfidenceLine => TextState(st.items, st.current.(confidence := Some(LineConfidence(line))))
    case OtherLine => st
  }

  /** The state after the given lines, first line first. */
  function TextScan(lines: seq<string>, st: TextState): TextState
  {
    if |lines| == 0 then st else TextScan(lines[1..], TextStep(st, lines[0]))
  }

  /** The items of a reply: the scan over `text.split('\n')`, then the current dictionary if
      it is not empty, at most five of them. */
  function ParseVisionTextSpec(text: string): (r: seq<VisionItem>)
    ensures |r| <= 5
  {
    var st := TextScan(Split(text, '\n'), TextState([], EmptyItem));
    Take(if st.current != EmptyItem then st.items + [st.current] else st.items, 5)
  }

  /** One line of `_parse_vision_text`. */
  method TextLine(items: seq<VisionItem>, current: VisionItem, raw: string)
    returns (items': seq<VisionItem>, current': VisionItem)
    ensures TextState(items', current') == TextStep(TextState(items, current), raw)
  {
    var line := Strip(raw);
    var lower := Lower(line);
    items', current' := items, current;
    if Contains(lower, "name") || Contains(lower, "food") {
      assert KindOf(line) == NameLine;
      if current != EmptyItem {
        items' := items + [current];
      }
      current' := FullItem(line, "100g", 0.7);
    } else if Contains(lower, "portion") || Contains(lower, "size") {
      assert KindOf(line) == PortionLine;
      current' := current.(portion := Text(line));
    } else if Contains(lower, "confidence") {
      assert KindOf(line) == ConfidenceLine;
      var number := FirstNumber(line);
      var conf := 0.7;
      if number.Some? {
        conf := number.value;
        if conf > 1.0 {
          conf := conf / 100.0;
        }
      }
      assert conf == LineConfidence(line);
      current' := current.(confidence := Some(conf));
    } else {
      assert KindOf(line) == OtherLine;
    }
  }

  /** `_parse_vision_text`: the loop over the lines updating a current dictionary. */
  method ParseVisionText(text: string) returns (items: seq<VisionItem>)
    ensures items == ParseVisionTextSpec(text)
  {
    var lines := Split(text, '\n');
    items := [];
    var current := EmptyItem;
    for i := 0 to |lines|
      invariant TextScan(lines[i..], TextState(items, current)) ==
                TextScan(lines, TextState([], EmptyItem))
    {
      assert lines[i..][1..] == lines[i + 1..];
      items, current := TextLine(items, current, lines[i]);
    }
    if current != EmptyItem {
      items := items + [current];
    }
    items := Take(items, 5);
  }

  /** No emitted dictionary is empty. */
  predicate NoEmpty(items: seq<VisionItem>) {
    forall k :: 0 <= k < |items| ==> items[k] != EmptyItem
  }

  lemma {:induction false} TextScanNoEmpty(lines: seq<string>, st: TextState)
    requires NoEmpty(st.items)
    decreases |lines|
    ensures NoEmpty(TextScan(lines, st).items)
  {
    if |lines| > 0 {
      TextScanNoEmpty(lines[1..], TextStep(st, lines[0]));
    }
  }

  /** Every item the text parser returns has at least one key. */
  lemma ParsedNonEmpty(text: string)
    ensures NoEmpty(ParseVisionTextSpec(text))
  {
    TextScanNoEmpty(Split(text, '\n'), TextState([], EmptyItem));
  }

  /** A portion line before any name line starts a dictionary without a name, which is
      emitted as it is. */
  lemma PortionWithoutName(raw: string)
    requires KindOf(Strip(raw)) == PortionLine
    ensures TextStep(TextState([], EmptyItem), raw).current == VisionItem(None, Text(Strip(raw)), None)
  {
  }

  /** A confidence is never clamped: a number above 100 gives a confidence above 1. */
  lemma ConfidenceNotClamped(st: TextState, raw: string)
    requires KindOf(Strip(raw)) == ConfidenceLine
    requires FirstNumber(Strip(raw)).Some? && FirstNumber(Strip(raw)).value > 100.0
    ensures TextStep(st, raw).current.confidence.value > 1.0
  {
  }

  // ---------------------------------------------------------------------------------------
  // `vision_classify`

  /** Position `i` holds the first '[' of `s`. */
  predicate FirstOpen(s: string, i: int) {
    0 <= i < |s| && s[i] == '[' && '[' !in s[..i]
  }

  /** No ']' follows the first '[' (or there is no '['): neither bracket pattern matches. */
  ghost predicate NoCloseAfterOpen(s: string) {
    forall i :: FirstOpen(s, i) ==> ']' !in s[i + 1..]
  }

  /** The greedy span runs from the first '[' at `i` to the last ']' at `k`. */
  predicate GreedySpanAt(s: string, i: int, k: int) {
    FirstOpen(s, i) && i < k < |s| && s[k] == ']' && ']' !in s[k + 1..]
  }

  /** `re.search(r'\[.*\]', s, re.DOTALL)`: from the first '[' to the last ']' after it. */
  function GreedyBracketSpan(s: string): (r: Option<string>)
    ensures r.None? <==> NoCloseAfterOpen(s)
    ensures r.Some? ==> exists i, k :: GreedySpanAt(s, i, k) && r.value == s[i..k + 1]
  {
    match IndexOf(s, '[')
    case None => None
    case Some(i) =>
      assert FirstOpen(s, i);
      match LastIndexOf(s[i..], ']')
      case None =>
        assert s[i + 1..] == s[i..][1..];
        None
      case Some(j) =>
        if j == 0 then None
        else
          assert s[i + j + 1..] == s[i..][j + 1..];
          assert GreedySpanAt(s, i, i + j);
          Some(s[i..i + j + 1])
  }

  /** The span is determined by the positions of the first '[' and the last ']'. */
  lemma GreedySpanOf(s: string, i: int, k: int)
    requires GreedySpanAt(s, i, k)
    ensures GreedyBracketSpan(s) == Some(s[i..k + 1])
  {
    IndexOfAt(s, '[', i);
    assert s[i..][k - i + 1..] == s[k + 1..];
    LastIndexOfAt(s[i..], ']', k - i);
  }

  /** `vision_classify` given the reply of the vision call (`None` when the call failed) and
      the JSON decoder: the decoded array when the bracketed span decodes, the text parse
      when there is no span or it does not decode, and `[]` for an empty reply. */
  function VisionClassify(reply: Option<string>, decode: string -> JsonDecode): (r: seq<JsonElem>)
    ensures reply.None? || reply == Some([]) ==> r == []
    ensures reply.Some? && reply.value != [] && GreedyBracketSpan(reply.value).Some? &&
            decode(GreedyBracketSpan(reply.value).value).Decoded? ==>
              r == decode(GreedyBracketSpan(reply.value).value).elems
    ensures reply.Some? && reply.value != [] &&
            (GreedyBracketSpan(reply.value).None? || decode(GreedyBracketSpan(reply.value).value).DecodeError?) ==>
              r == Wrap(ParseVisionTextSpec(reply.value))
  {
    match reply
    case None => []
    case Some(text) =>
      if text == [] then []
      else
        var parsed := Wrap(ParseVisionTextSpec(text));
        match GreedyBracketSpan(text)
        case None => parsed
        case Some(span) =>
          match decode(span)
          case Decoded(elems) => elems
          case DecodeError(_) => parsed
  }

  /** Parsed dictionaries as JSON objects. */
  function Wrap(items: seq<VisionItem>): (r: seq<JsonElem>)
    ensures |r| == |items| && forall k :: 0 <= k < |r| ==> r[k] == Object(items[k])
  {
    seq(|items|, k requires 0 <= k < |items| => Object(items[k]))
  }
}

=== FILE: onboarding.dfy ===
/** The four onboarding steps and the skip route: each step is gated on the previous step's
    entry in the session, a valid submission stores its own entry, and the last step turns
    the three entries into a profile, picks default models and clears the entries. */
module Onboarding {

  import opened Common
  import opened Strings

  /** The data of step 1 (basic information). */
  datatype BasicInfo = BasicInfo(name: string, age: int, sex: string, heightCm: real, weightKg: real)

  /** The data of step 2 (goals). */
  datatype Goals = Goals(activityLevel: string, goalType: string, targetWeightKg: Option<real>,
                         timeframeWeeks: Option<int>)

  /** The data of step 3 (lifestyle and preferences); `conditions` is a single text. */
  datatype Lifestyle = Lifestyle(preferences: seq<string>, allergies: seq<string>, conditions: string,
                                 budgetRange: string, cookingSkill: string, equipment: seq<string>,
                                 mealsPerDay: int, sleepSchedule: string)

  /** A session entry written by one of the first three steps. */
  datatype SessionEntry = Step1Entry(basic: BasicInfo) | Step2Entry(goals: Goals) | Step3Entry(lifestyle: Lifestyle)

  const Step1Key := "onboarding_step1"
  const Step2Key := "onboarding_step2"
  const Step3Key := "onboarding_step3"
  const OnboardingKeys := {Step1Key, Step2Key, Step3Key}

  /** The profile the onboarding creates. */
  datatype ProfileRecord = ProfileRecord(userId: int, basic: BasicInfo, activityLevel: string, goalType: string,
                                         targetWeightKg: Option<real>, timeframeWeeks: Option<int>,
                                         budgetRange: string, cookingSkill: string, mealsPerDay: int,
                                         sleepSchedule: string, preferences: seq<string>,
                                         allergies: seq<string>, conditions: seq<string>, equipment: seq<string>)

  /** The user's settings row as far as onboarding touches it. */
  datatype SettingsRecord = SettingsRecord(ollamaUrl: string, chatModel: string, visionModel: string)

  datatype Page = Dashboard | StepPage(step: int)

  /** A redirect, or the page of a step rendered with what the session holds for it. */
  datatype Response = Redirect(page: Page) | Render(step: int, prefill: Option<SessionEntry>)

  const ChatKeywords := ["llama", "mistral"]
  const VisionKeywords := ["llava", "vision"]

  predicate Matches(name: string, keywords: seq<string>)
  {
    exists k :: 0 <= k < |keywords| && Contains(Lower(name), keywords[k])
  }

  /** The first name, in the order listed, that contains one of the keywords. */
  function FirstMatching(names: seq<string>, keywords: seq<string>): (r: Option<nat>)
    ensures r.Some? ==> r.value < |names| && Matches(names[r.value], keywords) &&
                        forall j :: 0 <= j < r.value ==> !Matches(names[j], keywords)
    ensures r.None? ==> forall j :: 0 <= j < |names| ==> !Matches(names[j], keywords)
  {
    if |names| == 0 then None
    else if Matches(names[0], keywords) then Some(0)
    else match FirstMatching(names[1..], keywords)
      case Some(i) => Some(i + 1)
      case None => None
  }

  /** The model to keep: the first available one that matches, else the current one. */
  function PreferredModel(available: seq<string>, current: string, keywords: seq<string>): (m: string)
    ensures m == current || (m in available && Matches(m, keywords))
    ensures (forall j :: 0 <= j < |available| ==> !Matches(available[j], keywords)) ==> m == current
  {
    match FirstMatching(available, keywords)
    case Some(i) => available[i]
    case None => current
  }

  /** `[conditions] if conditions else []`. */
  function ConditionList(conditions: string): (r: seq<string>)
    ensures conditions == "" <==> r == []
    ensures conditions != "" ==> r == [conditions]
  {
    if conditions != "" then [conditions] else []
  }

  /** The minimal profile of the skip route. */
  function DefaultProfile(userId: int, username: string): ProfileRecord
  {
    ProfileRecord(userId, BasicInfo(username, 25, "other", 170.0, 70.0), "moderate", "maintain", None, None,
                  "medium", "intermediate", 3, "flexible", ["omnivore"], [], [], ["stove", "oven", "microwave"])
  }

  function ProfileOf(userId: int, basic: BasicInfo, goals: Goals, life: Lifestyle): ProfileRecord
  {
    ProfileRecord(userId, basic, goals.activityLevel, goals.goalType, goals.targetWeightKg, goals.timeframeWeeks,
                  life.budgetRange, life.cookingSkill, life.mealsPerDay, life.sleepSchedule,
                  life.preferences, life.allergies, ConditionList(life.conditions), life.equipment)
  }

  /** The settings after step 4: the new URL, and with models available the preferred chat
      and vision models. */
  function SettingsAfter(s: SettingsRecord, url: string, available: seq<string>): (r: SettingsRecord)
    ensures r.ollamaUrl == url
    ensures |available| == 0 ==> r.chatModel == s.chatModel && r.visionModel == s.visionModel
  {
    if |available| > 0 then
      SettingsRecord(url, PreferredModel(available, s.chatModel, ChatKeywords),
                     PreferredModel(available, s.visionModel, VisionKeywords))
    else SettingsRecord(url, s.chatModel, s.visionModel)
  }

  /** What step 4 lists: the server's models on a GET, or on a POST with a URL; none
      otherwise. */
  function AvailableModels(isPost: bool, url: string, listed: seq<string>): seq<string>
  {
    if !isPost || url != "" then listed else []
  }

  /** The onboarding state of one logged-in user: the session, the profile (once created) and
      the settings row. */
  class Wizard {
    const userId: int
    const username: string
    var session: map<string, SessionEntry>
    var profile: Option<ProfileRecord>
    var settings: Option<SettingsRecord>

    /** Each onboarding key holds the entry of its own step. */
    ghost predicate Valid()
      reads this
    {
      (Step1Key in session ==> session[Step1Key].Step1Entry?) &&
      (Step2Key in session ==> session[Step2Key].Step2Entry?) &&
      (Step3Key in session ==> session[Step3Key].Step3Entry?)
    }

    constructor(userId: int, username: string, settings: Option<SettingsRecord>)
      ensures Valid() && this.userId == userId && this.username == username
      ensures session == map[] && profile.None? && this.settings == settings
    {
      this.userId := userId;
      this.username := username;
      session := map[];
      profile := None;
      this.settings := settings;
    }

    function Prefill(key: string): Option<SessionEntry>
      reads this
    {
      if key in session then Some(session[key]) else None
    }

    /** Step 1: a valid submission stores the basic information and moves on to step 2. */
    method Step1(form: Option<BasicInfo>) returns (resp: Response)
      requires Valid()
      modifies this
      ensures Valid() && profile == old(profile) && settings == old(settings)
      ensures old(profile).Some? ==> resp == Redirect(Dashboard) && session == old(session)
      ensures old(profile).None? && form.Some? ==>
                resp == Redirect(StepPage(2)) && session == old(session)[Step1Key := Step1Entry(form.value)]
      ensures old(profile).None? && form.None? ==> resp == Render(1, old(Prefill(Step1Key))) && session == old(session)
    {
      if profile.Some? {
        return Redirect(Dashboard);
      }
      if form.Some? {
        session := session[Step1Key := Step1Entry(form.value)];
        return Redirect(StepPage(2));
      }
      return Render(1, Prefill(Step1Key));
    }

    /** Step 2: needs step 1's entry; a valid submission stores the goals. */
    method Step2(form: Option<Goals>) returns (resp: Response)
      requires Valid()
      modifies this
      ensures Valid() && profile == old(profile) && settings == old(settings)
      ensures old(profile).Some? ==> resp == Redirect(Dashboard) && session == old(session)
      ensures old(profile).None? && Step1Key !in old(session) ==> resp == Redirect(StepPage(1)) && session == old(session)
      ensures old(profile).None? && Step1Key in old(session) && form.Some? ==>
                resp == Redirect(StepPage(3)) && session == old(session)[Step2Key := Step2Entry(form.value)]
      ensures old(profile).None? && Step1Key in old(session) && form.None? ==>
                resp == Render(2, old(Prefill(Step2Key))) && session == old(session)
    {
      if profile.Some? {
        return Redirect(Dashboard);
      }
      if Step1Key !in session {
        return Redirect(StepPage(1));
      }
      if form.Some? {
        session := session[Step2Key := Step2Entry(form.value)];
        return Redirect(StepPage(3));
      }
      return Render(2, Prefill(Step2Key));
    }

    /** Step 3: needs step 2's entry; a valid submission stores the lifestyle answers. */
    method Step3(form: Option<Lifestyle>) returns (resp: Response)
      requires Valid()
      modifies this
      ensures Valid() && profile == old(profile) && settings == old(settings)
      ensures old(profile).Some? ==> resp == Redirect(Dashboard) && session == old(session)
      ensures old(profile).None? && Step2Key !in old(session) ==> resp == Redirect(StepPage(1)) && session == old(session)
      ensures old(profile).None? && Step2Key in old(session) && form.Some? ==>
                resp == Redirect(StepPage(4)) && session == old(session)[Step3Key := Step3Entry(form.value)]
      ensures old(profile).None? && Step2Key in old(session) && form.None? ==>
                resp == Render(3, old(Prefill(Step3Key))) && session == old(session)
    {
      if profile.Some? {
        return Redirect(Dashboard);
      }
      if Step2Key !in session {
        return Redirect(StepPage(1));
      }
      if form.Some? {
        session := session[Step3Key := Step3Entry(form.value)];
        return Redirect(StepPage(4));
      }
      return Render(3, Prefill(Step3Key));
    }

    /** Step 4: needs step 3's entry. A valid submission creates the profile from the three
        entries, stores the URL and preferred models in the settings and clears the entries;
        a missing step 1 or step 2 entry fails and leaves everything as it was. */
    method Step4(isPost: bool, valid: bool, url: string, listed: seq<string>) returns (resp: Response)
      requires Valid()
      requires valid ==> isPost
      modifies this
      ensures Valid()
      ensures old(profile).Some? || Step3Key !in old(session) || !valid ==>
                session == old(session) && profile == old(profile) && settings == old(settings)
      ensures old(profile).Some? ==> resp == Redirect(Dashboard)
      ensures old(profile).None? && Step3Key !in old(session) ==> resp == Redirect(StepPage(1))
      ensures old(profile).None? && Step3Key in old(session) && valid ==>
                if Step1Key in old(session) && Step2Key in old(session) then
                  resp == Redirect(Dashboard) && session == old(session) - OnboardingKeys &&
                  profile == Some(ProfileOf(userId, old(session)[Step1Key].basic, old(session)[Step2Key].goals,
                                            old(session)[Step3Key].lifestyle)) &&
                  settings == (if old(settings).Some? then Some(SettingsAfter(old(settings).value, url, AvailableModels(isPost, url, listed)))
                               else None)
                else resp == Render(4, None) && session == old(session) && profile == old(profile) && settings == old(settings)
      ensures old(profile).None? && Step3Key in old(session) && !valid ==> resp == Render(4, None)
    {
      if profile.Some? {
        return Redirect(Dashboard);
      }
      if Step3Key !in session {
        return Redirect(StepPage(1));
      }
      var available := AvailableModels(isPost, url, listed);
      if valid {
        if Step1Key !in session || Step2Key !in session {
          return Render(4, None);
        }
        var basic := session[Step1Key].basic;
        var goals := session[Step2Key].goals;
        var life := session[Step3Key].lifestyle;
        profile := Some(ProfileOf(userId, basic, goals, life));
        if settings.Some? {
          settings := Some(SettingsAfter(settings.value, url, available));
        }
        ClearOnboardingKeys();
        return Redirect(Dashboard);
      }
      return Render(4, None);
    }

    /** The `session.pop` loop over the three onboarding keys. */
    method ClearOnboardingKeys()
      requires Valid()
      modifies this
      ensures Valid() && session == old(session) - OnboardingKeys
      ensures profile == old(profile) && settings == old(settings)
    {
      var keys := [Step1Key, Step2Key, Step3Key];
      for i := 0 to 3
        invariant Valid() && session == old(session) - set j | 0 <= j < i :: keys[j]
        invariant profile == old(profile) && settings == old(settings)
      {
        session := session - {keys[i]};
      }
      assert (set j | 0 <= j < 3 :: keys[j]) == OnboardingKeys by {
        assert keys[0] == Step1Key && keys[1] == Step2Key && keys[2] == Step3Key;
      }
    }

    /** The skip route: a profile with fixed defaults, and the onboarding entries cleared. */
    method Skip() returns (resp: Response)
      requires Valid()
      modifies this
      ensures Valid() && resp == Redirect(Dashboard) && settings == old(settings)
      ensures old(profile).Some? ==> profile == old(profile) && session == old(session)
      ensures old(profile).None? ==> profile == Some(DefaultProfile(userId, username)) &&
                                     session == old(session) - OnboardingKeys
    {
      if profile.Some? {
        return Redirect(Dashboard);
      }
      profile := Some(DefaultProfile(userId, username));
      ClearOnboardingKeys();
      return Redirect(Dashboard);
    }
  }

  /** Submitting the four steps in order, starting from an empty session, creates the
      profile from exactly what was submitted and leaves no onboarding entry behind. */
  method HappyPath(userId: int, username: string, basic: BasicInfo, goals: Goals, life: Lifestyle, url: string)
    returns (w: Wizard)
    ensures w.profile == Some(ProfileOf(userId, basic, goals, life))
    ensures w.session == map[] && w.settings.None?
  {
    w := new Wizard(userId, username, None);
    var r1 := w.Step1(Some(basic));
    var r2 := w.Step2(Some(goals));
    var r3 := w.Step3(Some(life));
    var r4 := w.Step4(true, true, url, []);
    assert r4 == Redirect(Dashboard);
  }
}

=== FILE: photo_analysis.dfy ===
/** The photo analysis behind the upload endpoint: which file names are accepted, how the
    vision reply becomes detected items and a `meta` record, the fallback to the mock
    classifier, the candidates, and the enrichment of each candidate by a second search. */
module PhotoAnalysis {

  import opened Common
  import opened Strings
  import opened Records
  import opened NutritionSearch
  import opened FoodParser
  import opened VisionClassifier
  import opened VisionTextParser
  import OllamaClient

  // ---------------------------------------------------------------------------------------
  // `_allowed_file`

  const AllowedExtensions: set<string> := {"png", "jpg", "jpeg", "gif", "webp"}

  /** `ext.lower() in ALLOWED_EXTENSIONS`. */
  predicate AllowedExtension(ext: string) {
    Lower(ext) in AllowedExtensions
  }

  /** `'.' in filename and filename.rsplit('.', 1)[1].lower() in ALLOWED_EXTENSIONS`. */
  function AllowedFile(filename: string): (r: bool)
  {
    match LastIndexOf(filename, '.')
    case None => false
    case Some(i) => AllowedExtension(filename[i + 1..])
  }

  /** Position `i` holds the last '.' of the name and the text after it is an allowed
      extension. */
  predicate ExtensionDot(filename: string, i: int) {
    0 <= i < |filename| && filename[i] == '.' && '.' !in filename[i + 1..] &&
    AllowedExtension(filename[i + 1..])
  }

  /** A name is allowed exactly when it has a '.' whose following text has no '.' and
      lower-cases to one of the extensions. */
  lemma AllowedFileIff(filename: string)
    ensures AllowedFile(filename) <==> exists i :: ExtensionDot(filename, i)
  {
    if AllowedFile(filename) {
      LastDotAllowed(filename);
    }
    if exists i :: ExtensionDot(filename, i) {
      var i :| ExtensionDot(filename, i);
      DotAllowed(filename, i);
    }
  }

  lemma LastDotAllowed(filename: string)
    requires AllowedFile(filename)
    ensures LastIndexOf(filename, '.').Some? && ExtensionDot(filename, LastIndexOf(filename, '.').value)
  {
  }

  lemma DotAllowed(filename: string, i: int)
    requires ExtensionDot(filename, i)
    ensures AllowedFile(filename)
  {
    LastDotUnique(filename, i);
  }

  /** A '.' with no '.' after it is the last one. */
  lemma LastDotUnique(s: string, i: nat)
    requires i < |s| && s[i] == '.' && '.' !in s[i + 1..]
    ensures LastIndexOf(s, '.') == Some(i)
  {
    assert '.' in s;
    var k := LastIndexOf(s, '.').value;
    NoneAfter(s, i);
    NoneAfter(s, k);
  }

  /** No position after one whose suffix has no '.' holds a '.'. */
  lemma NoneAfter(s: string, i: nat)
    requires i < |s| && '.' !in s[i + 1..]
    ensures forall j :: i < j < |s| ==> s[j] != '.'
  {
    forall j | i < j < |s| ensures s[j] != '.' {
      assert s[j] == s[i + 1..][j - i - 1];
    }
  }

  // ---------------------------------------------------------------------------------------
  // The vision stage

  const NoResultWarning := "Vision model returned no result"
  const NoModelWarning := "No vision model configured; using fallback classifier"
  const UnexpectedWarning := "Unexpected error during analysis"

  /** The non-greedy span runs from the first '[' at `i` to the first ']' after it, at `k`. */
  predicate LazySpanAt(s: string, i: int, k: int) {
    OllamaClient.FirstOpen(s, i) && i < k < |s| && s[k] == ']' && ']' !in s[i + 1..k]
  }

  /** `re.search(r'\[.*?\]', s, re.DOTALL)`: from the first '[' to the first ']' after it. */
  function LazyBracketSpan(s: string): (r: Option<string>)
    ensures r.None? <==> OllamaClient.NoCloseAfterOpen(s)
    ensures r.Some? ==> exists i, k :: LazySpanAt(s, i, k) && r.value == s[i..k + 1]
    ensures r.Some? ==> |r.value| >= 2 && r.value[0] == '[' && r.value[|r.value| - 1] == ']' &&
                        ']' !in r.value[..|r.value| - 1]
  {
    match IndexOf(s, '[')
    case None => None
    case Some(i) =>
      assert OllamaClient.FirstOpen(s, i);
      match IndexOf(s[i + 1..], ']')
      case None => None
      case Some(j) =>
        var k := i + j + 1;
        assert s[i + 1..][..j] == s[i + 1..k];
        assert LazySpanAt(s, i, k);
        assert s[i..k + 1][..k - i] == [s[i]] + s[i + 1..k];
        Some(s[i..k + 1])
  }

  /** The span is determined by the first '[' and the first ']' after it. */
  lemma LazySpanOf(s: string, i: int, k: int)
    requires LazySpanAt(s, i, k)
    ensures LazyBracketSpan(s) == Some(s[i..k + 1])
  {
    IndexOfAt(s, '[', i);
    assert s[i + 1..][..k - i - 1] == s[i + 1..k];
    IndexOfAt(s[i + 1..], ']', k - i - 1);
  }

  /** The parsed text items as JSON objects. */
  function AsObjects(items: seq<Item>): (r: seq<JsonElem>)
    ensures |r| == |items|
    ensures forall k :: 0 <= k < |r| ==>
              r[k] == Object(FullItem(items[k].name, items[k].portion, items[k].confidence))
  {
    seq(|items|, k requires 0 <= k < |items| =>
      Object(FullItem(items[k].name, items[k].portion, items[k].confidence)))
  }

  /** What the vision stage leaves: the detected elements and the `meta` record. */
  datatype VisionOutcome = VisionOutcome(elems: seq<JsonElem>, meta: Meta)

  /** The text parse of a reply by `parse` (`_parse_vision_text_response`) and the `meta` it
      leaves, given the errors so far. */
  function TextFallback(parse: string -> seq<Item>, text: string, errors: seq<string>): (r: VisionOutcome)
    ensures r.meta.source == (if parse(text) != [] then Some("vision") else None)
    ensures r.meta.warning.None? && r.meta.errors == errors
    ensures r.elems == AsObjects(parse(text))
  {
    var parsed := AsObjects(parse(text));
    VisionOutcome(parsed, Meta(if parsed != [] then Some("vision") else None, None, errors))
  }

  /** The vision stage, given the configured model name (empty: none), the reply of the
      vision call (`None` when it failed), the JSON decoder and the text parser: the
      corrected `ParseSpec`, or `ParseAsWritten` for the module as it stands. */
  function VisionStage(visionModel: string, reply: Option<string>, decode: string -> JsonDecode,
                       parse: string -> seq<Item>): (r: VisionOutcome)
    ensures visionModel == [] ==> r == VisionOutcome([], Meta(None, Some(NoModelWarning), []))
    ensures visionModel != [] && (reply.None? || reply == Some([])) ==>
              r == VisionOutcome([], Meta(None, Some(NoResultWarning), []))
    ensures |r.meta.errors| <= 1
  {
    if visionModel == [] then VisionOutcome([], Meta(None, Some(NoModelWarning), []))
    else match reply
      case None => VisionOutcome([], Meta(None, Some(NoResultWarning), []))
      case Some(text) =>
        if text == [] then VisionOutcome([], Meta(None, Some(NoResultWarning), []))
        else match LazyBracketSpan(text)
          case None => TextFallback(parse, text, [])
          case Some(span) =>
            match decode(span)
            case Decoded(elems) => VisionOutcome(elems, Meta(Some("vision"), None, []))
            case DecodeError(message) => TextFallback(parse, text, ["Vision JSON parse error: " + message])
  }

  /** A decoding failure is recorded and the text parse takes over. */
  lemma DecodeErrorRecorded(visionModel: string, text: string, decode: string -> JsonDecode,
                            parse: string -> seq<Item>)
    requires visionModel != [] && text != [] && LazyBracketSpan(text).Some?
    requires decode(LazyBracketSpan(text).value).DecodeError?
    ensures var r := VisionStage(visionModel, Some(text), decode, parse);
      r.meta.errors == ["Vision JSON parse error: " + decode(LazyBracketSpan(text).value).message] &&
      r.elems == AsObjects(parse(text))
  {
  }

  /** A decoded array is used as it is, and the source is "vision" even when it is empty. */
  lemma DecodedUsed(visionModel: string, text: string, decode: string -> JsonDecode,
                    parse: string -> seq<Item>)
    requires visionModel != [] && text != [] && LazyBracketSpan(text).Some?
    requires decode(LazyBracketSpan(text).value).Decoded?
    ensures var r := VisionStage(visionModel, Some(text), decode, parse);
      r.elems == decode(LazyBracketSpan(text).value).elems && r.meta == Meta(Some("vision"), None, [])
  {
  }

  /** The lazy span used here ends no later than the greedy one of the Ollama client: both
      start at the first '[', and the lazy one is a prefix of the greedy one. */
  lemma LazyPrefixOfGreedy(s: string)
    requires LazyBracketSpan(s).Some?
    ensures OllamaClient.GreedyBracketSpan(s).Some?
    ensures var lazy := LazyBracketSpan(s).value; var greedy := OllamaClient.GreedyBracketSpan(s).value;
      |lazy| <= |greedy| && greedy[..|lazy|] == lazy
  {
    var i := IndexOf(s, '[').value;
    var j := IndexOf(s[i + 1..], ']').value;
    var t := s[i..];
    assert t[j + 1] == ']';
    var l := LastIndexOf(t, ']');
    assert ']' in t;
    assert l.Some?;
  }

  // ---------------------------------------------------------------------------------------
  // Candidates and enrichment

  /** `parse_vision_results` on decoded elements: an element that is not an object has no
      `get`. */
  function ElemCandidate(oracle: SearchOracle, e: JsonElem): (r: Outcome<Candidate>)
    ensures e.Object? ==> r == CandidateOf(oracle, e.item)
    ensures e.NotAnObject? ==> r.Raised?
  {
    match e
    case Object(item) => CandidateOf(oracle, item)
    case NotAnObject(typeName) => Raised("'" + typeName + "' object has no attribute 'get'")
  }

  /** One candidate after the enrichment search: a named candidate with search hits gets the
      first three hits, and the scaled nutrients of the first Open Food Facts product among
      them if there is one. Its nutrients are never empty, so the estimate is never redone. */
  function Enriched(later: SearchOracle, c: Candidate): (r: Candidate)
    ensures r.name == c.name && r.portionGrams == c.portionGrams && r.confidence == c.confidence
    ensures c.name == [] || SearchFood(later, c.name) == [] ==> r == c
  {
    if c.name == [] then c
    else
      var results := SearchFood(later, c.name);
      if results == [] then c
      else
        var withHits := c.(searchResults := Take(results, 3));
        match FirstProduct(results)
        case Some(i) => withHits.(nutrition := ScaledProduct(results[i].nutrition.value, results[i].title, c.portionGrams))
        case None => withHits
  }

  /** Every candidate enriched. */
  function EnrichAll(later: SearchOracle, candidates: seq<Candidate>): (r: seq<Candidate>)
    ensures |r| == |candidates|
  {
    seq(|candidates|, k requires 0 <= k < |candidates| => Enriched(later, candidates[k]))
  }

  /** The enrichment loop, rewriting each candidate in turn. */
  method Enrich(later: SearchOracle, candidates: seq<Candidate>) returns (enriched: seq<Candidate>)
    ensures enriched == EnrichAll(later, candidates)
  {
    enriched := candidates;
    for i := 0 to |candidates|
      invariant |enriched| == |candidates|
      invariant forall k :: 0 <= k < i ==> enriched[k] == Enriched(later, candidates[k])
      invariant forall k :: i <= k < |candidates| ==> enriched[k] == candidates[k]
    {
      var c := enriched[i];
      if c.name != [] {
        var results := SearchFood(later, c.name);
        if results != [] {
          c := c.(searchResults := Take(results, 3));
          var p := FirstProduct(results);
          if p.Some? {
            var hit := results[p.value];
            c := c.(nutrition := ScaledProduct(hit.nutrition.value, hit.title, c.portionGrams));
          }
        }
      }
      enriched := enriched[i := c];
    }
    assert enriched == EnrichAll(later, candidates);
  }

  /** When the enrichment search answers as the first one did, enrichment changes nothing:
      the candidate already holds the same hits and the same first product's nutrients. */
  lemma EnrichSameSearch(oracle: SearchOracle, item: VisionItem)
    requires CandidateOf(oracle, item).Ok?
    ensures Enriched(oracle, CandidateOf(oracle, item).value) == CandidateOf(oracle, item).value
  {
    CandidateFields(oracle, item);
  }

  // ---------------------------------------------------------------------------------------
  // `_analyze_food_photo`

  /** The elements analysed: the vision stage's, or the mock items when it found nothing. */
  function Detected(vs: VisionOutcome, mock: seq<VisionItem>): (r: seq<JsonElem>)
    ensures vs.elems == [] ==> |r| == |mock| && forall k :: 0 <= k < |mock| ==> r[k] == Object(mock[k])
    ensures vs.elems != [] ==> r == vs.elems
  {
    if vs.elems == [] then seq(|mock|, k requires 0 <= k < |mock| => Object(mock[k])) else vs.elems
  }

  /** The candidates of the analysed elements, stopping at the first that raises. */
  function ElemCandidates(oracle: SearchOracle, elems: seq<JsonElem>): (r: Outcome<seq<Candidate>>)
    ensures r.Ok? ==> |r.value| == |elems|
  {
    MapAll(e => ElemCandidate(oracle, e), elems)
  }

  lemma ElemCandidatesPerItem(oracle: SearchOracle, elems: seq<JsonElem>)
    ensures ElemCandidates(oracle, elems).Ok? <==> forall k :: 0 <= k < |elems| ==> ElemCandidate(oracle, elems[k]).Ok?
  {
    MapAllPerItem(e => ElemCandidate(oracle, e), elems);
  }

  /** The analysis, given the mock items the fallback classifier would return: the vision
      stage, the fallback when it detected nothing, the candidates, and the enrichment; a
      candidate that raises turns the whole result into the generic failure. */
  function AnalysisSpec(visionModel: string, reply: Option<string>, decode: string -> JsonDecode,
                        parse: string -> seq<Item>, oracle: SearchOracle, later: SearchOracle,
                        mock: seq<VisionItem>): (r: (seq<Candidate>, Meta))
  {
    AnalysisAfter(VisionStage(visionModel, reply, decode, parse), oracle, later, mock)
  }

  /** The analysis once the vision stage has left `vs`. */
  function AnalysisAfter(vs: VisionOutcome, oracle: SearchOracle, later: SearchOracle,
                         mock: seq<VisionItem>): (r: (seq<Candidate>, Meta))
  {
    var meta := if vs.elems == [] then vs.meta.(source := Some("fallback")) else vs.meta;
    match ElemCandidates(oracle, Detected(vs, mock))
    case Raised(e) => ([], Meta(None, Some(UnexpectedWarning), [e]))
    case Ok(candidates) => (EnrichAll(later, candidates), meta)
  }

  /** `_analyze_food_photo`, with the vision call's reply, the decoder, the text parser and
      the two searches as inputs; the fallback classifier is run only when the vision stage
      found nothing. */
  method AnalyzeFoodPhoto(visionModel: string, reply: Option<string>, decode: string -> JsonDecode,
                          parse: string -> seq<Item>, oracle: SearchOracle, later: SearchOracle,
                          imageOpens: bool)
    returns (candidates: seq<Candidate>, meta: Meta)
    ensures exists mock :: IsMockResult(mock) &&
              (candidates, meta) == AnalysisSpec(visionModel, reply, decode, parse, oracle, later, mock)
  {
    var vs := VisionStage(visionModel, reply, decode, parse);
    var mock;
    candidates, meta, mock := AnalyzeDetected(vs, oracle, later, imageOpens);
  }

  /** The part of `_analyze_food_photo` after the vision stage. */
  method AnalyzeDetected(vs: VisionOutcome, oracle: SearchOracle, later: SearchOracle, imageOpens: bool)
    returns (candidates: seq<Candidate>, meta: Meta, mock: seq<VisionItem>)
    ensures IsMockResult(mock) && (candidates, meta) == AnalysisAfter(vs, oracle, later, mock)
  {
    meta := vs.meta;
    mock := MockItems("100g", "100g", "100g");
    if vs.elems == [] {
      mock := ClassifyImage(imageOpens);
      meta := meta.(source := Some("fallback"));
    }
    var elems := Detected(vs, mock);
    var parsed := ElemCandidates(oracle, elems);
    if parsed.Raised? {
      candidates, meta := [], Meta(None, Some(UnexpectedWarning), [parsed.error]);
    } else {
      candidates := Enrich(later, parsed.value);
    }
  }

  /** The source is "fallback" exactly when the vision stage found nothing (unless the
      analysis fails, which clears it). */
  lemma FallbackSource(visionModel: string, reply: Option<string>, decode: string -> JsonDecode,
                       parse: string -> seq<Item>, oracle: SearchOracle, later: SearchOracle,
                       mock: seq<VisionItem>)
    requires IsMockResult(mock)
    ensures var r := AnalysisSpec(visionModel, reply, decode, parse, oracle, later, mock);
      var vs := VisionStage(visionModel, reply, decode, parse);
      r.1.warning != Some(UnexpectedWarning) ==>
        (vs.elems == [] <==> r.1.source == Some("fallback"))
  {
    var vs := VisionStage(visionModel, reply, decode, parse);
    if vs.elems != [] && vs.meta.source.Some? {
      assert vs.meta.source.value == "vision";
    }
  }

  lemma MockItemParses(mock: seq<VisionItem>, k: nat)
    requires IsMockResult(mock) && k < 3
    ensures mock[k].name.Some? && mock[k].portion.Text?
  {
  }

  /** Without a configured model the warning says so and the mock items are analysed. */
  lemma NoModelFallback(reply: Option<string>, decode: string -> JsonDecode, parse: string -> seq<Item>,
                        oracle: SearchOracle, later: SearchOracle, mock: seq<VisionItem>)
    requires IsMockResult(mock)
    ensures var r := AnalysisSpec([], reply, decode, parse, oracle, later, mock);
      r.1 == Meta(Some("fallback"), Some(NoModelWarning), []) && |r.0| == 3
  {
    var vs := VisionStage([], reply, decode, parse);
    var elems := Detected(vs, mock);
    ElemCandidatesPerItem(oracle, elems);
    forall k | 0 <= k < 3 ensures ElemCandidate(oracle, elems[k]).Ok? {
      MockItemParses(mock, k);
      assert elems[k] == Object(mock[k]);
    }
    var parsed := ElemCandidates(oracle, elems);
    assert parsed.Ok? && |parsed.value| == 3;
    assert AnalysisSpec([], reply, decode, parse, oracle, later, mock) ==
           (EnrichAll(later, parsed.value), vs.meta.(source := Some("fallback")));
  }

  // ---------------------------------------------------------------------------------------
  // The analysis with the text parser as written

  /** With the text parser as written, a non-empty reply without a span, or whose span does
      not decode, becomes the one generic item with source 'vision'. */
  lemma AsWrittenTextReply(visionModel: string, text: string, decode: string -> JsonDecode)
    requires visionModel != [] && text != []
    requires LazyBracketSpan(text).None? || decode(LazyBracketSpan(text).value).DecodeError?
    ensures var r := VisionStage(visionModel, Some(text), decode, ParseAsWritten);
      r.elems == [Object(FullItem("Mixed Food", "100g", 0.5))] && r.meta.source == Some("vision") &&
      r.meta.warning.None?
  {
    AsWrittenAlwaysMixedFood(text);
  }

  /** So, as written, such a reply never reaches the fallback classifier: the analysis has
      exactly one candidate, "Mixed Food" of 100 g at confidence 0.5, and source 'vision'. */
  lemma AsWrittenNoFallback(visionModel: string, text: string, decode: string -> JsonDecode,
                            oracle: SearchOracle, later: SearchOracle, mock: seq<VisionItem>)
    requires visionModel != [] && text != []
    requires LazyBracketSpan(text).None? || decode(LazyBracketSpan(text).value).DecodeError?
    ensures var r := AnalysisSpec(visionModel, Some(text), decode, ParseAsWritten, oracle, later, mock);
      |r.0| == 1 && r.0[0].name == "Mixed Food" && r.0[0].portionGrams == 100.0 &&
      r.0[0].confidence == 0.5 && r.1.source == Some("vision")
  {
    AsWrittenTextReply(visionModel, text, decode);
    OneItemAnalysis(VisionStage(visionModel, Some(text), decode, ParseAsWritten), oracle, later, mock);
  }

  /** A stage that found the generic item alone analyses to its one candidate. */
  lemma OneItemAnalysis(vs: VisionOutcome, oracle: SearchOracle, later: SearchOracle, mock: seq<VisionItem>)
    requires vs.elems == [Object(FullItem("Mixed Food", "100g", 0.5))] && vs.meta.source == Some("vision")
    ensures var r := AnalysisAfter(vs, oracle, later, mock);
      |r.0| == 1 && r.0[0].name == "Mixed Food" && r.0[0].portionGrams == 100.0 &&
      r.0[0].confidence == 0.5 && r.1.source == Some("vision")
  {
    var item := FullItem("Mixed Food", "100g", 0.5);
    HundredGrams();
    var c := CandidateOf(oracle, item);
    assert c.Ok? && c.value.name == "Mixed Food" && c.value.portionGrams == 100.0 && c.value.confidence == 0.5;
    assert Detected(vs, mock) == [Object(item)];
    SingleCandidate(oracle, Object(item));
    var e := EnrichAll(later, [c.value]);
    assert e[0] == Enriched(later, c.value);
  }

  /** One element gives its own candidate. */
  lemma SingleCandidate(oracle: SearchOracle, e: JsonElem)
    requires ElemCandidate(oracle, e).Ok?
    ensures ElemCandidates(oracle, [e]) == Ok([ElemCandidate(oracle, e).value])
  {
    MapAllSingle(e => ElemCandidate(oracle, e), e);
  }
}

=== FILE: recommendations.dfy ===
/** The recommendation service once its queries have run: daily calorie and macro targets
    (Mifflin-St Jeor), the daily and weekly summaries, meal suggestions and progress
    insights. Profiles and food logs are inputs. */
module Recommendations {

  import opened Common
  import opened Strings
  import opened Numbers

  /** The profile fields the service reads. */
  datatype Profile = Profile(sex: string, weightKg: real, heightCm: real, age: int,
                             activityLevel: string, goalType: string,
                             preferences: seq<string>, allergies: seq<string>)

  // ---------------------------------------------------------------------------------------
  // `calculate_daily_targets`

  /** The targets: `bmr`, `tdee` and `error` are present only in one of the two shapes. */
  datatype Targets = Targets(calories: int, proteinG: int, carbsG: int, fatG: int,
                             bmr: Option<int>, tdee: Option<int>, error: Option<string>)

  const DefaultTargets := Targets(2000, 150, 250, 67, None, None, Some("Profile not found"))

  /** The unrounded quantities of a profile. */
  datatype Energy = Energy(bmr: real, tdee: real, calories: real, protein: real, fat: real, carbs: real)

  const ActivityMultipliers: map<string, real> :=
    map["sedentary" := 1.2, "light" := 1.375, "moderate" := 1.55, "active" := 1.725, "very_active" := 1.9]

  function Multiplier(level: string): (m: real)
    ensures 1.2 <= m <= 1.9
  {
    if level in ActivityMultipliers then ActivityMultipliers[level] else 1.375
  }

  /** The basal metabolic rate by the Mifflin-St Jeor equation. */
  function Bmr(p: Profile): real
  {
    var base := 10.0 * p.weightKg + 6.25 * p.heightCm - 5.0 * (p.age as real);
    if Lower(p.sex) == "male" then base + 5.0 else base - 161.0
  }

  /** The minimum daily calories: 1200 for women, 1500 for anyone else. */
  function CalorieFloor(p: Profile): (r: real)
    ensures 1200.0 <= r <= 1500.0
    ensures Lower(p.sex) == "female" <==> r == 1200.0
  {
    if Lower(p.sex) == "female" then 1200.0 else 1500.0
  }

  /** The 500-calorie deficit or surplus of the goal. */
  function GoalCalories(tdee: real, goalType: string): (r: real)
    ensures tdee - 500.0 <= r <= tdee + 500.0
    ensures goalType != "lose" && goalType != "gain" ==> r == tdee
  {
    if goalType == "lose" then tdee - 500.0
    else if goalType == "gain" then tdee + 500.0
    else tdee
  }

  function EnergyOf(p: Profile): (e: Energy)
    ensures e.calories >= CalorieFloor(p)
  {
    var bmr := Bmr(p);
    var tdee := bmr * Multiplier(p.activityLevel);
    var calories := MaxReal(GoalCalories(tdee, p.goalType), CalorieFloor(p));
    var protein := p.weightKg * 2.2;
    var fat := calories * 0.25 / 9.0;
    var carbs := (calories - protein * 4.0 - fat * 9.0) / 4.0;
    Energy(bmr, tdee, calories, protein, fat, carbs)
  }

  /** `calculate_daily_targets` for the user's profile, if any. */
  function DailyTargets(profile: Option<Profile>): (t: Targets)
    ensures profile.None? <==> t.error.Some?
    ensures profile.None? ==> t == DefaultTargets
    ensures profile.Some? ==> t.calories >= 1200 && t.bmr.Some? && t.tdee.Some?
  {
    match profile
    case None => DefaultTargets
    case Some(p) =>
      var e := EnergyOf(p);
      RoundHalfEvenWithin(e.calories, 1200, e.calories.Floor + 1);
      Targets(RoundHalfEven(e.calories), RoundHalfEven(e.protein), RoundHalfEven(e.carbs),
              RoundHalfEven(e.fat), Some(RoundHalfEven(e.bmr)), Some(RoundHalfEven(e.tdee)), None)
  }

  /** Before rounding, protein, fat and carbs account for exactly the daily calories, and
      fat is a quarter of them. */
  lemma EnergyBalance(p: Profile)
    ensures var e := EnergyOf(p);
      4.0 * e.protein + 9.0 * e.fat + 4.0 * e.carbs == e.calories && 9.0 * e.fat == e.calories / 4.0
  {
  }

  /** The goal moves the calories by 500 either way, unless the floor applies. */
  lemma GoalAdjustment(p: Profile)
    ensures var e := EnergyOf(p);
      e.tdee == Bmr(p) * Multiplier(p.activityLevel) &&
      (p.goalType == "lose" && e.tdee - 500.0 >= CalorieFloor(p) ==> e.calories == e.tdee - 500.0) &&
      (p.goalType == "gain" && e.tdee + 500.0 >= CalorieFloor(p) ==> e.calories == e.tdee + 500.0) &&
      (p.goalType != "lose" && p.goalType != "gain" && e.tdee >= CalorieFloor(p) ==> e.calories == e.tdee)
  {
  }

  /** Men get 166 kcal more basal rate than anyone else of the same build and age. */
  lemma SexDifference(p: Profile)
    ensures Lower(p.sex) == "male" ==> Bmr(p) == Bmr(p.(sex := "female")) + 166.0
  {
    assert Lower("female") == "female";
  }

  // ---------------------------------------------------------------------------------------
  // `get_daily_summary`

  /** A food log entry as the summaries read it; `date` is its day number. */
  datatype FoodLog = FoodLog(date: int, meal: string, calories: real, proteinG: real, carbsG: real,
                             fatG: real, fiberG: real, sugarG: real, sodiumMg: real)

  /** The per-nutrient totals of a day. */
  datatype DayTotals = DayTotals(calories: real, proteinG: real, carbsG: real, fatG: real,
                                 fiberG: real, sugarG: real, sodiumMg: real)

  function Plus(a: DayTotals, log: FoodLog): DayTotals
  {
    DayTotals(a.calories + log.calories, a.proteinG + log.proteinG, a.carbsG + log.carbsG,
              a.fatG + log.fatG, a.fiberG + log.fiberG, a.sugarG + log.sugarG, a.sodiumMg + log.sodiumMg)
  }

  const NoTotals := DayTotals(0.0, 0.0, 0.0, 0.0, 0.0, 0.0, 0.0)

  /** The sum of each nutrient over the logs. */
  function TotalsOf(logs: seq<FoodLog>): DayTotals
  {
    if |logs| == 0 then NoTotals else Plus(TotalsOf(logs[..|logs| - 1]), logs[|logs| - 1])
  }

  /** The calories and the number of logs of one meal. */
  datatype MealShare = MealShare(calories: real, count: nat)

  const Meals := ["breakfast", "lunch", "dinner", "snack"]

  function OfMeal(logs: seq<FoodLog>, meal: string): (r: seq<FoodLog>)
    ensures |r| <= |logs|
    ensures forall k :: 0 <= k < |r| ==> r[k].meal == meal
  {
    if |logs| == 0 then []
    else if logs[|logs| - 1].meal == meal then OfMeal(logs[..|logs| - 1], meal) + [logs[|logs| - 1]]
    else OfMeal(logs[..|logs| - 1], meal)
  }

  function MealBreakdown(logs: seq<FoodLog>): (r: map<string, MealShare>)
    ensures r.Keys == {"breakfast", "lunch", "dinner", "snack"}
    ensures forall m :: m in r ==> r[m] == MealShare(TotalsOf(OfMeal(logs, m)).calories, |OfMeal(logs, m)|)
  {
    map m | m in {"breakfast", "lunch", "dinner", "snack"} :: MealShare(TotalsOf(OfMeal(logs, m)).calories, |OfMeal(logs, m)|)
  }

  /** The breakdown never counts more logs than there are; logs of any other meal are not
      counted at all. */
  lemma {:induction false} MealCounts(logs: seq<FoodLog>)
    ensures |OfMeal(logs, "breakfast")| + |OfMeal(logs, "lunch")| + |OfMeal(logs, "dinner")| +
            |OfMeal(logs, "snack")| <= |logs|
  {
    if |logs| > 0 {
      MealCounts(logs[..|logs| - 1]);
    }
  }

  /** The percentages of the targets reached, each present when it could be computed. */
  datatype Percents = Percents(calories: Option<real>, proteinG: Option<real>, carbsG: Option<real>,
                               fatG: Option<real>)

  /** What is left of each target, never negative. */
  datatype Remaining = Remaining(calories: real, proteinG: real, carbsG: real, fatG: real)

  datatype DailySummary = DailySummary(totals: DayTotals, meals: map<string, MealShare>,
                                       percents: Percents, targets: Targets, remaining: Remaining)

  function Left(target: int, total: real): (r: real)
    ensures r >= 0.0 && r >= target as real - total
    ensures total <= target as real ==> r == target as real - total
    ensures total >= target as real ==> r == 0.0
  {
    MaxReal(0.0, target as real - total)
  }

  /** What is left of each target: never negative, and with the total it reaches the target. */
  function RemainingOf(t: Targets, totals: DayTotals): (r: Remaining)
    ensures r.calories >= 0.0 && r.proteinG >= 0.0 && r.carbsG >= 0.0 && r.fatG >= 0.0
    ensures totals.calories + r.calories >= t.calories as real && totals.proteinG + r.proteinG >= t.proteinG as real &&
            totals.carbsG + r.carbsG >= t.carbsG as real && totals.fatG + r.fatG >= t.fatG as real
  {
    Remaining(Left(t.calories, totals.calories), Left(t.proteinG, totals.proteinG),
              Left(t.carbsG, totals.carbsG), Left(t.fatG, totals.fatG))
  }

  function Percent(total: real, target: int): real
    requires target != 0
  {
    total / (target as real) * 100.0
  }

  /** `get_daily_summary` as written: when the calorie target is positive all four
      percentages are computed, and a protein, carbs or fat target of 0 raises. */
  function DailySummaryAsWritten(logs: seq<FoodLog>, profile: Option<Profile>): (r: Outcome<DailySummary>)
    ensures var t := DailyTargets(profile);
      r.Raised? <==> t.calories > 0 && (t.proteinG == 0 || t.carbsG == 0 || t.fatG == 0)
  {
    var totals := TotalsOf(logs);
    var t := DailyTargets(profile);
    if t.calories > 0 then
      if t.proteinG == 0 || t.carbsG == 0 || t.fatG == 0 then Raised("ZeroDivisionError")
      else
        Ok(DailySummary(totals, MealBreakdown(logs),
                        Percents(Some(Percent(totals.calories, t.calories)), Some(Percent(totals.proteinG, t.proteinG)),
                                 Some(Percent(totals.carbsG, t.carbsG)), Some(Percent(totals.fatG, t.fatG))),
                        t, RemainingOf(t, totals)))
    else Ok(DailySummary(totals, MealBreakdown(logs), Percents(None, None, None, None), t, RemainingOf(t, totals)))
  }

  function PercentOf(total: real, target: int): (r: Option<real>)
    ensures r.Some? <==> target != 0
  {
    if target != 0 then Some(Percent(total, target)) else None
  }

  /** `get_daily_summary` with each percentage guarded by its own target. */
  function DailySummaryOf(logs: seq<FoodLog>, profile: Option<Profile>): (r: DailySummary)
    ensures r.targets == DailyTargets(profile) && r.totals == TotalsOf(logs)
    ensures r.percents.proteinG.Some? <==> r.targets.calories > 0 && r.targets.proteinG != 0
    ensures r.percents.carbsG.Some? <==> r.targets.calories > 0 && r.targets.carbsG != 0
    ensures r.percents.fatG.Some? <==> r.targets.calories > 0 && r.targets.fatG != 0
    ensures r.remaining.calories >= 0.0 && r.remaining.proteinG >= 0.0 &&
            r.remaining.carbsG >= 0.0 && r.remaining.fatG >= 0.0
  {
    var totals := TotalsOf(logs);
    var t := DailyTargets(profile);
    var percents :=
      if t.calories > 0 then
        Percents(PercentOf(totals.calories, t.calories), PercentOf(totals.proteinG, t.proteinG),
                 PercentOf(totals.carbsG, t.carbsG), PercentOf(totals.fatG, t.fatG))
      else Percents(None, None, None, None);
    DailySummary(totals, MealBreakdown(logs), percents, t, RemainingOf(t, totals))
  }

  /** Wherever the summary as written succeeds, the guarded one gives the same answer. */
  lemma GuardAgrees(logs: seq<FoodLog>, profile: Option<Profile>)
    ensures DailySummaryAsWritten(logs, profile).Ok? ==>
              DailySummaryAsWritten(logs, profile).value == DailySummaryOf(logs, profile)
  {
  }

  /** A woman of 102.3 kg, 150 cm and 80 years, sedentary and losing weight: the calories
      sit on the 1200 floor, carbs come to -0.06 g and round to 0, and the summary raises. */
  lemma ZeroCarbsTarget()
    ensures var p := Profile("female", 102.3, 150.0, 80, "sedentary", "lose", [], []);
      DailyTargets(Some(p)).carbsG == 0 && DailySummaryAsWritten([], Some(p)).Raised?
  {
    var p := Profile("female", 102.3, 150.0, 80, "sedentary", "lose", [], []);
    assert Lower("female") == "female";
    assert Lower("female") != "male";
    assert Bmr(p) == 1399.5;
    var e := EnergyOf(p);
    assert e.tdee == 1679.4;
    assert e.calories == 1200.0;
    assert e.carbs == -0.06;
    assert (-0.06).Floor == -1;
    assert RoundHalfEven(e.calories) == 1200;
  }

  // ---------------------------------------------------------------------------------------
  // `get_weekly_summary`

  /** The first and last day of the week `weeksBack` weeks before the current one, given
      today and its weekday (Monday is 0). */
  function WeekBounds(today: int, weekday: int, weeksBack: int): (r: (int, int))
    ensures r.1 == r.0 + 6
    ensures weeksBack == 0 && 0 <= weekday <= 6 ==> r.0 <= today <= r.1
  {
    var start := today - (weekday + weeksBack * 7);
    (start, start + 6)
  }

  /** The calories, protein, carbs and fat of one day of the week. */
  datatype Macros = Macros(calories: real, proteinG: real, carbsG: real, fatG: real)

  function AddLog(m: Macros, log: FoodLog): Macros
  {
    Macros(m.calories + log.calories, m.proteinG + log.proteinG, m.carbsG + log.carbsG, m.fatG + log.fatG)
  }

  function AddMacros(a: Macros, b: Macros): Macros
  {
    Macros(a.calories + b.calories, a.proteinG + b.proteinG, a.carbsG + b.carbsG, a.fatG + b.fatG)
  }

  const NoMacros := Macros(0.0, 0.0, 0.0, 0.0)

  /** The macros of all the logs. */
  function MacrosOf(logs: seq<FoodLog>): Macros
  {
    if |logs| == 0 then NoMacros else AddLog(MacrosOf(logs[..|logs| - 1]), logs[|logs| - 1])
  }

  /** The macros of the logs dated `d`: what `daily_data[d]` holds. */
  function DayMacros(logs: seq<FoodLog>, d: int): (r: Macros)
    ensures (forall k :: 0 <= k < |logs| ==> logs[k].date != d) ==> r == NoMacros
  {
    if |logs| == 0 then NoMacros
    else
      var prev := DayMacros(logs[..|logs| - 1], d);
      if logs[|logs| - 1].date == d then AddLog(prev, logs[|logs| - 1]) else prev
  }

  /** The sum of the per-day macros over some days. */
  function SumDays(days: seq<int>, daily: map<int, Macros>): Macros
    requires forall k :: 0 <= k < |days| ==> days[k] in daily
  {
    if |days| == 0 then NoMacros else AddMacros(SumDays(days[..|days| - 1], daily), daily[days[|days| - 1]])
  }

  predicate Distinct(days: seq<int>)
  {
    forall i, j :: 0 <= i < j < |days| ==> days[i] != days[j]
  }

  /** The days of the logs, each once, in the order they first appear. */
  function DaysOf(logs: seq<FoodLog>): (r: seq<int>)
    ensures Distinct(r)
    ensures forall d :: d in r <==> exists k :: 0 <= k < |logs| && logs[k].date == d
  {
    if |logs| == 0 then []
    else
      var prev := DaysOf(logs[..|logs| - 1]);
      var d := logs[|logs| - 1].date;
      if d in prev then prev else prev + [d]
  }

  /** The weekly averages: calories rounded to a whole number, the rest to one decimal. */
  datatype WeeklySummary = WeeklySummary(weekStart: int, weekEnd: int, daysLogged: nat,
                                         avgCalories: int, avgProteinG: real, avgCarbsG: real,
                                         avgFatG: real, daily: map<int, Macros>)

  /** Adding to one day of the dictionary adds to the sum over its days. */
  lemma {:induction false} SumDaysUpdate(days: seq<int>, daily: map<int, Macros>, d: int, log: FoodLog)
    requires Distinct(days) && d in days && forall k :: 0 <= k < |days| ==> days[k] in daily
    ensures SumDays(days, daily[d := AddLog(daily[d], log)]) == AddLog(SumDays(days, daily), log)
  {
    var n := |days| - 1;
    var updated := daily[d := AddLog(daily[d], log)];
    if days[n] == d {
      assert d !in days[..n];
      SumDaysSame(days[..n], daily, updated);
    } else {
      assert d in days[..n];
      SumDaysUpdate(days[..n], daily, d, log);
    }
  }

  lemma {:induction false} SumDaysSame(days: seq<int>, a: map<int, Macros>, b: map<int, Macros>)
    requires forall k :: 0 <= k < |days| ==> days[k] in a && days[k] in b && a[days[k]] == b[days[k]]
    ensures SumDays(days, a) == SumDays(days, b)
  {
    if |days| > 0 {
      SumDaysSame(days[..|days| - 1], a, b);
    }
  }

  /** The dictionary has exactly the listed days as keys. */
  ghost predicate KeysMatch(days: seq<int>, daily: map<int, Macros>)
  {
    (forall d :: d in daily <==> d in days) && forall k :: 0 <= k < |days| ==> days[k] in daily
  }

  /** One step of the accumulation: a new day starts at zero, then the log is added to its
      day. */
  method AddToDay(days: seq<int>, daily: map<int, Macros>, log: FoodLog)
    returns (days': seq<int>, daily': map<int, Macros>)
    requires Distinct(days) && KeysMatch(days, daily)
    ensures days' == if log.date in days then days else days + [log.date]
    ensures Distinct(days') && KeysMatch(days', daily')
    ensures SumDays(days', daily') == AddLog(SumDays(days, daily), log)
    ensures daily'[log.date] == AddLog(if log.date in daily then daily[log.date] else NoMacros, log)
    ensures forall d :: d in daily' && d != log.date ==> daily'[d] == daily[d]
  {
    var d := log.date;
    days', daily' := days, daily;
    if d !in daily {
      daily' := daily[d := NoMacros];
      SumDaysSame(days, daily, daily');
      days' := days + [d];
      assert days'[..|days'| - 1] == days;
    }
    SumDaysUpdate(days', daily', d, log);
    daily' := daily'[d := AddLog(daily'[d], log)];
  }

  /** The accumulation loop of `get_weekly_summary`: a dictionary of per-day macros, with
      its keys in insertion order. */
  method DailyMacros(logs: seq<FoodLog>) returns (days: seq<int>, daily: map<int, Macros>)
    ensures days == DaysOf(logs) && KeysMatch(days, daily)
    ensures SumDays(days, daily) == MacrosOf(logs)
    ensures forall d :: d in daily ==> daily[d] == DayMacros(logs, d)
  {
    days := [];
    daily := map[];
    for k := 0 to |logs|
      invariant days == DaysOf(logs[..k]) && KeysMatch(days, daily)
      invariant SumDays(days, daily) == MacrosOf(logs[..k])
      invariant forall d :: d in daily ==> daily[d] == DayMacros(logs[..k], d)
    {
      assert logs[..k + 1][..k] == logs[..k];
      if logs[k].date !in daily {
        assert DayMacros(logs[..k], logs[k].date) == NoMacros;
      }
      days, daily := AddToDay(days, daily, logs[k]);
    }
    assert logs[..|logs|] == logs;
  }

  /** The average of one macro over the days with data, 0 without any. */
  function Average(sum: real, days: nat): real
  {
    if days > 0 then sum / (days as real) else 0.0
  }

  /** The totals over the days, summed day by day in insertion order. */
  method SumOverDays(days: seq<int>, daily: map<int, Macros>) returns (sum: Macros)
    requires forall k :: 0 <= k < |days| ==> days[k] in daily
    ensures sum == SumDays(days, daily)
  {
    sum := NoMacros;
    for i := 0 to |days|
      invariant sum == SumDays(days[..i], daily)
    {
      assert days[..i + 1][..i] == days[..i];
      sum := AddMacros(sum, daily[days[i]]);
    }
    assert days[..|days|] == days;
  }

  /** `get_weekly_summary` over the logs of the week that starts on `weekStart`. */
  method WeeklySummaryOf(logs: seq<FoodLog>, weekStart: int) returns (w: WeeklySummary)
    ensures w.weekStart == weekStart && w.weekEnd == weekStart + 6
    ensures w.daysLogged == |DaysOf(logs)|
    ensures forall d :: d in w.daily <==> d in DaysOf(logs)
    ensures forall d :: d in w.daily ==> w.daily[d] == DayMacros(logs, d)
    ensures var total := MacrosOf(logs);
      w.avgCalories == RoundHalfEven(Average(total.calories, w.daysLogged)) &&
      w.avgProteinG == Round(Average(total.proteinG, w.daysLogged), 1) &&
      w.avgCarbsG == Round(Average(total.carbsG, w.daysLogged), 1) &&
      w.avgFatG == Round(Average(total.fatG, w.daysLogged), 1)
  {
    var days, daily := DailyMacros(logs);
    var sum := SumOverDays(days, daily);
    var n := |days|;
    w := WeeklySummary(weekStart, weekStart + 6, n, RoundHalfEven(Average(sum.calories, n)),
                       Round(Average(sum.proteinG, n), 1), Round(Average(sum.carbsG, n), 1),
                       Round(Average(sum.fatG, n), 1), daily);
  }

  // ---------------------------------------------------------------------------------------
  // `get_food_suggestions`

  datatype Suggestion = Suggestion(name: string, calories: int, protein: int, carbs: int, fat: int)

  /** The suggestion table: per meal, a default list and lists per dietary preference. */
  const SuggestionTable: map<string, map<string, seq<Suggestion>>> := map[
    "breakfast" := map[
      "default" := [Suggestion("Oatmeal with berries", 150, 5, 30, 3),
                    Suggestion("Greek yogurt with granola", 200, 15, 25, 5),
                    Suggestion("Scrambled eggs with toast", 250, 15, 20, 12),
                    Suggestion("Smoothie bowl", 180, 8, 35, 4)],
      "vegetarian" := [Suggestion("Avocado toast", 220, 6, 25, 12),
                       Suggestion("Chia pudding", 160, 6, 20, 8)],
      "vegan" := [Suggestion("Overnight oats with almond milk", 140, 4, 28, 4),
                  Suggestion("Smoothie with plant protein", 200, 12, 30, 5)]],
    "lunch" := map[
      "default" := [Suggestion("Grilled chicken salad", 300, 25, 15, 15),
                    Suggestion("Turkey sandwich", 350, 20, 40, 12),
                    Suggestion("Quinoa bowl", 280, 12, 45, 8),
                    Suggestion("Soup and salad", 250, 10, 30, 10)],
      "vegetarian" := [Suggestion("Caprese salad with mozzarella", 280, 15, 12, 20),
                       Suggestion("Vegetable stir-fry", 220, 8, 35, 8)]],
    "dinner" := map[
      "default" := [Suggestion("Baked salmon with vegetables", 400, 30, 20, 22),
                    Suggestion("Lean beef with sweet potato", 450, 35, 35, 18),
                    Suggestion("Chicken stir-fry", 350, 25, 30, 15)],
      "vegetarian" := [Suggestion("Lentil curry with rice", 320, 15, 55, 6),
                       Suggestion("Eggplant parmesan", 380, 18, 25, 22)]],
    "snack" := map[
      "default" := [Suggestion("Apple with almond butter", 150, 4, 20, 8),
                    Suggestion("Greek yogurt", 100, 10, 12, 0),
                    Suggestion("Mixed nuts", 180, 6, 6, 16),
                    Suggestion("Hummus with carrots", 120, 4, 15, 5)]]]

  /** `meal or 'snack'`: a missing or empty meal means snacks. */
  function MealKey(meal: Option<string>): string
  {
    if meal.Some? && meal.value != "" then meal.value else "snack"
  }

  function MealTable(meal: Option<string>): map<string, seq<Suggestion>>
  {
    var key := MealKey(meal);
    if key in SuggestionTable then SuggestionTable[key] else map[]
  }

  /** The meal's defaults (`meal_suggestions.get('default', [])`). */
  function Defaults(table: map<string, seq<Suggestion>>): seq<Suggestion>
  {
    if "default" in table then table["default"] else []
  }

  /** The selection after the preferences: the selected list is the meal's own 'default'
      list, so each preference the meal has extends it by that preference's list, and a
      preference named "default" extends the selection by itself, doubling it. */
  function Selected(table: map<string, seq<Suggestion>>, preferences: seq<string>): (r: seq<Suggestion>)
    ensures Defaults(table) <= r
    ensures forall x :: x in r ==> x in Defaults(table) || exists p :: p in preferences && p in table && x in table[p]
  {
    if |preferences| == 0 then Defaults(table)
    else
      var prev := Selected(table, preferences[..|preferences| - 1]);
      var pref := preferences[|preferences| - 1];
      if pref !in table then prev
      else if pref == "default" then prev + prev
      else prev + table[pref]
  }

  /** The lists of the preferences the meal has, one after the other. */
  function PreferenceLists(table: map<string, seq<Suggestion>>, preferences: seq<string>): seq<Suggestion>
  {
    if |preferences| == 0 then []
    else
      var pref := preferences[|preferences| - 1];
      PreferenceLists(table, preferences[..|preferences| - 1]) + (if pref in table then table[pref] else [])
  }

  /** Without a "default" preference the selection is the defaults followed by the lists of
      the preferences, in the order of the preferences. */
  lemma {:induction false} SelectedWithoutDefault(table: map<string, seq<Suggestion>>, preferences: seq<string>)
    requires "default" !in preferences
    ensures Selected(table, preferences) == Defaults(table) + PreferenceLists(table, preferences)
  {
    if |preferences| > 0 {
      var n := |preferences| - 1;
      assert "default" !in preferences[..n] by {
        assert forall x :: x in preferences[..n] ==> x in preferences;
      }
      assert preferences[n] in preferences;
      SelectedWithoutDefault(table, preferences[..n]);
    }
  }

  /** A "default" preference doubles everything selected before it. */
  lemma DefaultDoubles(table: map<string, seq<Suggestion>>, preferences: seq<string>)
    requires "default" in table
    ensures Selected(table, preferences + ["default"]) == Selected(table, preferences) + Selected(table, preferences)
  {
    assert (preferences + ["default"])[..|preferences|] == preferences;
  }

  /** At breakfast, "vegetarian" then "default" gives the defaults and the vegetarian dishes
      twice over. */
  lemma VegetarianThenDefault()
    ensures var t := SuggestionTable["breakfast"];
      Selected(t, ["vegetarian", "default"]) == t["default"] + t["vegetarian"] + t["default"] + t["vegetarian"]
  {
    var t := SuggestionTable["breakfast"];
    var prefs := ["vegetarian", "default"];
    assert prefs[..1] == ["vegetarian"] && ["vegetarian"][..0] == [];
    assert Selected(t, ["vegetarian"]) == t["default"] + t["vegetarian"];
    assert Selected(t, prefs) == Selected(t, ["vegetarian"]) + Selected(t, ["vegetarian"]);
  }

  /** A suggestion is dropped when its lower-cased name contains any allergy. */
  predicate Allergenic(s: Suggestion, allergies: seq<string>)
  {
    exists a :: a in allergies && Contains(Lower(s.name), a)
  }

  /** `remaining_calories` is applied only when it is given and not 0. */
  predicate WithinRemaining(s: Suggestion, remaining: Option<real>)
  {
    remaining.None? || remaining.value == 0.0 || s.calories as real <= remaining.value * 1.2
  }

  function Kept(xs: seq<Suggestion>, allergies: seq<string>, remaining: Option<real>): (r: seq<Suggestion>)
    ensures |r| <= |xs|
    ensures forall s :: s in r <==> s in xs && !Allergenic(s, allergies) && WithinRemaining(s, remaining)
  {
    if |xs| == 0 then []
    else
      var s := xs[|xs| - 1];
      var prev := Kept(xs[..|xs| - 1], allergies, remaining);
      assert forall t :: t in xs <==> t in xs[..|xs| - 1] || t == s by {
        assert xs == xs[..|xs| - 1] + [s];
      }
      if !Allergenic(s, allergies) && WithinRemaining(s, remaining) then prev + [s] else prev
  }

  /** The allergy loop of one suggestion, which stops at the first match. */
  method IsExcluded(s: Suggestion, allergies: seq<string>) returns (exclude: bool)
    ensures exclude == Allergenic(s, allergies)
  {
    exclude := false;
    var nameLower := Lower(s.name);
    for i := 0 to |allergies|
      invariant !exclude ==> forall j :: 0 <= j < i ==> !Contains(nameLower, allergies[j])
      invariant exclude ==> Allergenic(s, allergies)
    {
      if Contains(nameLower, allergies[i]) {
        exclude := true;
        break;
      }
    }
  }

  /** The selection loop: the meal's defaults extended by each preference's list. The
      selected list is the table's 'default' entry itself, so while the meal has one, that
      entry reads as the selection so far. */
  method SelectSuggestions(mealSuggestions: map<string, seq<Suggestion>>, preferences: seq<string>)
    returns (selected: seq<Suggestion>)
    ensures selected == Selected(mealSuggestions, preferences)
  {
    selected := Defaults(mealSuggestions);
    var aliased := "default" in mealSuggestions;
    for i := 0 to |preferences|
      invariant selected == Selected(mealSuggestions, preferences[..i])
    {
      assert preferences[..i + 1][..i] == preferences[..i];
      var pref := preferences[i];
      if pref in mealSuggestions {
        var extension := if aliased && pref == "default" then selected else mealSuggestions[pref];
        selected := selected + extension;
      }
    }
    assert preferences[..|preferences|] == preferences;
  }

  /** The allergy loop over the selected suggestions. */
  method FilterAllergies(selected: seq<Suggestion>, allergies: seq<string>) returns (filtered: seq<Suggestion>)
    ensures filtered == Kept(selected, allergies, None)
  {
    filtered := [];
    for i := 0 to |selected|
      invariant filtered == Kept(selected[..i], allergies, None)
    {
      assert selected[..i + 1][..i] == selected[..i];
      var exclude := IsExcluded(selected[i], allergies);
      if !exclude {
        filtered := filtered + [selected[i]];
      }
    }
    assert selected[..|selected|] == selected;
  }

  /** The comprehension that keeps what fits 120% of the budget. */
  method FilterBudget(filtered: seq<Suggestion>, budget: real) returns (fitting: seq<Suggestion>)
    ensures fitting == Fitting(filtered, budget)
  {
    fitting := [];
    for i := 0 to |filtered|
      invariant fitting == Fitting(filtered[..i], budget)
    {
      assert filtered[..i + 1][..i] == filtered[..i];
      if filtered[i].calories as real <= budget * 1.2 {
        fitting := fitting + [filtered[i]];
      }
    }
    assert filtered[..|filtered|] == filtered;
  }

  /** `get_food_suggestions`: no profile gives nothing; otherwise at most five of the
      selected suggestions, in order, free of the profile's allergies and, when a non-zero
      remaining budget is given, within 120% of it. */
  method FoodSuggestions(profile: Option<Profile>, meal: Option<string>, remaining: Option<real>)
    returns (r: seq<Suggestion>)
    ensures profile.None? ==> r == []
    ensures profile.Some? ==>
      r == Take(Kept(Selected(MealTable(meal), profile.value.preferences), profile.value.allergies, remaining), 5)
    ensures |r| <= 5
  {
    if profile.None? {
      return [];
    }
    var p := profile.value;
    var selected := SelectSuggestions(MealTable(meal), p.preferences);
    var filtered := FilterAllergies(selected, p.allergies);
    if remaining.Some? && remaining.value != 0.0 {
      filtered := FilterBudget(filtered, remaining.value);
      KeptInTwoPasses(selected, p.allergies, remaining.value);
    } else {
      KeptWithoutBudget(selected, p.allergies, remaining);
    }
    r := Take(filtered, 5);
  }

  /** The suggestions within 120% of the budget, in order. */
  function Fitting(xs: seq<Suggestion>, budget: real): seq<Suggestion>
  {
    if |xs| == 0 then []
    else Fitting(xs[..|xs| - 1], budget) + (if xs[|xs| - 1].calories as real <= budget * 1.2 then [xs[|xs| - 1]] else [])
  }

  lemma {:induction false} KeptInTwoPasses(xs: seq<Suggestion>, allergies: seq<string>, budget: real)
    requires budget != 0.0
    ensures Kept(xs, allergies, Some(budget)) == Fitting(Kept(xs, allergies, None), budget)
  {
    if |xs| > 0 {
      KeptInTwoPasses(xs[..|xs| - 1], allergies, budget);
      var s := xs[|xs| - 1];
      var prev := Kept(xs[..|xs| - 1], allergies, None);
      if !Allergenic(s, allergies) {
        assert Kept(xs, allergies, None) == prev + [s];
        assert (prev + [s])[..|prev|] == prev;
      }
    }
  }

  lemma {:induction false} KeptWithoutBudget(xs: seq<Suggestion>, allergies: seq<string>, remaining: Option<real>)
    requires remaining.None? || remaining.value == 0.0
    ensures Kept(xs, allergies, remaining) == Kept(xs, allergies, None)
  {
    if |xs| > 0 {
      KeptWithoutBudget(xs[..|xs| - 1], allergies, remaining);
    }
  }

  /** An unknown meal has no suggestions at all. */
  lemma UnknownMeal(meal: string, preferences: seq<string>)
    requires meal != "" && meal !in SuggestionTable
    ensures Selected(MealTable(Some(meal)), preferences) == []
  {
    EmptyTable(preferences);
  }

  lemma {:induction false} EmptyTable(preferences: seq<string>)
    ensures Selected(map[], preferences) == []
  {
    if |preferences| > 0 {
      EmptyTable(preferences[..|preferences| - 1]);
    }
  }

  // ---------------------------------------------------------------------------------------
  // `get_progress_insights`

  datatype WeightTrend = Stable | Decreasing | Increasing

  datatype Insights = Insights(weightTrend: WeightTrend, weeklyAverageCalories: int,
                               consistencyScore: real, recommendations: seq<string>)

  const LogMoreMessage := "Try to log your meals more consistently to get better insights."
  const EatMoreMessage := "You may be eating too few calories. Consider adding healthy snacks."
  const EatLessMessage := "You're exceeding your calorie targets. Try smaller portions or healthier alternatives."

  /** The trend of the recent weigh-ins, newest first: compares the newest with the oldest. */
  function TrendOf(recent: seq<real>): (t: WeightTrend)
    ensures t == Decreasing <==> |recent| >= 3 && recent[0] < recent[|recent| - 1] - 0.5
    ensures t == Increasing <==> |recent| >= 3 && recent[0] > recent[|recent| - 1] + 0.5
  {
    if |recent| >= 3 then
      var weights := Reversed(recent);
      if weights[|weights| - 1] < weights[0] - 0.5 then Decreasing
      else if weights[|weights| - 1] > weights[0] + 0.5 then Increasing
      else Stable
    else Stable
  }

  function Reversed<T>(s: seq<T>): (r: seq<T>)
    ensures |r| == |s| && forall k :: 0 <= k < |s| ==> r[k] == s[|s| - 1 - k]
  {
    seq(|s|, k requires 0 <= k < |s| => s[|s| - 1 - k])
  }

  /** `min(100, days / 7 * 100)`. */
  function Consistency(daysLogged: nat): (c: real)
    ensures 0.0 <= c <= 100.0
    ensures daysLogged <= 7 ==> c == (daysLogged as real) / 7.0 * 100.0
  {
    MinReal(100.0, (daysLogged as real) / 7.0 * 100.0)
  }

  /** `get_progress_insights` from the last ten weigh-ins (newest first), this week's
      summary and the targets. */
  method ProgressInsights(recent: seq<real>, week: WeeklySummary, targets: Targets) returns (r: Insights)
    ensures r.weightTrend == TrendOf(recent)
    ensures r.weeklyAverageCalories == week.avgCalories
    ensures r.consistencyScore == Consistency(week.daysLogged)
    ensures (LogMoreMessage in r.recommendations) <==> r.consistencyScore < 70.0
    ensures (EatMoreMessage in r.recommendations) <==> (week.avgCalories as real) < (targets.calories as real) * 0.8
    ensures (EatLessMessage in r.recommendations) <==>
              !((week.avgCalories as real) < (targets.calories as real) * 0.8) &&
              (week.avgCalories as real) > (targets.calories as real) * 1.2
    ensures |r.recommendations| <= 2
    ensures forall m :: m in r.recommendations ==> m == LogMoreMessage || m == EatMoreMessage || m == EatLessMessage
    ensures LogMoreMessage in r.recommendations ==> r.recommendations[0] == LogMoreMessage
    ensures forall a, b :: 0 <= a < b < |r.recommendations| ==> r.recommendations[a] != r.recommendations[b]
  {
    var recommendations: seq<string> := [];
    var score := Consistency(week.daysLogged);
    if score < 70.0 {
      recommendations := recommendations + [LogMoreMessage];
    }
    var average := week.avgCalories as real;
    if average < (targets.calories as real) * 0.8 {
      recommendations := recommendations + [EatMoreMessage];
    } else if average > (targets.calories as real) * 1.2 {
      recommendations := recommendations + [EatLessMessage];
    }
    r := Insights(TrendOf(recent), week.avgCalories, score, recommendations);
  }
}

=== FILE: records.dfy ===
/** The records that travel along the photo-to-nutrition path: what a vision model or the
    fallback classifier reports per food item, what a nutrition search returns, and the
    candidates and metadata the analysis produces. */
module Records {

  import opened Common

  /** The `portion` entry of a detected item, as Python sees it: absent, `None`, a string,
      or some other JSON value (a number, a list, ...), named by its Python type, that is
      truthy or not. */
  datatype PortionField = Missing | Null | Text(text: string) | NonText(typeName: string, truthy: bool)

  /** One detected food item (`{'name': ..., 'portion': ..., 'confidence': ...}`); a key
      that is absent is `None`. */
  datatype VisionItem = VisionItem(name: Option<string>, portion: PortionField, confidence: Option<real>)

  /** An item with all three keys present, as every text parser and the classifier build them. */
  function FullItem(name: string, portion: string, confidence: real): (r: VisionItem)
    ensures r.name == Some(name) && r.portion == Text(portion) && r.confidence == Some(confidence)
  {
    VisionItem(Some(name), Text(portion), Some(confidence))
  }

  /** One element of a decoded JSON array: an object, or any other JSON value. */
  datatype JsonElem = Object(item: VisionItem) | NotAnObject(typeName: string)

  /** What `json.loads` does with a bracketed span: a decoded array, or a `JSONDecodeError`. */
  datatype JsonDecode = Decoded(elems: seq<JsonElem>) | DecodeError(message: string)

  /** A scalar JSON value as a nutrient field holds it: a number, a string or `null`. */
  datatype FieldValue = Number(x: real) | Str(s: string) | NullValue

  /** The per-100 g nutrients of an Open Food Facts product after normalisation. */
  datatype Per100g = Per100g(calories: real, protein: real, carbs: real, fat: real,
                             fiber: real, sugar: real, sodium: real, salt: real)

  /** One search hit (`source`, `title`, `url`, `snippet`, `nutrition`). */
  datatype SearchResult = SearchResult(source: string, title: string, url: string, snippet: string,
                                       nutrition: Option<Per100g>)

  /** The two remote searches, as functions of the query text. */
  datatype SearchOracle = SearchOracle(openFoodFacts: string -> seq<SearchResult>,
                                       wikipedia: string -> seq<SearchResult>)

  /** A nutrition estimate for a portion (`calories`, `protein_g`, ..., `sodium_mg`, `source`). */
  datatype Nutrition = Nutrition(calories: real, proteinG: real, carbsG: real, fatG: real,
                                 fiberG: real, sugarG: real, sodiumMg: real, source: string)

  /** One food candidate of a photo analysis. */
  datatype Candidate = Candidate(name: string, portionGrams: real, confidence: real,
                                 nutrition: Nutrition, searchResults: seq<SearchResult>)

  /** The `meta` dictionary of a photo analysis. */
  datatype Meta = Meta(source: Option<string>, warning: Option<string>, errors: seq<string>)
}

=== FILE: reminder_scheduler.dfy ===
/** The reminder scheduler: which meal window an hour falls in, the custom reminders kept in
    the `reminder_jobs` dictionary beside the background scheduler's job ids, immediate
    reminders, and the one global instance. Sending a reminder is recorded in an outbox. */
module ReminderScheduler {

  import opened Common
  import opened Strings

  type Hour = h: int | 0 <= h < 24
  type Minute = m: int | 0 <= m < 60

  /** A reminder handed to the notification service. */
  datatype Reminder = WaterReminder(user: int) | MealReminder(user: int, meal: string) | WeighInReminder(user: int)

  /** An entry of `reminder_jobs`. */
  datatype CustomJob = CustomJob(userId: int, kind: string, hour: Hour, minute: Minute)

  /** An entry of the list `get_user_reminders` returns. */
  datatype UserReminder = UserReminder(id: string, kind: string, time: string, active: bool)

  /** The meal windows in the order they are tried: start hour inclusive, end exclusive. */
  const MealTimes: seq<(string, int, int)> := [("breakfast", 7, 9), ("lunch", 12, 14), ("dinner", 18, 20)]

  /** The meal whose window contains the hour, if any. */
  function MealAt(hour: int): (r: Option<string>)
    ensures r == Some("breakfast") <==> 7 <= hour < 9
    ensures r == Some("lunch") <==> 12 <= hour < 14
    ensures r == Some("dinner") <==> 18 <= hour < 20
    ensures r.None? <==> !(7 <= hour < 9 || 12 <= hour < 14 || 18 <= hour < 20)
  {
    if 7 <= hour < 9 then Some("breakfast")
    else if 12 <= hour < 14 then Some("lunch")
    else if 18 <= hour < 20 then Some("dinner")
    else None
  }

  /** The window loop of `_check_meal_reminders`, which stops at the first window that
      contains the hour. */
  method CurrentMeal(hour: int) returns (meal: Option<string>)
    ensures meal == MealAt(hour)
  {
    meal := None;
    for i := 0 to |MealTimes|
      invariant meal.None? ==> forall j :: 0 <= j < i ==> !(MealTimes[j].1 <= hour < MealTimes[j].2)
      invariant meal.Some? ==> meal == MealAt(hour)
    {
      var (name, startHour, endHour) := MealTimes[i];
      if startHour <= hour < endHour {
        meal := Some(name);
        break;
      }
    }
    if meal.None? {
      assert !(MealTimes[0].1 <= hour < MealTimes[0].2);
      assert !(MealTimes[1].1 <= hour < MealTimes[1].2);
      assert !(MealTimes[2].1 <= hour < MealTimes[2].2);
    }
  }

  /** The meal reminders of one check: every active user with no log of the meal today. */
  function MealReminders(activeUsers: seq<int>, meal: string, loggedToday: set<(int, string)>): (r: seq<Reminder>)
    ensures forall x :: x in r <==> exists u :: u in activeUsers && (u, meal) !in loggedToday && x == MealReminder(u, meal)
  {
    if |activeUsers| == 0 then []
    else
      var u := activeUsers[|activeUsers| - 1];
      var prev := MealReminders(activeUsers[..|activeUsers| - 1], meal, loggedToday);
      assert forall v :: v in activeUsers <==> v in activeUsers[..|activeUsers| - 1] || v == u by {
        assert activeUsers == activeUsers[..|activeUsers| - 1] + [u];
      }
      if (u, meal) !in loggedToday then prev + [MealReminder(u, meal)] else prev
  }

  function WeighInReminders(activeUsers: seq<int>): (r: seq<Reminder>)
    ensures |r| == |activeUsers| && forall k :: 0 <= k < |r| ==> r[k] == WeighInReminder(activeUsers[k])
  {
    seq(|activeUsers|, k requires 0 <= k < |activeUsers| => WeighInReminder(activeUsers[k]))
  }

  /** The decimal form of an integer, as `f"{n}"` writes it. */
  function Decimal(n: int): (s: string)
    ensures |s| > 0
    decreases if n < 0 then 1 - n else n
  {
    if n < 0 then "-" + Decimal(-n)
    else if n < 10 then [('0' as int + n) as char]
    else Decimal(n / 10) + [('0' as int + n % 10) as char]
  }

  /** `strftime('%H:%M')`. */
  function ClockText(hour: Hour, minute: Minute): (s: string)
    ensures |s| == 5 && s[2] == ':'
  {
    TwoDigits(hour) + ":" + TwoDigits(minute)
  }

  function TwoDigits(n: int): (s: string)
    requires 0 <= n < 100
    ensures |s| == 2 && IsDigit(s[0]) && IsDigit(s[1])
  {
    [('0' as int + n / 10) as char, ('0' as int + n % 10) as char]
  }

  /** The key of a user's custom reminder of one type. */
  function JobId(userId: int, kind: string): (id: string)
    ensures StartsWith(id, "custom_reminder_")
  {
    "custom_reminder_" + Decimal(userId) + "_" + kind
  }

  /** The ids of the jobs the service starts with, one per periodic check. */
  const PeriodicJobs := {"meal_reminder_check", "weekly_reminder_check", "notification_cleanup"}

  /** The entries of one user, in the dictionary's order. */
  function EntriesOf(order: seq<string>, entries: map<string, CustomJob>, jobs: set<string>, userId: int): (r: seq<UserReminder>)
    requires forall k :: 0 <= k < |order| ==> order[k] in entries
    ensures |r| <= |order|
    ensures forall x :: x in r ==> x.id in entries && entries[x.id].userId == userId && x.active == (x.id in jobs)
    ensures forall x :: x in r ==> x.id in order && x.kind == entries[x.id].kind
    ensures forall k :: 0 <= k < |order| && entries[order[k]].userId == userId ==> exists x :: x in r && x.id == order[k]
  {
    if |order| == 0 then []
    else
      var id := order[|order| - 1];
      var prev := EntriesOf(order[..|order| - 1], entries, jobs, userId);
      var e := entries[id];
      if e.userId == userId then prev + [UserReminder(id, e.kind, ClockText(e.hour, e.minute), id in jobs)]
      else prev
  }

  /** The positions in the key order of one user's entries. */
  function UserPositions(order: seq<string>, entries: map<string, CustomJob>, userId: int): (p: seq<nat>)
    requires forall k :: 0 <= k < |order| ==> order[k] in entries
    ensures forall a :: 0 <= a < |p| ==> p[a] < |order|
  {
    if |order| == 0 then []
    else
      var n := |order| - 1;
      UserPositions(order[..n], entries, userId) + (if entries[order[n]].userId == userId then [n] else [])
  }

  /** The positions only grow. */
  predicate Increasing(p: seq<nat>) {
    forall a, b :: 0 <= a < b < |p| ==> p[a] < p[b]
  }

  /** The entries follow the key order: the a-th entry is the key at the a-th of the user's
      positions, and those positions increase. */
  lemma EntriesFollowOrder(order: seq<string>, entries: map<string, CustomJob>, jobs: set<string>, userId: int)
    requires forall k :: 0 <= k < |order| ==> order[k] in entries
    ensures var r := EntriesOf(order, entries, jobs, userId); var p := UserPositions(order, entries, userId);
      |p| == |r| && Increasing(p) && forall a :: 0 <= a < |r| ==> order[p[a]] == r[a].id
  {
    PositionsIncreasing(order, entries, userId);
    EntriesAtPositions(order, entries, jobs, userId);
  }

  /** The user's positions only grow. */
  lemma {:induction false} PositionsIncreasing(order: seq<string>, entries: map<string, CustomJob>, userId: int)
    requires forall k :: 0 <= k < |order| ==> order[k] in entries
    ensures Increasing(UserPositions(order, entries, userId))
  {
    if |order| > 0 {
      var n := |order| - 1;
      PositionsIncreasing(order[..n], entries, userId);
      var pp := UserPositions(order[..n], entries, userId);
      if entries[order[n]].userId == userId {
        var p := UserPositions(order, entries, userId);
        assert p == pp + [n];
        forall a, b | 0 <= a < b < |p| ensures p[a] < p[b] {
          if b == |pp| {
            assert pp[a] < n;
          } else {
            assert p[a] == pp[a] && p[b] == pp[b];
          }
        }
      }
    }
  }

  /** The a-th entry is the key at the a-th position. */
  lemma {:induction false} EntriesAtPositions(order: seq<string>, entries: map<string, CustomJob>, jobs: set<string>, userId: int)
    requires forall k :: 0 <= k < |order| ==> order[k] in entries
    ensures var r := EntriesOf(order, entries, jobs, userId); var p := UserPositions(order, entries, userId);
      |p| == |r| && forall a :: 0 <= a < |r| ==> order[p[a]] == r[a].id
  {
    if |order| > 0 {
      var n := |order| - 1;
      EntriesAtPositions(order[..n], entries, jobs, userId);
      var r := EntriesOf(order, entries, jobs, userId);
      var prev := EntriesOf(order[..n], entries, jobs, userId);
      var p := UserPositions(order, entries, userId);
      var pp := UserPositions(order[..n], entries, userId);
      var e := entries[order[n]];
      if e.userId == userId {
        assert p == pp + [n];
        assert r == prev + [UserReminder(order[n], e.kind, ClockText(e.hour, e.minute), order[n] in jobs)];
        forall a | 0 <= a < |r| ensures order[p[a]] == r[a].id {
          if a < |pp| {
            assert p[a] == pp[a] && r[a] == prev[a];
            assert order[pp[a]] == order[..n][pp[a]];
          }
        }
      } else {
        assert p == pp && r == prev;
        forall a | 0 <= a < |r| ensures order[p[a]] == r[a].id {
          assert order[pp[a]] == order[..n][pp[a]];
        }
      }
    }
  }

  /** With distinct keys no entry repeats. */
  lemma EntriesDistinct(order: seq<string>, entries: map<string, CustomJob>, jobs: set<string>, userId: int)
    requires Distinct(order) && forall k :: 0 <= k < |order| ==> order[k] in entries
    ensures var r := EntriesOf(order, entries, jobs, userId);
      forall a, b :: 0 <= a < b < |r| ==> r[a].id != r[b].id
  {
    EntriesFollowOrder(order, entries, jobs, userId);
  }

  /** Removing a key from the dictionary and from its key order keeps the two in step. */
  lemma WithoutKeepsOrder(order: seq<string>, entries: map<string, CustomJob>, id: string)
    requires Distinct(order) && (forall x :: x in entries <==> x in order)
    ensures var r := Without(order, id);
      Distinct(r) && (forall x :: x in entries - {id} <==> x in r) &&
      forall k :: 0 <= k < |r| ==> r[k] in entries - {id}
  {
    var r := Without(order, id);
    forall k | 0 <= k < |r| ensures r[k] in entries - {id} {
      assert r[k] in r;
    }
  }

  /** Removing a key that is not there changes nothing. */
  lemma {:induction false} WithoutAbsent(order: seq<string>, id: string)
    requires id !in order
    ensures Without(order, id) == order
  {
    if |order| > 0 {
      var n := |order| - 1;
      assert order == order[..n] + [order[n]];
      WithoutAbsent(order[..n], id);
    }
  }

  /** Removing the same key twice is removing it once. */
  lemma WithoutTwice(order: seq<string>, id: string)
    ensures Without(Without(order, id), id) == Without(order, id)
  {
    WithoutAbsent(Without(order, id), id);
  }

  function Without(order: seq<string>, id: string): (r: seq<string>)
    ensures forall x :: x in r <==> x in order && x != id
    ensures Distinct(order) ==> Distinct(r)
  {
    if |order| == 0 then []
    else
      var prev := Without(order[..|order| - 1], id);
      var last := order[|order| - 1];
      assert forall x :: x in order <==> x in order[..|order| - 1] || x == last by {
        assert order == order[..|order| - 1] + [last];
      }
      if last == id then prev
      else
        assert Distinct(order) ==> last !in order[..|order| - 1] && Distinct(order[..|order| - 1]);
        prev + [last]
  }

  predicate Distinct(order: seq<string>)
  {
    forall i, j :: 0 <= i < j < |order| ==> order[i] != order[j]
  }

  /** `ReminderScheduler`: the background scheduler (if one was given), its job ids, the
      custom reminders with their keys in insertion order, and the reminders sent. */
  class Scheduler {
    const hasScheduler: bool
    var jobs: set<string>
    var reminderJobs: map<string, CustomJob>
    var order: seq<string>
    var sent: seq<Reminder>

    /** The dictionary's keys are the listed ones, each once. */
    ghost predicate Valid()
      reads this
    {
      Distinct(order) && (forall id :: id in reminderJobs <==> id in order) &&
      forall k :: 0 <= k < |order| ==> order[k] in reminderJobs
    }

    constructor(hasScheduler: bool)
      ensures Valid() && this.hasScheduler == hasScheduler
      ensures jobs == {} && reminderJobs == map[] && order == [] && sent == []
    {
      this.hasScheduler := hasScheduler;
      jobs := {};
      reminderJobs := map[];
      order := [];
      sent := [];
    }

    /** `start`: registers the three periodic checks; without a scheduler it does nothing. */
    method Start()
      modifies this
      ensures jobs == if hasScheduler then old(jobs) + PeriodicJobs else old(jobs)
      ensures reminderJobs == old(reminderJobs) && order == old(order) && sent == old(sent)
    {
      if !hasScheduler {
        return;
      }
      jobs := jobs + {"meal_reminder_check"};
      jobs := jobs + {"weekly_reminder_check"};
      jobs := jobs + {"notification_cleanup"};
    }

    /** `_check_meal_reminders` at the given hour: inside a meal window, a reminder for that
        meal to every active user who has not logged it today; outside, nothing. */
    method CheckMealReminders(hour: Hour, activeUsers: seq<int>, loggedToday: set<(int, string)>)
      modifies this
      ensures MealAt(hour).None? ==> sent == old(sent)
      ensures MealAt(hour).Some? ==> sent == old(sent) + MealReminders(activeUsers, MealAt(hour).value, loggedToday)
      ensures jobs == old(jobs) && reminderJobs == old(reminderJobs) && order == old(order)
    {
      var meal := CurrentMeal(hour);
      if meal.None? {
        return;
      }
      for i := 0 to |activeUsers|
        invariant sent == old(sent) + MealReminders(activeUsers[..i], meal.value, loggedToday)
        invariant jobs == old(jobs) && reminderJobs == old(reminderJobs) && order == old(order)
      {
        assert activeUsers[..i + 1][..i] == activeUsers[..i];
        if (activeUsers[i], meal.value) !in loggedToday {
          sent := sent + [MealReminder(activeUsers[i], meal.value)];
        }
      }
      assert activeUsers[..|activeUsers|] == activeUsers;
    }

    /** `_check_weekly_reminders`: a weigh-in reminder to every active user. */
    method CheckWeeklyReminders(activeUsers: seq<int>)
      modifies this
      ensures sent == old(sent) + WeighInReminders(activeUsers)
      ensures jobs == old(jobs) && reminderJobs == old(reminderJobs) && order == old(order)
    {
      for i := 0 to |activeUsers|
        invariant sent == old(sent) + WeighInReminders(activeUsers[..i])
        invariant jobs == old(jobs) && reminderJobs == old(reminderJobs) && order == old(order)
      {
        assert WeighInReminders(activeUsers[..i + 1]) == WeighInReminders(activeUsers[..i]) + [WeighInReminder(activeUsers[i])];
        sent := sent + [WeighInReminder(activeUsers[i])];
      }
      assert activeUsers[..|activeUsers|] == activeUsers;
    }

    /** `schedule_custom_reminder`: only 'water' and 'meal' are accepted, and only with a
        scheduler (without one the job cannot be added); the entry is stored under its key,
        replacing an earlier one, and every other entry stays. */
    method ScheduleCustomReminder(userId: int, kind: string, hour: Hour, minute: Minute) returns (ok: bool)
      requires Valid()
      modifies this
      ensures Valid()
      ensures ok <==> hasScheduler && (kind == "water" || kind == "meal")
      ensures ok ==> reminderJobs == old(reminderJobs)[JobId(userId, kind) := CustomJob(userId, kind, hour, minute)] &&
                     jobs == old(jobs) + {JobId(userId, kind)}
      ensures ok ==> order == if JobId(userId, kind) in old(reminderJobs) then old(order)
                              else old(order) + [JobId(userId, kind)]
      ensures !ok ==> reminderJobs == old(reminderJobs) && jobs == old(jobs) && order == old(order)
      ensures sent == old(sent)
    {
      var jobId := JobId(userId, kind);
      if kind != "water" && kind != "meal" {
        return false;
      }
      if !hasScheduler {
        return false;
      }
      jobs := jobs + {jobId};
      if jobId !in reminderJobs {
        order := order + [jobId];
      }
      reminderJobs := reminderJobs[jobId := CustomJob(userId, kind, hour, minute)];
      return true;
    }

    /** `cancel_custom_reminder`: removes that one key (a second call changes nothing more)
        and answers True; without a scheduler it fails before removing anything. */
    method CancelCustomReminder(userId: int, kind: string) returns (ok: bool)
      requires Valid()
      modifies this
      ensures Valid()
      ensures ok == hasScheduler
      ensures ok ==> reminderJobs == old(reminderJobs) - {JobId(userId, kind)} &&
                     jobs == old(jobs) - {JobId(userId, kind)}
      ensures ok ==> order == Without(old(order), JobId(userId, kind))
      ensures !ok ==> reminderJobs == old(reminderJobs) && jobs == old(jobs) && order == old(order)
      ensures sent == old(sent)
    {
      if !hasScheduler {
        return false;
      }
      var jobId := JobId(userId, kind);
      var jobs', entries', order' := jobs, reminderJobs, order;
      if jobId in jobs {
        jobs' := jobs - {jobId};
      }
      if jobId in reminderJobs {
        WithoutKeepsOrder(order, reminderJobs, jobId);
        entries' := reminderJobs - {jobId};
        order' := Without(order, jobId);
      } else {
        assert reminderJobs - {jobId} == reminderJobs;
        WithoutAbsent(order, jobId);
      }
      jobs, reminderJobs, order := jobs', entries', order';
      return true;
    }

    /** `get_user_reminders`: the entries of that user, in the dictionary's order, each
        marked active when its job is still scheduled. */
    method GetUserReminders(userId: int) returns (r: seq<UserReminder>)
      requires Valid()
      ensures r == EntriesOf(order, reminderJobs, jobs, userId)
    {
      r := [];
      for i := 0 to |order|
        invariant r == EntriesOf(order[..i], reminderJobs, jobs, userId)
      {
        assert order[..i + 1][..i] == order[..i];
        var info := reminderJobs[order[i]];
        if info.userId == userId {
          r := r + [UserReminder(order[i], info.kind, ClockText(info.hour, info.minute), order[i] in jobs)];
        }
      }
      assert order[..|order|] == order;
    }

    /** `send_immediate_reminder`: 'water', 'weigh_in', or a 'meal_' type whose meal is the
        type with every 'meal_' removed; anything else sends nothing and answers False. */
    method SendImmediateReminder(userId: int, kind: string) returns (ok: bool)
      modifies this
      ensures ok <==> kind == "water" || kind == "weigh_in" || StartsWith(kind, "meal_")
      ensures kind == "water" ==> sent == old(sent) + [WaterReminder(userId)]
      ensures kind == "weigh_in" ==> sent == old(sent) + [WeighInReminder(userId)]
      ensures kind != "water" && kind != "weigh_in" && StartsWith(kind, "meal_") ==>
                sent == old(sent) + [MealReminder(userId, ReplaceAll(kind, "meal_", ""))]
      ensures !ok ==> sent == old(sent)
      ensures jobs == old(jobs) && reminderJobs == old(reminderJobs) && order == old(order)
    {
      if kind == "water" {
        sent := sent + [WaterReminder(userId)];
      } else if kind == "weigh_in" {
        sent := sent + [WeighInReminder(userId)];
      } else if StartsWith(kind, "meal_") {
        sent := sent + [MealReminder(userId, ReplaceAll(kind, "meal_", ""))];
      } else {
        return false;
      }
      return true;
    }
  }

  /** The module-level `reminder_scheduler` global. */
  class Registry {
    var instance: Scheduler?

    constructor()
      ensures instance == null
    {
      instance := null;
    }

    /** `init_reminder_scheduler`: the first call creates and starts the instance, every
        later call returns that same instance untouched. */
    method InitReminderScheduler(hasScheduler: bool) returns (s: Scheduler)
      modifies this
      ensures old(instance) != null ==> s == old(instance) && instance == old(instance)
      ensures old(instance) == null ==> fresh(s) && instance == s && s.Valid() && s.hasScheduler == hasScheduler &&
                                        s.reminderJobs == map[] && s.sent == [] &&
                                        s.jobs == if hasScheduler then PeriodicJobs else {}
    {
      if instance == null {
        s := new Scheduler(hasScheduler);
        s.Start();
        instance := s;
      } else {
        s := instance;
      }
    }
  }

  /** The meal of a `meal_` type: what follows the prefix, when it holds no further
      `meal_`. */
  lemma MealOfType(rest: string)
    requires !Contains(rest, "meal_")
    ensures ReplaceAll("meal_" + rest, "meal_", "") == rest
  {
    assert ("meal_" + rest)[|"meal_"|..] == rest;
    assert StartsWith("meal_" + rest, "meal_");
    ReplaceAbsent(rest, "meal_", "");
  }

  /** The water and meal keys of a user never collide. */
  lemma DistinctKinds(userId: int)
    ensures JobId(userId, "water") != JobId(userId, "meal")
  {
    var d := Decimal(userId);
    var n := |"custom_reminder_" + d + "_"|;
    assert JobId(userId, "water")[n] == 'w';
    assert JobId(userId, "meal")[n] == 'm';
  }
}

=== FILE: strings.dfy ===
/** Character and string helpers with Python `str` semantics, restricted to ASCII:
    lower-casing, whitespace stripping, substring search, splitting, replacing and
    title-casing as the services use them. */
module Strings {

  import opened Common

  predicate IsDigit(c: char) { '0' <= c <= '9' }

  predicate IsUpper(c: char) { 'A' <= c <= 'Z' }

  predicate IsLowerLetter(c: char) { 'a' <= c <= 'z' }

  predicate IsLetter(c: char) { IsUpper(c) || IsLowerLetter(c) }

  /** Python's `str.isspace` on ASCII: space, tab, line feed, vertical tab, form feed,
      carriage return and the four information separators 28-31. */
  predicate IsSpace(c: char) {
    c == ' ' || (9 <= c as int <= 13) || (28 <= c as int <= 31)
  }

  /** A "word" character of a regular expression (`\w`) on ASCII. */
  predicate IsWordChar(c: char) { IsLetter(c) || IsDigit(c) || c == '_' }

  function LowerChar(c: char): (r: char)
    ensures IsUpper(c) ==> IsLowerLetter(r) && r as int == c as int + 32
    ensures !IsUpper(c) ==> r == c
  {
    if IsUpper(c) then (c as int + 32) as char else c
  }

  function UpperChar(c: char): (r: char)
    ensures IsLowerLetter(c) ==> IsUpper(r) && r as int == c as int - 32
    ensures !IsLowerLetter(c) ==> r == c
  {
    if IsLowerLetter(c) then (c as int - 32) as char else c
  }

  /** `s.lower()`. */
  function Lower(s: string): (r: string)
    ensures |r| == |s|
    ensures forall i :: 0 <= i < |s| ==> r[i] == LowerChar(s[i])
  {
    seq(|s|, i requires 0 <= i < |s| => LowerChar(s[i]))
  }

  /** `s.title()`: a letter is upper-cased when it does not follow a letter and
      lower-cased when it does. */
  function Title(s: string): (r: string)
    ensures |r| == |s|
    ensures forall i :: 0 <= i < |s| && (i == 0 || !IsLetter(s[i - 1])) ==> r[i] == UpperChar(s[i])
    ensures forall i :: 0 < i < |s| && IsLetter(s[i - 1]) ==> r[i] == LowerChar(s[i])
  {
    seq(|s|, i requires 0 <= i < |s| => TitleChar(s, i))
  }

  function TitleChar(s: string, i: nat): char
    requires i < |s|
  {
    if i == 0 || !IsLetter(s[i - 1]) then UpperChar(s[i]) else LowerChar(s[i])
  }

  predicate StartsWith(s: string, prefix: string) {
    |prefix| <= |s| && s[..|prefix|] == prefix
  }

  /** Index of the first occurrence of `sub` in `s` at or after `from`. */
  function FindFrom(s: string, sub: string, from: nat): (r: Option<nat>)
    requires from <= |s|
    decreases |s| - from
    ensures r.Some? ==> from <= r.value <= |s| && StartsWith(s[r.value..], sub)
    ensures r.Some? ==> forall j :: from <= j < r.value ==> !StartsWith(s[j..], sub)
    ensures r.None? ==> forall j :: from <= j <= |s| ==> !StartsWith(s[j..], sub)
  {
    if StartsWith(s[from..], sub) then Some(from)
    else if from == |s| then None
    else FindFrom(s, sub, from + 1)
  }

  /** Index of the first occurrence of `sub` in `s` (`s.find(sub)`). */
  function Find(s: string, sub: string): (r: Option<nat>)
    ensures r.Some? ==> r.value <= |s| && StartsWith(s[r.value..], sub)
    ensures r.Some? ==> forall j :: 0 <= j < r.value ==> !StartsWith(s[j..], sub)
    ensures r.None? ==> forall j :: 0 <= j <= |s| ==> !StartsWith(s[j..], sub)
  {
    FindFrom(s, sub, 0)
  }

  /** The first index of `c` in `s`. */
  function IndexOf(s: string, c: char): (r: Option<nat>)
    ensures r.Some? ==> r.value < |s| && s[r.value] == c && c !in s[..r.value]
    ensures r.None? ==> c !in s
  {
    if |s| == 0 then None
    else if s[0] == c then Some(0)
    else match IndexOf(s[1..], c)
      case Some(i) => assert s[1..][..i] == s[1..i + 1]; Some(i + 1)
      case None => None
  }

  /** The last index of `c` in `s`. */
  function LastIndexOf(s: string, c: char): (r: Option<nat>)
    ensures r.Some? ==> r.value < |s| && s[r.value] == c && c !in s[r.value + 1..]
    ensures r.None? ==> c !in s
  {
    if |s| == 0 then None
    else if s[|s| - 1] == c then Some(|s| - 1)
    else match LastIndexOf(s[..|s| - 1], c)
      case Some(i) => assert s[i + 1..] == s[..|s| - 1][i + 1..] + [s[|s| - 1]]; Some(i)
      case None => None
  }

  /** A `c` with none before it is the first one. */
  lemma {:induction false} IndexOfAt(s: string, c: char, i: nat)
    requires i < |s| && s[i] == c && c !in s[..i]
    ensures IndexOf(s, c) == Some(i)
  {
    if i > 0 {
      assert s[0] == s[..i][0];
      assert s[1..][..i - 1] == s[1..i];
      IndexOfAt(s[1..], c, i - 1);
    }
  }

  /** A `c` with none after it is the last one. */
  lemma {:induction false} LastIndexOfAt(s: string, c: char, i: nat)
    requires i < |s| && s[i] == c && c !in s[i + 1..]
    ensures LastIndexOf(s, c) == Some(i)
  {
    if i < |s| - 1 {
      assert s[|s| - 1] == s[i + 1..][|s| - 2 - i];
      assert s[..|s| - 1][i + 1..] == s[i + 1..|s| - 1];
      LastIndexOfAt(s[..|s| - 1], c, i);
    }
  }

  /** `sub in s`. */
  predicate Contains(s: string, sub: string)
    decreases |s|
  {
    StartsWith(s, sub) || (|s| > 0 && Contains(s[1..], sub))
  }

  /** An occurrence at any position makes `sub in s` true. */
  lemma {:induction false} ContainsAt(s: string, sub: string, i: nat)
    requires i <= |s| && StartsWith(s[i..], sub)
    decreases i
    ensures Contains(s, sub)
  {
    if i > 0 {
      assert s[1..][i - 1..] == s[i..];
      ContainsAt(s[1..], sub, i - 1);
    } else {
      assert s[i..] == s;
    }
  }

  /** A substring whose first character does not occur in the text does not occur in it. */
  lemma {:induction false} FirstCharAbsent(s: string, sub: string)
    requires |sub| > 0 && sub[0] !in s
    decreases |s|
    ensures !Contains(s, sub)
  {
    if |s| > 0 {
      assert s[0] != sub[0];
      FirstCharAbsent(s[1..], sub);
    }
  }

  /** A substring longer than the text does not occur in it. */
  lemma {:induction false} LongerAbsent(s: string, sub: string)
    requires |sub| > |s|
    decreases |s|
    ensures !Contains(s, sub)
  {
    if |s| > 0 {
      LongerAbsent(s[1..], sub);
    }
  }

  /** `s.split(sep)[0]`: everything before the first occurrence of `sep`. */
  function Before(s: string, sep: string): (r: string)
    requires |sep| > 0
    ensures |r| <= |s|
  {
    if |s| == 0 || StartsWith(s, sep) then [] else [s[0]] + Before(s[1..], sep)
  }

  /** What `Before` keeps is a prefix of the text, and is all of it when `sep` does not occur. */
  lemma {:induction false} BeforeIsPrefix(s: string, sep: string)
    requires |sep| > 0
    ensures Before(s, sep) == s[..|Before(s, sep)|]
    ensures !Contains(s, sep) ==> Before(s, sep) == s
  {
    if |s| > 0 && !StartsWith(s, sep) {
      BeforeIsPrefix(s[1..], sep);
    } else if |s| > 0 {
      assert s[0..] == s;
      ContainsAt(s, sep, 0);
    }
  }

  /** A one-character separator never occurs in what comes before it. */
  lemma {:induction false} BeforeExcludes(s: string, c: char)
    ensures c !in Before(s, [c])
  {
    if |s| > 0 && !StartsWith(s, [c]) {
      BeforeExcludes(s[1..], c);
      assert s[0] != c by { assert s[..1] == [s[0]]; }
    }
  }

  /** `s.split(c)` for a one-character separator. */
  function Split(s: string, c: char): (r: seq<string>)
    decreases |s|
    ensures |r| >= 1
    ensures forall k :: 0 <= k < |r| ==> c !in r[k]
  {
    match Find(s, [c])
    case None =>
      assert forall j :: 0 <= j < |s| ==> s[j] != c by {
        forall j | 0 <= j < |s| ensures s[j] != c {
          assert !StartsWith(s[j..], [c]);
        }
      }
      [s]
    case Some(i) =>
      assert forall j :: 0 <= j < i ==> s[j] != c by {
        forall j | 0 <= j < i ensures s[j] != c {
          assert !StartsWith(s[j..], [c]);
        }
      }
      assert i < |s|;
      [s[..i]] + Split(s[i + 1..], c)
  }

  /** Splitting on a character that does not occur gives the text itself. */
  lemma SplitWithout(s: string, c: char)
    requires c !in s
    ensures Split(s, c) == [s]
  {
    forall j | 0 <= j <= |s|
      ensures !StartsWith(s[j..], [c])
    {
      if j < |s| {
        assert s[j..][0] == s[j];
      }
    }
  }

  function TrimStart(s: string): (r: string)
    ensures |r| <= |s| && r == s[|s| - |r|..]
    ensures r == [] || !IsSpace(r[0])
    ensures forall k :: 0 <= k < |s| - |r| ==> IsSpace(s[k])
  {
    if |s| > 0 && IsSpace(s[0]) then TrimStart(s[1..]) else s
  }

  function TrimEnd(s: string): (r: string)
    ensures |r| <= |s| && r == s[..|r|]
    ensures r == [] || !IsSpace(r[|r| - 1])
    ensures forall k :: |r| <= k < |s| ==> IsSpace(s[k])
  {
    if |s| > 0 && IsSpace(s[|s| - 1]) then TrimEnd(s[..|s| - 1]) else s
  }

  /** `s.strip()`. */
  function Strip(s: string): (r: string)
    ensures |r| <= |s|
    ensures r == [] || (!IsSpace(r[0]) && !IsSpace(r[|r| - 1]))
  {
    if |s| > 0 && IsSpace(s[0]) then Strip(s[1..]) else TrimEnd(s)
  }

  /** Stripping only removes characters. */
  lemma {:induction false} StripKeeps(s: string)
    decreases |s|
    ensures forall c :: c in Strip(s) ==> c in s
  {
    if |s| > 0 && IsSpace(s[0]) {
      StripKeeps(s[1..]);
      assert forall c :: c in s[1..] ==> c in s;
    } else {
      var u := TrimEnd(s);
      forall c | c in u
        ensures c in s
      {
        var k :| 0 <= k < |u| && u[k] == c;
        assert s[k] == c;
      }
    }
  }

  /** `s.rstrip(c)`. */
  function TrimEndChar(s: string, c: char): (r: string)
    ensures |r| <= |s| && r == s[..|r|]
    ensures r == [] || r[|r| - 1] != c
    ensures forall k :: |r| <= k < |s| ==> s[k] == c
  {
    if |s| > 0 && s[|s| - 1] == c then TrimEndChar(s[..|s| - 1], c) else s
  }

  /** `s.lstrip(c)`. */
  function TrimStartChar(s: string, c: char): (r: string)
    ensures |r| <= |s| && r == s[|s| - |r|..]
    ensures r == [] || r[0] != c
    ensures forall k :: 0 <= k < |s| - |r| ==> s[k] == c
  {
    if |s| > 0 && s[0] == c then TrimStartChar(s[1..], c) else s
  }

  /** `s.replace(pattern, replacement)`: every non-overlapping occurrence, from the left. */
  function ReplaceAll(s: string, pattern: string, replacement: string): (r: string)
    requires |pattern| > 0
    decreases |s|
  {
    if |s| == 0 then []
    else if StartsWith(s, pattern) then replacement + ReplaceAll(s[|pattern|..], pattern, replacement)
    else [s[0]] + ReplaceAll(s[1..], pattern, replacement)
  }

  /** Replacing a pattern that does not occur changes nothing. */
  lemma {:induction false} ReplaceAbsent(s: string, pattern: string, replacement: string)
    requires |pattern| > 0 && !Contains(s, pattern)
    ensures ReplaceAll(s, pattern, replacement) == s
  {
    if |s| > 0 {
      assert !StartsWith(s, pattern) by { assert s == s[0..]; }
      ReplaceAbsent(s[1..], pattern, replacement);
    }
  }

  /** The maximal run of digits that starts at `i`, as an end index. */
  function DigitRunEnd(s: string, i: nat): (j: nat)
    requires i <= |s|
    decreases |s| - i
    ensures i <= j <= |s|
    ensures forall k :: i <= k < j ==> IsDigit(s[k])
    ensures j == |s| || !IsDigit(s[j])
  {
    if i < |s| && IsDigit(s[i]) then DigitRunEnd(s, i + 1) else i
  }

  /** The end of the run of whitespace that starts at `i`. */
  function SpaceRunEnd(s: string, i: nat): (j: nat)
    requires i <= |s|
    decreases |s| - i
    ensures i <= j <= |s|
    ensures forall k :: i <= k < j ==> IsSpace(s[k])
    ensures j == |s| || !IsSpace(s[j])
  {
    if i < |s| && IsSpace(s[i]) then SpaceRunEnd(s, i + 1) else i
  }
}

=== FILE: vision_classifier.dfy ===
/** The fallback vision classifier: a fixed list of Food-101 labels, a fixed ImageNet-to-food
    table, and a mock classification whose only freedom is the portion text it picks. */
module VisionClassifier {

  import opened Common
  import opened Strings
  import opened Records

  /** The Food-101 labels, in the order the classifier loads them. */
  const FoodClasses: seq<string> := [
    "apple_pie", "baby_back_ribs", "baklava", "beef_carpaccio", "beef_tartare",
    "beet_salad", "beignets", "bibimbap", "bread_pudding", "breakfast_burrito",
    "bruschetta", "caesar_salad", "cannoli", "caprese_salad", "carrot_cake",
    "ceviche", "cheese_plate", "cheesecake", "chicken_curry", "chicken_quesadilla",
    "chicken_wings", "chocolate_cake", "chocolate_mousse", "churros", "clam_chowder",
    "club_sandwich", "crab_cakes", "creme_brulee", "croque_madame", "cup_cakes",
    "deviled_eggs", "donuts", "dumplings", "edamame", "eggs_benedict",
    "escargots", "falafel", "filet_mignon", "fish_and_chips", "foie_gras",
    "french_fries", "french_onion_soup", "french_toast", "fried_calamari", "fried_rice",
    "frozen_yogurt", "garlic_bread", "gnocchi", "greek_salad", "grilled_cheese_sandwich",
    "grilled_salmon", "guacamole", "gyoza", "hamburger", "hot_and_sour_soup",
    "hot_dog", "huevos_rancheros", "hummus", "ice_cream", "lasagna",
    "lobster_bisque", "lobster_roll_sandwich", "macaroni_and_cheese", "macarons", "miso_soup",
    "mussels", "nachos", "omelette", "onion_rings", "oysters",
    "pad_thai", "paella", "pancakes", "panna_cotta", "peking_duck",
    "pho", "pizza", "pork_chop", "poutine", "prime_rib",
    "pulled_pork_sandwich", "ramen", "ravioli", "red_velvet_cake", "risotto",
    "samosa", "sashimi", "scallops", "seaweed_salad", "shrimp_and_grits",
    "spaghetti_bolognese", "spaghetti_carbonara", "spring_rolls", "steak", "strawberry_shortcake",
    "sushi", "tacos", "takoyaki", "tiramisu", "tuna_tartare", "waffles"
  ]

  /** The ImageNet indices with a direct food name. */
  const FoodMappings: map<int, string> := map[
    950 := "lemon", 951 := "orange", 952 := "banana", 953 := "apple", 954 := "strawberry",
    924 := "pizza", 925 := "hamburger", 926 := "hot_dog", 927 := "ice_cream",
    928 := "bagel", 929 := "pretzel", 930 := "sandwich"
  ]

  /** The portion texts the mock classifier chooses from. */
  const Portions: seq<string> := ["50g", "100g", "150g", "200g", "1 cup", "1 slice", "1 piece"]

  /** A label made readable: `label.replace('_', ' ').title()`. */
  function Readable(raw: string): (r: string)
    ensures |r| == |raw|
    ensures '_' !in r
  {
    var spaced := seq(|raw|, i requires 0 <= i < |raw| => if raw[i] == '_' then ' ' else raw[i]);
    var r := Title(spaced);
    assert forall i :: 0 <= i < |r| ==> r[i] != '_' by {
      forall i | 0 <= i < |r| ensures r[i] != '_' {
        assert spaced[i] != '_';
      }
    }
    r
  }

  /** The classifier object: its labels and whether the model is initialised. */
  class Classifier {
    const foodClasses: seq<string>
    var initialized: bool

    /** `VisionClassifier()`: loads the labels and marks the model initialised. */
    constructor ()
      ensures foodClasses == FoodClasses && initialized
    {
      foodClasses := FoodClasses;
      initialized := true;
    }

    /** `_initialize_model`. */
    method InitializeModel() returns (ok: bool)
      modifies this
      ensures initialized && ok
    {
      initialized := true;
      ok := true;
    }

    /** `is_available`. */
    predicate IsAvailable()
      reads this
    {
      initialized
    }

    /** `_map_imagenet_to_food`: a direct mapping first, then any index below the label
        count indexes the labels with Python's wrap-around for negative indices. */
    function MapImagenetToFood(idx: int): (r: Option<string>)
      requires |foodClasses| > 0
      ensures idx in FoodMappings ==> r == Some(FoodMappings[idx])
      ensures idx !in FoodMappings && idx < |foodClasses| ==>
                r == Some(Readable(foodClasses[idx % |foodClasses|]))
      ensures idx !in FoodMappings && idx >= |foodClasses| ==> r.None?
    {
      if idx in FoodMappings then Some(FoodMappings[idx])
      else if idx < |foodClasses| then Some(Readable(foodClasses[idx % |foodClasses|]))
      else None
    }
  }

  /** A freshly constructed classifier is available. */
  method AvailableAfterConstruction() returns (c: Classifier)
    ensures fresh(c) && c.IsAvailable() && c.foodClasses == FoodClasses
  {
    c := new Classifier();
  }

  lemma LabelCount()
    ensures |FoodClasses| == 101
  {
  }

  /** Every index of the two fixed ranges has its table name. */
  lemma TableIndices(c: Classifier, idx: int)
    requires |c.foodClasses| > 0
    requires 924 <= idx <= 930 || 950 <= idx <= 954
    ensures c.MapImagenetToFood(idx) == Some(FoodMappings[idx])
  {
    assert idx in FoodMappings;
  }

  /** An index of a label names that label, a negative index counts from the end of the
      list as Python's modulo does, and an index past the labels outside the table gives
      `None`. */
  lemma LabelIndices(c: Classifier, idx: int)
    requires c.foodClasses == FoodClasses
    ensures 0 <= idx < 101 ==> c.MapImagenetToFood(idx) == Some(Readable(FoodClasses[idx]))
    ensures -101 <= idx < 0 ==> c.MapImagenetToFood(idx) == Some(Readable(FoodClasses[idx + 101]))
    ensures 101 <= idx && idx !in FoodMappings ==> c.MapImagenetToFood(idx) == None
  {
    LabelCount();
    if idx < 101 {
      LowNotMapped(idx);
      if -101 <= idx < 0 {
        assert idx % 101 == idx + 101;
      }
    }
  }

  /** The table has no index below the label count. */
  lemma LowNotMapped(idx: int)
    requires idx < 101
    ensures idx !in FoodMappings
  {
    assert forall k :: k in FoodMappings ==> k >= 924;
  }

  /** `_estimate_portion_from_image`: `random.choice(portions)`, any element of the list. */
  method EstimatePortionFromImage() returns (p: string)
    ensures p in Portions
  {
    assert "50g" in Portions;
    p :| p in Portions;
  }

  /** The three mock items, with the portions the random choice gave them. */
  function MockItems(p1: string, p2: string, p3: string): (r: seq<VisionItem>)
    ensures |r| == 3
  {
    [FullItem("Grilled Chicken", p1, 0.75), FullItem("Mixed Vegetables", p2, 0.65),
     FullItem("Rice", p3, 0.60)]
  }

  /** What every mock classification looks like: the three fixed items in order, each
      with a portion from the list. */
  predicate IsMockResult(items: seq<VisionItem>) {
    |items| == 3 &&
    items[0].name == Some("Grilled Chicken") && items[0].confidence == Some(0.75) &&
    items[1].name == Some("Mixed Vegetables") && items[1].confidence == Some(0.65) &&
    items[2].name == Some("Rice") && items[2].confidence == Some(0.60) &&
    forall k :: 0 <= k < 3 ==> items[k].portion.Text? && items[k].portion.text in Portions
  }

  /** `_mock_classification`. */
  method MockClassification() returns (items: seq<VisionItem>)
    ensures IsMockResult(items)
    ensures exists p1, p2, p3 :: p1 in Portions && p2 in Portions && p3 in Portions &&
                                 items == MockItems(p1, p2, p3)
  {
    var p1 := EstimatePortionFromImage();
    var p2 := EstimatePortionFromImage();
    var p3 := EstimatePortionFromImage();
    items := MockItems(p1, p2, p3);
  }

  /** `classify_image`: the mock result whether the image opens or not. */
  method ClassifyImage(imageOpens: bool) returns (items: seq<VisionItem>)
    ensures IsMockResult(items)
  {
    if imageOpens {
      items := MockClassification();
    } else {
      items := MockClassification();
    }
  }
}

=== FILE: vision_text_parser.dfy ===
/** `_parse_vision_text_response` of the photo API: turns a vision model's free-text reply
    into at most five `{name, portion, confidence}` items.

    The reply is scanned line by line. A "marker" line starts a new item, portion and
    confidence lines refine the current one, and a keyword fallback finds up to three names
    when no item was found. In the source, the item that is current when a marker line
    cleans to nothing stays current after it was appended to the list, so later lines
    update the appended copy too; the scan state below keeps that sharing explicit. */
module VisionTextParser {

  import opened Common
  import opened Strings
  import opened Numbers
  import opened FallbackPatterns

  /** One parsed item. */
  datatype Item = Item(name: string, portion: string, confidence: real)

  /** The generic item returned when parsing raises. */
  const MixedFood: Item := Item("Mixed Food", "100g", 0.5)

  /** A lower-cased line mentions a food item or looks like a list entry. */
  const MarkerWords: seq<string> := ["food", "dish", "item", "1.", "2.", "3.", "-", "•"]

  predicate IsMarker(lower: string) {
    exists k :: 0 <= k < |MarkerWords| && Contains(lower, MarkerWords[k])
  }

  predicate HasPortionWord(lower: string) {
    Contains(lower, "gram") || Contains(lower, "portion") || Contains(lower, "size")
  }

  predicate HasConfidenceWord(lower: string) {
    Contains(lower, "confidence") || Contains(lower, "sure")
  }

  /** A character of the leading list prefix `^[\d\.\-•\s]*`. */
  predicate IsPrefixChar(c: char) {
    IsDigit(c) || c == '.' || c == '-' || c == '•' || IsSpace(c)
  }

  function StripListPrefix(s: string): (r: string)
    ensures |r| <= |s| && r == s[|s| - |r|..]
    ensures r == [] || !IsPrefixChar(r[0])
  {
    if |s| > 0 && IsPrefixChar(s[0]) then StripListPrefix(s[1..]) else s
  }

  /** The end of the run of whitespace and ':' that starts at `i`. */
  function SpaceColonRunEnd(s: string, i: nat): (j: nat)
    requires i <= |s|
    decreases |s| - i
    ensures i <= j <= |s|
  {
    if i < |s| && (IsSpace(s[i]) || s[i] == ':') then SpaceColonRunEnd(s, i + 1) else i
  }

  /** `re.sub(r'(food|dish|item)[\s:]*', '', s, flags=re.IGNORECASE)`: every occurrence of
      the three words, with the whitespace and colons after it, is deleted in one pass. */
  function RemoveItemWords(s: string): (r: string)
    decreases |s|
    ensures |r| <= |s|
  {
    if |s| == 0 then []
    else if WordAt(s, 0, "food") || WordAt(s, 0, "dish") || WordAt(s, 0, "item") then
      RemoveItemWords(s[SpaceColonRunEnd(s, 4)..])
    else [s[0]] + RemoveItemWords(s[1..])
  }

  /** The name a marker line yields: `clean.split(',')[0].split('(')[0].strip()`. */
  function NameOf(clean: string): (r: string)
    ensures ',' !in r && '(' !in r
    ensures r == [] || (!IsSpace(r[0]) && !IsSpace(r[|r| - 1]))
  {
    var a := Before(clean, ",");
    var b := Before(a, "(");
    BeforeExcludes(a, '(');
    assert ',' !in b by {
      BeforeExcludes(clean, ',');
      BeforeIsPrefix(a, "(");
    }
    StripKeeps(b);
    Strip(b)
  }

  /** `re.search(r'(\d+)\s*(g|gram|grams)', s).group(1)` searched from `i`: the first digit
      run that is followed, after optional whitespace, by a 'g'. */
  function GramDigitsFrom(s: string, i: nat): (r: Option<string>)
    requires i <= |s|
    decreases |s| - i
    ensures r.Some? ==> |r.value| > 0 && AllDigits(r.value)
  {
    if i == |s| then None
    else if IsDigit(s[i]) && SpaceRunEnd(s, DigitRunEnd(s, i)) < |s|
                          && s[SpaceRunEnd(s, DigitRunEnd(s, i))] == 'g' then
      Some(s[i..DigitRunEnd(s, i)])
    else GramDigitsFrom(s, i + 1)
  }

  /** A confidence above 1 is read as a percentage; the result is clamped to [0, 1]. */
  function NormalizeConfidence(c: real): (r: real)
    requires c >= 0.0
    ensures 0.0 <= r <= 1.0
    ensures c <= 1.0 ==> r == c
    ensures c > 1.0 ==> r == MinReal(1.0, c / 100.0)
  {
    Clamp(if c > 1.0 then c / 100.0 else c, 0.0, 1.0)
  }

  /** The scan state: the items appended so far, the current item (`{}` is `None`), and how
      many of the last appended items are the current item itself. */
  datatype ScanState = ScanState(items: seq<Item>, current: Option<Item>, shared: nat)

  const Initial: ScanState := ScanState([], None, 0)

  /** The last `shared` items are the current item. */
  predicate Coherent(st: ScanState) {
    st.shared <= |st.items| &&
    (st.shared > 0 ==> st.current.Some?) &&
    forall j :: |st.items| - st.shared <= j < |st.items| ==> st.items[j] == st.current.value
  }

  /** Replaces the current item, and with it every appended copy that is the same object. */
  function Update(st: ScanState, it: Item): (r: ScanState)
    requires st.shared <= |st.items|
    ensures Coherent(r) && |r.items| == |st.items| && r.shared == st.shared
    ensures r.items[..|st.items| - st.shared] == st.items[..|st.items| - st.shared]
  {
    var keep := |st.items| - st.shared;
    ScanState(st.items[..keep] + seq(st.shared, _ => it), Some(it), st.shared)
  }

  /** What a line is, given whether an item is current. */
  datatype LineKind =
    | Blank
    | Marker(clean: string)
    | PortionLine(digits: Option<string>)
    | ConfidenceLine(number: Option<real>)
    | Other

  /** Classifies one raw line the way the branches of the loop test it, in order. */
  function Classify(raw: string, hasCurrent: bool): (k: LineKind)
    ensures k.ConfidenceLine? && k.number.Some? ==> k.number.value >= 0.0
  {
    var line := Strip(raw);
    var lower := Lower(line);
    if line == [] then Blank
    else if IsMarker(lower) then Marker(RemoveItemWords(StripListPrefix(line)))
    else if hasCurrent && HasPortionWord(lower) then PortionLine(GramDigitsFrom(lower, 0))
    else if hasCurrent && HasConfidenceWord(lower) then ConfidenceLine(FirstNumber(line))
    else Other
  }

  /** A marker line: the current item is appended if it has a name, and a line that cleans
      to some text starts a new current item. */
  function MarkerStep(st: ScanState, clean: string): (r: ScanState)
    requires st.shared <= |st.items|
    ensures r.shared <= |r.items|
  {
    var saved := Saved(st);
    if clean != [] then ScanState(saved.items, Some(Item(NameOf(clean), "100g", 0.7)), 0)
    else saved
  }

  /** The current item, if it has a name, appended to the list (the same object, so one
      more entry shares it). */
  function Saved(st: ScanState): (r: ScanState)
    requires st.shared <= |st.items|
    ensures r.shared <= |r.items|
  {
    if st.current.Some? && st.current.value.name != [] then
      ScanState(st.items + [st.current.value], st.current, st.shared + 1)
    else st
  }

  /** What one line of the reply does to the scan state. */
  function Step(st: ScanState, raw: string): (r: ScanState)
    requires st.shared <= |st.items|
    ensures r.shared <= |r.items|
  {
    match Classify(raw, st.current.Some?)
    case Marker(clean) => MarkerStep(st, clean)
    case PortionLine(Some(d)) => Update(st, st.current.value.(portion := d + "g"))
    case ConfidenceLine(Some(c)) => Update(st, st.current.value.(confidence := NormalizeConfidence(c)))
    case _ => st
  }

  /** The state after scanning `lines` from `st`, first line first. */
  function Scan(lines: seq<string>, st: ScanState): (r: ScanState)
    requires st.shared <= |st.items|
    ensures r.shared <= |r.items|
  {
    if |lines| == 0 then st else Scan(lines[1..], Step(st, lines[0]))
  }

  /** The items once the loop is over: the current item is appended if it has a name. */
  function Finish(st: ScanState): seq<Item> {
    if st.current.Some? && st.current.value.name != [] then st.items + [st.current.value]
    else st.items
  }

  /** The lines of the reply: `text.strip().split('\n')`. */
  function Lines(text: string): seq<string> {
    Split(Strip(text), '\n')
  }

  /** The items of the scanning stage. */
  function Scanned(text: string): seq<Item> {
    Finish(Scan(Lines(text), Initial))
  }

  /** The items kept from a list of fallback matches. */
  function AcceptedItems(ms: seq<string>): (r: seq<Item>)
    ensures |r| <= |ms|
    ensures forall k :: 0 <= k < |r| ==>
      Acceptable(r[k].name) && r[k].portion == "100g" && r[k].confidence == 0.6
  {
    if |ms| == 0 then []
    else
      var last := Cleaned(ms[|ms| - 1]);
      AcceptedItems(ms[..|ms| - 1]) + (if Acceptable(last) then [Item(last, "100g", 0.6)] else [])
  }

  lemma {:induction false} AcceptedItemsAppend(a: seq<string>, b: seq<string>)
    decreases |b|
    ensures AcceptedItems(a + b) == AcceptedItems(a) + AcceptedItems(b)
  {
    if |b| == 0 {
      assert a + b == a;
    } else {
      var b' := b[..|b| - 1];
      assert (a + b)[..|a + b| - 1] == a + b';
      assert (a + b)[|a + b| - 1] == b[|b| - 1];
      AcceptedItemsAppend(a, b');
    }
  }

  /** The keyword fallback: the first three acceptable matches of the three patterns. */
  function FallbackSpec(text: string): (r: seq<Item>)
    ensures |r| <= 3
    ensures forall k :: 0 <= k < |r| ==>
      3 < |r[k].name| < 50 && r[k].portion == "100g" && r[k].confidence == 0.6
  {
    Take(AcceptedItems(MatchesOf(text, 3)), 3)
  }

  /** The parser as intended: scan, fall back when nothing was found, keep at most five. */
  function ParseSpec(text: string): (r: seq<Item>)
    ensures |r| <= 5
  {
    var scanned := Scanned(text);
    Take(if scanned == [] then FallbackSpec(text) else scanned, 5)
  }

  // ---------------------------------------------------------------------------------------
  // The parser on mutable item dictionaries

  /** A parsed item as the mutable dictionary the source builds. */
  class ItemDict {
    var name: string
    var portion: string
    var confidence: real

    constructor (name: string, portion: string, confidence: real)
      ensures this.name == name && this.portion == portion && this.confidence == confidence
    {
      this.name := name;
      this.portion := portion;
      this.confidence := confidence;
    }

    function Value(): Item
      reads this
    {
      Item(name, portion, confidence)
    }
  }

  function Values(ds: seq<ItemDict>): (r: seq<Item>)
    reads ds
    ensures |r| == |ds| && forall j :: 0 <= j < |ds| ==> r[j] == ds[j].Value()
  {
    seq(|ds|, j reads ds requires 0 <= j < |ds| => ds[j].Value())
  }

  /** The dictionaries hold the scan state: the appended list, the current item, and the
      sharing of the current item by the last `st.shared` entries of the list. */
  predicate Mirrors(dicts: seq<ItemDict>, current: ItemDict?, st: ScanState)
    reads dicts, current
  {
    st.shared <= |st.items| && |dicts| == |st.items| &&
    (forall j :: 0 <= j < |dicts| ==> dicts[j].Value() == st.items[j]) &&
    (current == null <==> st.current.None?) &&
    (current != null ==> current.Value() == st.current.value) &&
    (forall j :: |dicts| - st.shared <= j < |dicts| ==> dicts[j] == current) &&
    (forall j :: 0 <= j < |dicts| - st.shared ==> dicts[j] != current)
  }

  /** One iteration of the scanning loop. */
  method ScanLine(raw: string, dicts: seq<ItemDict>, current: ItemDict?, ghost st: ScanState)
    returns (dicts': seq<ItemDict>, current': ItemDict?)
    requires Mirrors(dicts, current, st)
    modifies current
    ensures Mirrors(dicts', current', Step(st, raw))
    ensures dicts' == dicts || dicts' == dicts + [current]
    ensures current' == current || fresh(current')
  {
    dicts', current' := dicts, current;
    match Classify(raw, current != null) {
      case Marker(clean) =>
        dicts', current' := MarkerLine(clean, dicts, current, st);
      case PortionLine(Some(d)) =>
        SetPortion(dicts, current, st, d + "g");
      case ConfidenceLine(Some(c)) =>
        SetConfidence(dicts, current, st, NormalizeConfidence(c));
      case _ =>
    }
  }

  /** A marker line on the dictionaries. */
  method MarkerLine(clean: string, dicts: seq<ItemDict>, current: ItemDict?, ghost st: ScanState)
    returns (dicts': seq<ItemDict>, current': ItemDict?)
    requires Mirrors(dicts, current, st)
    ensures Mirrors(dicts', current', MarkerStep(st, clean))
    ensures dicts' == dicts || dicts' == dicts + [current]
    ensures current' == current || fresh(current')
  {
    dicts' := SaveCurrent(dicts, current, st);
    current' := current;
    if clean != [] {
      current' := new ItemDict(NameOf(clean), "100g", 0.7);
      assert forall j :: 0 <= j < |dicts'| ==> dicts'[j] != current';
    }
  }

  /** Appends the current dictionary, if it has a name, to the list. */
  method SaveCurrent(dicts: seq<ItemDict>, current: ItemDict?, ghost st: ScanState)
    returns (dicts': seq<ItemDict>)
    requires Mirrors(dicts, current, st)
    ensures Mirrors(dicts', current, Saved(st))
    ensures dicts' == dicts || dicts' == dicts + [current]
  {
    dicts' := dicts;
    if current != null && current.name != [] {
      dicts' := dicts + [current];
      assert dicts'[|dicts|] == current;
    }
  }

  /** Setting the portion of the current dictionary changes every appended copy of it. */
  method SetPortion(dicts: seq<ItemDict>, current: ItemDict?, ghost st: ScanState, portion: string)
    requires Mirrors(dicts, current, st) && current != null
    modifies current
    ensures Mirrors(dicts, current, Update(st, st.current.value.(portion := portion)))
  {
    current.portion := portion;
    UpdateMirrored(dicts, current, st, st.current.value.(portion := portion));
  }

  /** Setting the confidence of the current dictionary changes every appended copy of it. */
  method SetConfidence(dicts: seq<ItemDict>, current: ItemDict?, ghost st: ScanState, confidence: real)
    requires Mirrors(dicts, current, st) && current != null
    modifies current
    ensures Mirrors(dicts, current, Update(st, st.current.value.(confidence := confidence)))
  {
    current.confidence := confidence;
    UpdateMirrored(dicts, current, st, st.current.value.(confidence := confidence));
  }

  /** After the current dictionary alone has changed to `it`, the dictionaries hold the
      updated state. */
  lemma UpdateMirrored(dicts: seq<ItemDict>, current: ItemDict, st: ScanState, it: Item)
    requires st.shared <= |st.items| && |dicts| == |st.items| && st.current.Some?
    requires current.Value() == it
    requires forall j :: |dicts| - st.shared <= j < |dicts| ==> dicts[j] == current
    requires forall j :: 0 <= j < |dicts| - st.shared ==> dicts[j] != current && dicts[j].Value() == st.items[j]
    ensures Mirrors(dicts, current, Update(st, it))
  {
  }

  /** The scanning loop on dictionaries, appending and updating in place. */
  method ScanLines(lines: seq<string>) returns (items: seq<Item>)
    ensures items == Finish(Scan(lines, Initial))
  {
    var dicts: seq<ItemDict> := [];
    var current: ItemDict? := null;
    ghost var st := Initial;
    for i := 0 to |lines|
      invariant st.shared <= |st.items| && Scan(lines[i..], st) == Scan(lines, Initial)
      invariant Mirrors(dicts, current, st)
      invariant current != null ==> fresh(current)
      invariant forall j :: 0 <= j < |dicts| ==> fresh(dicts[j])
    {
      assert lines[i..][1..] == lines[i + 1..];
      dicts, current := ScanLine(lines[i], dicts, current, st);
      st := Step(st, lines[i]);
    }
    items := Values(dicts);
    if current != null && current.name != [] {
      items := items + [current.Value()];
    }
  }

  /** The keyword fallback loop: patterns in order, matches in order, stop at three items. */
  method Fallback(text: string) returns (items: seq<Item>)
    ensures items == FallbackSpec(text)
  {
    items := [];
    var done := false;
    var p := 0;
    while p < |Patterns| && !done
      invariant 0 <= p <= |Patterns|
      invariant !done ==> items == AcceptedItems(MatchesOf(text, p)) && |items| < 3
      invariant done ==> items == FallbackSpec(text)
    {
      items, done := AcceptMatches(text, p, items);
      p := p + 1;
    }
  }

  /** The inner loop of the fallback: the matches of one pattern. */
  method AcceptMatches(text: string, p: nat, items0: seq<Item>) returns (items: seq<Item>, done: bool)
    requires p < |Patterns|
    requires items0 == AcceptedItems(MatchesOf(text, p)) && |items0| < 3
    ensures !done ==> items == AcceptedItems(MatchesOf(text, p + 1)) && |items| < 3
    ensures done ==> items == FallbackSpec(text)
  {
    items, done := items0, false;
    var matches := FindAll(Patterns[p], text, 0);
    ghost var before := MatchesOf(text, p);
    var k := 0;
    assert before + matches[..k] == before;
    while k < |matches| && !done
      invariant 0 <= k <= |matches|
      invariant !done ==> items == AcceptedItems(before + matches[..k]) && |items| < 3
      invariant done ==> items == FallbackSpec(text)
    {
      AcceptStep(before, matches, k);
      var c := Cleaned(matches[k]);
      if Acceptable(c) {
        items := items + [Item(c, "100g", 0.6)];
        if |items| >= 3 {
          SeenPrefix(text, p, k + 1);
          FallbackSettles(text, before + matches[..k + 1], items);
          done := true;
        }
      }
      k := k + 1;
    }
    if !done {
      assert matches[..k] == matches;
      assert MatchesOf(text, p + 1) == before + matches;
    }
  }

  /** Accepting one more match. */
  lemma AcceptStep(before: seq<string>, matches: seq<string>, k: nat)
    requires k < |matches|
    ensures Acceptable(Cleaned(matches[k])) ==>
      (AcceptedItems(before + matches[..k + 1]) ==
       AcceptedItems(before + matches[..k]) + [Item(Cleaned(matches[k]), "100g", 0.6)])
    ensures !Acceptable(Cleaned(matches[k])) ==>
      (AcceptedItems(before + matches[..k + 1]) == AcceptedItems(before + matches[..k]))
  {
    var seen := before + matches[..k + 1];
    assert seen[..|seen| - 1] == before + matches[..k];
    assert seen[|seen| - 1] == matches[k];
    AcceptedLast(seen);
  }

  lemma AcceptedLast(ms: seq<string>)
    requires |ms| > 0
    ensures var last := Cleaned(ms[|ms| - 1]);
      AcceptedItems(ms) ==
      AcceptedItems(ms[..|ms| - 1]) + (if Acceptable(last) then [Item(last, "100g", 0.6)] else [])
  {
  }

  /** Once three items are accepted, the matches still to come change nothing. */
  lemma FallbackSettles(text: string, seen: seq<string>, items: seq<Item>)
    requires |seen| <= |MatchesOf(text, 3)| && MatchesOf(text, 3)[..|seen|] == seen
    requires items == AcceptedItems(seen) && |items| == 3
    ensures items == FallbackSpec(text)
  {
    var all := MatchesOf(text, 3);
    assert all == seen + all[|seen|..];
    AcceptedItemsAppend(seen, all[|seen|..]);
  }

  /** The matches seen by the fallback loop are a prefix of all matches. */
  lemma SeenPrefix(text: string, p: nat, k: nat)
    requires p < |Patterns| && k <= |FindAll(Patterns[p], text, 0)|
    ensures var seen := MatchesOf(text, p) + FindAll(Patterns[p], text, 0)[..k];
      |seen| <= |MatchesOf(text, 3)| && MatchesOf(text, 3)[..|seen|] == seen
  {
    var matches := FindAll(Patterns[p], text, 0);
    var seen := MatchesOf(text, p) + matches[..k];
    MatchesOfPrefix(text, p + 1, 3);
    var mid := MatchesOf(text, p + 1);
    assert mid == MatchesOf(text, p) + matches;
    assert mid[..|seen|] == seen;
  }

  /** `_parse_vision_text_response` with the regular-expression module available. */
  method ParseVisionTextResponse(text: string) returns (items: seq<Item>)
    ensures items == ParseSpec(text)
    ensures |items| <= 5
  {
    items := ScanLines(Lines(text));
    if items == [] {
      items := Fallback(text);
    }
    items := Take(items, 5);
  }

  // ---------------------------------------------------------------------------------------
  // Properties of the intended parser

  /** `<digits>g`, the only portion text the parser produces. */
  predicate GramsText(p: string) {
    |p| >= 2 && p[|p| - 1] == 'g' && AllDigits(p[..|p| - 1])
  }

  /** An item may still be refined: its confidence is in [0, 1] and its portion is grams. */
  predicate Refinable(it: Item) {
    0.0 <= it.confidence <= 1.0 && GramsText(it.portion)
  }

  /** An item the parser may emit. */
  predicate Emittable(it: Item) {
    it.name != [] && Refinable(it)
  }

  predicate WellFormed(st: ScanState) {
    Coherent(st) &&
    (forall j :: 0 <= j < |st.items| ==> Emittable(st.items[j])) &&
    (st.current.Some? ==> Refinable(st.current.value))
  }

  lemma GramsTextOf(d: string)
    requires |d| > 0 && AllDigits(d)
    ensures GramsText(d + "g")
  {
    assert (d + "g")[..|d|] == d;
  }

  /** Every line keeps the scan state well formed. */
  lemma StepWellFormed(st: ScanState, raw: string)
    requires WellFormed(st)
    ensures WellFormed(Step(st, raw))
  {
    match Classify(raw, st.current.Some?)
    case Marker(clean) => MarkerWellFormed(st, clean);
    case PortionLine(Some(d)) =>
      GramsTextOf(d);
      UpdateWellFormed(st, st.current.value.(portion := d + "g"));
    case ConfidenceLine(Some(c)) =>
      UpdateWellFormed(st, st.current.value.(confidence := NormalizeConfidence(c)));
    case _ =>
  }

  lemma MarkerWellFormed(st: ScanState, clean: string)
    requires WellFormed(st)
    ensures WellFormed(MarkerStep(st, clean))
  {
    GramsTextOf("100");
    assert "100" + "g" == "100g";
  }

  lemma UpdateWellFormed(st: ScanState, it: Item)
    requires WellFormed(st) && st.current.Some? && Refinable(it)
    requires it.name == st.current.value.name
    ensures WellFormed(Update(st, it))
  {
    if st.shared > 0 {
      assert st.items[|st.items| - 1] == st.current.value;
    }
  }

  lemma {:induction false} ScanWellFormed(lines: seq<string>, st: ScanState)
    requires WellFormed(st)
    decreases |lines|
    ensures WellFormed(Scan(lines, st))
  {
    if |lines| > 0 {
      StepWellFormed(st, lines[0]);
      ScanWellFormed(lines[1..], Step(st, lines[0]));
    }
  }

  /** Every item the parser returns has a name, a confidence in [0, 1] and a portion of the
      form `<digits>g`; fallback items have names of 4 to 49 characters and confidence 0.6. */
  lemma ParsedItemsWellFormed(text: string)
    ensures forall k :: 0 <= k < |ParseSpec(text)| ==> Emittable(ParseSpec(text)[k])
    ensures Scanned(text) == [] ==> forall k :: 0 <= k < |ParseSpec(text)| ==>
      3 < |ParseSpec(text)[k].name| < 50 && ParseSpec(text)[k].confidence == 0.6
  {
    var scanned := Scanned(text);
    var fallback := FallbackSpec(text);
    ScannedEmittable(text);
    FallbackEmittable(text);
    var all := if scanned == [] then fallback else scanned;
    assert AllEmittable(all);
    TakeEmittable(all, 5);
  }

  predicate AllEmittable(items: seq<Item>) {
    forall k :: 0 <= k < |items| ==> Emittable(items[k])
  }

  lemma ScannedEmittable(text: string)
    ensures AllEmittable(Scanned(text))
  {
    ScanWellFormed(Lines(text), Initial);
  }

  lemma FallbackEmittable(text: string)
    ensures AllEmittable(FallbackSpec(text))
  {
    GramsTextOf("100");
    assert "100" + "g" == "100g";
  }

  lemma TakeEmittable(items: seq<Item>, n: nat)
    requires AllEmittable(items)
    ensures AllEmittable(Take(items, n))
  {
    var r := Take(items, n);
    assert forall k :: 0 <= k < |r| ==> r[k] == items[k];
  }

  /** Only a marker line can append an item or start a new one: any other line keeps the
      number of items, every name, and whether there is a current item. */
  lemma OnlyMarkersChangeNames(st: ScanState, raw: string)
    requires Coherent(st) && !Classify(raw, st.current.Some?).Marker?
    ensures |Step(st, raw).items| == |st.items|
    ensures forall j :: 0 <= j < |st.items| ==> Step(st, raw).items[j].name == st.items[j].name
    ensures Step(st, raw).current.Some? == st.current.Some?
    ensures st.current.Some? ==> Step(st, raw).current.value.name == st.current.value.name
  {
    var r := Step(st, raw);
    forall j | 0 <= j < |st.items|
      ensures r.items[j].name == st.items[j].name
    {
      if j >= |st.items| - st.shared {
        assert st.items[j] == st.current.value;
      }
    }
  }

  /** A stripped text strips to itself. */
  lemma StripStripped(s: string)
    requires s == [] || (!IsSpace(s[0]) && !IsSpace(s[|s| - 1]))
    ensures Strip(s) == s
  {
  }

  /** The item a marker line starts: its cleaned name, 100 g and confidence 0.7. */
  function MarkerItem(line: string): Item {
    Item(NameOf(RemoveItemWords(StripListPrefix(line))), "100g", 0.7)
  }

  /** A reply of one marker line that names something, without surrounding whitespace,
      yields exactly that item. */
  lemma OneMarkerLine(line: string)
    requires '\n' !in line
    requires line == [] || (!IsSpace(line[0]) && !IsSpace(line[|line| - 1]))
    requires IsMarker(Lower(line))
    requires MarkerItem(line).name != []
    ensures ParseSpec(line) == [MarkerItem(line)]
  {
    OneMarkerScanned(line);
    ScannedKept(line, [MarkerItem(line)]);
  }

  /** Up to five scanned items are the parse, unchanged. */
  lemma ScannedKept(text: string, items: seq<Item>)
    requires Scanned(text) == items && items != [] && |items| <= 5
    ensures ParseSpec(text) == items
  {
    assert Take(items, 5) == items;
  }

  lemma OneMarkerScanned(line: string)
    requires '\n' !in line
    requires line == [] || (!IsSpace(line[0]) && !IsSpace(line[|line| - 1]))
    requires IsMarker(Lower(line))
    requires MarkerItem(line).name != []
    ensures Scanned(line) == [MarkerItem(line)]
  {
    StripStripped(line);
    ScannedOneLine(line);
    FirstMarkerStep(line);
    FinishOne(MarkerItem(line));
  }

  /** A reply without line breaks is scanned as its one stripped line. */
  lemma ScannedOneLine(text: string)
    requires '\n' !in text
    ensures Scanned(text) == Finish(Step(Initial, Strip(text)))
  {
    OneLine(text);
    ScanOne(Strip(text), Initial);
  }

  /** A named current item and nothing appended finishes as that item alone. */
  lemma FinishOne(item: Item)
    requires item.name != []
    ensures Finish(ScanState([], Some(item), 0)) == [item]
  {
  }

  /** A stripped marker line that names something, scanned first, starts the current item
      with the defaults. */
  lemma FirstMarkerStep(line: string)
    requires line == [] || (!IsSpace(line[0]) && !IsSpace(line[|line| - 1]))
    requires IsMarker(Lower(line))
    requires MarkerItem(line).name != []
    ensures Step(Initial, line) ==
      ScanState([], Some(MarkerItem(line)), 0)
  {
    var clean := RemoveItemWords(StripListPrefix(line));
    MarkerClassified(line);
    StepOnMarker(Initial, line, clean);
    NameOfEmpty();
  }

  lemma StepOnMarker(st: ScanState, raw: string, clean: string)
    requires st.shared <= |st.items|
    requires Classify(raw, st.current.Some?) == Marker(clean)
    ensures Step(st, raw) == MarkerStep(st, clean)
  {
  }

  /** An empty text names nothing. */
  lemma NameOfEmpty()
    ensures NameOf([]) == []
  {
  }

  lemma MarkerClassified(line: string)
    requires line == [] || (!IsSpace(line[0]) && !IsSpace(line[|line| - 1]))
    requires IsMarker(Lower(line))
    ensures Classify(line, false) == Marker(RemoveItemWords(StripListPrefix(line)))
  {
    StripStripped(line);
    MarkerNonEmpty(Lower(line));
  }

  /** Every marker word is non-empty, so only a non-empty line can hold one. */
  lemma MarkerNonEmpty(lower: string)
    requires IsMarker(lower)
    ensures lower != []
  {
    var k :| 0 <= k < |MarkerWords| && Contains(lower, MarkerWords[k]);
    assert |MarkerWords[k]| > 0;
  }

  lemma ScanOne(line: string, st: ScanState)
    requires st.shared <= |st.items|
    ensures Scan([line], st) == Step(st, line)
  {
    assert [line][1..] == [];
  }

  lemma OneLine(text: string)
    requires '\n' !in text
    ensures Lines(text) == [Strip(text)]
  {
    StripKeeps(text);
    SplitWithout(Strip(text), '\n');
  }

  // ---------------------------------------------------------------------------------------
  // The parser as written: the module never imports `re`

  /** The `NameError` raised by the first use of `re`. */
  const ReMissing: string := "name 're' is not defined"

  /** The scanning loop as written: the branches that do not call `re` go on, and every
      branch that does raises. */
  function ScanAsWritten(lines: seq<string>, current: Option<Item>): (r: Outcome<Option<Item>>)
  {
    if |lines| == 0 then Ok(current)
    else match Classify(lines[0], current.Some?)
      case Blank => ScanAsWritten(lines[1..], current)
      case Other => ScanAsWritten(lines[1..], current)
      case _ => Raised(ReMissing)
  }

  /** `_parse_vision_text_response` as written: the body runs until the first use of `re`
      and the handler then returns the generic item. */
  function ParseAsWritten(text: string): (r: seq<Item>)
    ensures |r| <= 5
  {
    var body :=
      match ScanAsWritten(Lines(text), None)
      case Raised(e) => Raised(e)
      case Ok(cur) =>
        var items := if cur.Some? && cur.value.name != [] then [cur.value] else [];
        if items == [] then Raised(ReMissing) else Ok(items);
    Take(if body.Ok? then body.value else [MixedFood], 5)
  }

  /** Without a current item no branch that would create one can complete. */
  lemma {:induction false} ScanAsWrittenNeverStarts(lines: seq<string>)
    decreases |lines|
    ensures ScanAsWritten(lines, None) == Ok(None) || ScanAsWritten(lines, None).Raised?
  {
    if |lines| > 0 {
      ScanAsWrittenNeverStarts(lines[1..]);
    }
  }

  /** As written, every reply parses to the single generic item. */
  lemma AsWrittenAlwaysMixedFood(text: string)
    ensures ParseAsWritten(text) == [MixedFood]
  {
    ScanAsWrittenNeverStarts(Lines(text));
  }
}
